=== FILE: README.md ===
# VIB34D editor dashboard: a Dafny model of the parameter core

This project models the deterministic core under the VIB34D editor
dashboard's browser glue. It covers six parts, each in its own module:

- `HomeMaster` (`home_master.dfy`): the home-master parameter derivation.
  A master state is scaled by a section row and then by a role row. It also
  covers interaction ingestion, the per-frame decay tick, the
  `applyEffect` set/add/multiply interpreter with its timed reverts, and the
  editor update paths.
- `Bridge` (`reactivity_bridge.dfy`): the unified reactivity bridge. This
  covers the bounded event queue, per-frame batching and frame-time tiering,
  and the mouse, scroll, click, editor and cube-navigation handlers over a
  map of CSS properties. It also covers the card-effect CSS variable rule and
  the parameter bag that the live `getWebGLParameters` builds for each
  visualizer.
- `ContextCache` (`context_cache.dfy`): the context manager. This covers the
  keyed parameter cache with 3-decimal compression, hit and miss accounting,
  20% score-based eviction, Hamming face distance and adjacency, face
  transitions, bounded parameter history, and cache metadata.
- `Progressive` (`progressive.dfy`): the progressive-enhancement
  controller. Its state is the visualizer count, the quality index, the
  interaction score and the performance history.
- `WebGlPerf` (`webgl_perf.dfy`): the WebGL performance system. This covers
  the context pool, the 32-bit string hash, the shader and program cache with
  its hit rate, the render-time window, and quality scaling.
- `Chromatic` (`chromatic.dfy`): the chromatic integration. This covers
  dotted-path lookup, the curve mapping, exponential smoothing, the uniform
  bridge, the CSS modulation formulas, the hue classifier, the blend-mode
  controller and the engine update.

`Common` (`common.dfy`) holds the shared vocabulary:

- `Option`;
- numeric `min`/`max`/`abs`;
- JavaScript `x || d` on numbers;
- option defaults merged under a later object spread;
- the `push`-then-`shift` bound;
- 32-bit conversions and decimal text.

Modelling conventions:

- Numbers are `real`.
- JavaScript objects with known keys are datatypes. Objects used as
  dictionaries are `map`s.
- Wall-clock reads, `Math.random` and GL success become parameters.
- Timers become explicit steps.
- `Math.pow(|x|, 1.5)` is an uninterpreted parameter `pow`.

Where a JavaScript class defines a method twice, the later definition is the
live one, and it is the one modelled: `startUpdateLoop` at :775 and
`getWebGLParameters` at :1069 in `core/UnifiedReactivityBridge.js`.

Options in `VIB34D_WEBGL_PERFORMANCE_SYSTEM.js:18-26` and
`VIB34D_PROGRESSIVE_ENHANCEMENT_SYSTEM.js:18-26` are written as
`options.x || d`, but `...options` is spread after the defaults. So any key
the caller gives wins, even `false` or `0`, and only an absent key takes
its default. In particular, `adaptiveQualityScaling` is not always true: an
explicit `false` turns adaptive scaling off. The model follows that code
(`WebGlPerf.MakeOptions`, `Progressive.MakeOptions`).

## Model

| member | source | states |
|---|---|---|
| Common.Or | core/VIB3HomeMaster.js:244-247 | JavaScript `x \|\| d` on a number: a present non-zero value wins; a missing value or a zero falls back to the default |
| Common.PushBounded | VIB34D_PROGRESSIVE_ENHANCEMENT_SYSTEM.js:139-146 | appending to a window that is full drops exactly the oldest element; the result is always the newest suffix of the old window plus the new element |
| Common.NatText | core/VIB34DContextManager.js:148 | the decimal text of a natural number is a non-empty string of digits |
| Common.NatTextReadsBack | core/VIB34DContextManager.js:148 | that text has no leading zero and reads back, digit by digit, as the number |
| Common.FilterMembers | core/VIB34DContextManager.js:242 | `filter` keeps exactly the elements satisfying the predicate and never grows the array |
| Common.FilterAppend | core/VIB34DContextManager.js:242 | `filter` distributes over concatenation and keeps a single element iff it satisfies the predicate, so it keeps order and multiplicity |
| Common.ToInt32 | VIB34D_WEBGL_PERFORMANCE_SYSTEM.js:480-488 | the int32 conversion lands in [-2^31, 2^31) and is congruent to its input modulo 2^32 |
| HomeMaster.ParseRole | core/VIB3HomeMaster.js:290-295 | a role string names a role row exactly when it is that role's label; the other strings name no row |
| HomeMaster.ParseRoleLabel | core/VIB3HomeMaster.js:105-146 | every role's label parses back to that role |
| HomeMaster.SetDial | core/VIB3HomeMaster.js:448-458 | writing one numeric master-state dial makes it read back as the written value and leaves every other dial unchanged; the non-numeric properties are not dials (see Left out) |
| HomeMaster.ApplyMasterControls | core/VIB3HomeMaster.js:182-197 | absent controls leave the state alone; a present intensity or speed default is copied in; a grid complexity is stored divided by 3; nothing else changes |
| HomeMaster.SectionName | core/VIB3HomeMaster.js:279-282 | keys 0..4 name home, tech, media, audio, quantum; every other key, 5 included, names home |
| HomeMaster.EffectiveSection | core/VIB3HomeMaster.js:233-238 | an unknown section key falls back to section 0, and a known key is kept |
| HomeMaster.ParametersForSection | core/VIB3HomeMaster.js:233-274 | an unknown key derives exactly the section-0 bag; geometry comes from the row; dimension, coherence and the interaction scalars pass through; without a page relation each scalar is master value times row modifier; colour vibrancy appears iff its override is non-zero |
| HomeMaster.ZeroPageModifierIgnored | core/VIB3HomeMaster.js:244-252 | a page-relation modifier of 0 is ignored (JavaScript `\|\|`) and the row's default modifier is used |
| HomeMaster.PageModifierOverrides | core/VIB3HomeMaster.js:244-252 | a non-zero page-relation modifier replaces the row's modifier |
| HomeMaster.ApplyColorModification | core/VIB3HomeMaster.js:324-337 | base keeps the colour; brighten never goes above 1 and never darkens a channel in [0,1]; darken keeps a non-negative channel between 0 and itself; complement sums to 1 per channel |
| HomeMaster.ComplementInvolution | core/VIB3HomeMaster.js:330-332 | complementing twice gives back the original colour |
| HomeMaster.RoleLayer | core/VIB3HomeMaster.js:298-316 | a role keeps geometry, intensity and coherence; it shifts the dimension by exactly the role's boost; a scale of 1 passes its quantity through; a grid scale in [0,1] never raises density |
| HomeMaster.InstanceParameters | core/VIB3HomeMaster.js:288-319 | an unknown role returns the section bag unchanged; a known role returns the role layer applied to the section bag |
| HomeMaster.DerivationComposes | core/VIB3HomeMaster.js:250-303 | through both layers, grid density, rotation speed and morph factor are the master value times the section modifier times the role scale |
| HomeMaster.InteractionScalarsSkipSection | core/VIB3HomeMaster.js:255-312 | the interaction scalars reach an instance scaled only by the role's sensitivity, and the dimension only shifted by the role's boost |
| HomeMaster.ContentRoleIsIdentity | core/VIB3HomeMaster.js:105-129 | the content role changes nothing; the background role never raises a non-negative density |
| HomeMaster.TransitionToSection | core/VIB3HomeMaster.js:368-378 | the current section is a no-op; any other section becomes active with progress reset to 0 and coherence set to 1.5, and nothing else changes |
| HomeMaster.UpdateInteraction | core/VIB3HomeMaster.js:342-363 | mouse intensity is the given intensity, or 1 when that is above 1; a click raises the pulse by 0.8, and a pulse above 0.2 becomes exactly 1; a scroll sets chaos to \|chaos\|, or 1 when that is above 1, and intensity to intensity + 0.1·\|velocity\|, or 1 when that is above 1; a section input transitions; other inputs do nothing; each case touches only its own fields |
| HomeMaster.ClickTwiceSaturates | core/VIB3HomeMaster.js:348-350 | two clicks from any non-negative pulse saturate it at exactly 1 |
| HomeMaster.Tick | core/VIB3HomeMaster.js:387-413 | non-negative interaction scalars decay and never grow; progress below 1 rises by exactly 0.02, or to 1 when that would pass 1; coherence above 1 becomes 0.98 times itself; when idle after the decay, intensity becomes max(0.3, 0.99·intensity); only these fields change |
| HomeMaster.Frame | core/VIB3HomeMaster.js:384-413 | a tick runs exactly when at least the 16 ms update interval has passed, and the last-update time moves only then |
| HomeMaster.DecayNeverIncreases | core/VIB3HomeMaster.js:389-391 | over any number of ticks, interaction scalars in [0,1] stay in [0,1] and never increase |
| HomeMaster.DecayClosedForm | core/VIB3HomeMaster.js:149-153 | after n ticks the mouse intensity, click pulse and scroll chaos are their starting values times 0.95^n, 0.92^n and 0.96^n |
| HomeMaster.TicksKeepSection | core/VIB3HomeMaster.js:387-413 | ticking never changes the active section, the editor overrides or the dimension |
| HomeMaster.TransitionProgressClimbs | core/VIB3HomeMaster.js:394-397 | starting at 0, progress after n ≤ 50 ticks is exactly 0.02·n |
| HomeMaster.TransitionCompletesIn50Steps | core/VIB3HomeMaster.js:394-397 | a transition completes after exactly 50 ticks |
| HomeMaster.IntensityFloorHolds | core/VIB3HomeMaster.js:405-410 | once intensity is at least 0.3, no number of ticks takes it below 0.3 |
| HomeMaster.ApplyOperationAsWritten | core/VIB3HomeMaster.js:449-462 | as written: set assigns, add adds, multiply on a zero dial yields the operand (`cur \|\| 1`), and an unknown operation is rejected |
| HomeMaster.MultiplyRevertAsWrittenLeavesOne | core/VIB3HomeMaster.js:456-482 | as written, multiplying a zero dial by 2 gives 2, and the timed revert then divides by 2 and leaves 1, not the original 0 |
| HomeMaster.RevertOperation | core/VIB3HomeMaster.js:477-485 | a revert subtracts an add, divides out a multiply, and restores the recorded baseline for set |
| HomeMaster.RevertUndoesOperation | core/VIB3HomeMaster.js:449-482 | as written, an add followed by its revert always gives back the original dial; a multiply by a non-zero value followed by its revert gives it back iff the dial was not 0 |
| HomeMaster.RevertBaseline | core/VIB3HomeMaster.js:473-475 | a set reverts intensity to its override or 0.8, complexity to its override or 0.5, and anything else to 0 |
| HomeMaster.ApplyEffect | core/VIB3HomeMaster.js:441-493 | a disabled effect, an effect without a state change, an unknown parameter or an unknown operation leaves the state unchanged; otherwise only the target dial changes, to the as-written operation's result (multiply on a zero dial gives the operand), and a duration schedules exactly one revert for that parameter, recording the operation, the operand, the set baseline and the dial's value before the effect |
| HomeMaster.FireRevert | core/VIB3HomeMaster.js:477-488 | a pending revert applies to its dial and removes its timer; with no timer nothing happens; other dials are untouched |
| HomeMaster.EffectThenRevertAsWritten | core/VIB3HomeMaster.js:441-488 | as written, a timed add followed by its revert leaves the dial where it started; a timed multiply by a non-zero value does so iff the dial did not start at 0 |
| HomeMaster.PortallingRevertAsWrittenLeavesOne | core/VIB3HomeMaster.js:456-482 | as written, a timed multiply by 2 of the initial `isPortalling` (0) sets it to 2, and the revert leaves it at 1 |
| HomeMaster.RestoreValue | core/VIB3HomeMaster.js:477-485 | the corrected revert restores the pre-effect value for add and multiply, and the set baseline for set |
| HomeMaster.FireRestore | core/VIB3HomeMaster.js:477-488 | the corrected revert timer: with no timer nothing happens; otherwise the timer is removed, the dial takes the restored value, and other dials are untouched |
| HomeMaster.EffectThenRestoreRestores | core/VIB3HomeMaster.js:441-488 | with the corrected revert, any timed add or multiply, a zero dial and a zero operand included, followed by its revert leaves the dial exactly where it started and every other dial as it was |
| HomeMaster.RegisterInteraction | core/VIB3HomeMaster.js:436-555 | without presets, and for unhandled kinds, nothing changes; an enabled cube-rotation preset sets mouse intensity to min(1, intensity·amount), amount defaulting to 0.02, and hover likewise with 0.6; an enabled content-gravity preset sets the `contentGravity` override to its amount, defaulting to 0.3; a disabled or missing preset changes nothing; tension build, cube tension and the portal transition apply their effect pair when configured |
| HomeMaster.UpdateFromEditor | core/VIB3HomeMaster.js:202-227 | each known editor parameter sets its master value and records the raw value as an override (grid complexity stored divided by 3); colour vibrancy only overrides; unknown parameters change nothing |
| HomeMaster.OverrideReadsBack | core/VIB3HomeMaster.js:572-575 | after `overrideParameters`, every written key reads back its last written value in both the master state and the overrides; unwritten keys keep their old values |
| HomeMaster.DialsReadBack | core/VIB3HomeMaster.js:573 | `Object.assign` onto the master state: the last write of a key wins, and unwritten keys are unchanged |
| HomeMaster.AssignReadsBack | core/VIB3HomeMaster.js:574 | `Object.assign` onto the overrides map: the last write wins, and other keys are unchanged |
| Bridge.UpdateCssProperty | core/UnifiedReactivityBridge.js:618-621 | the property reads back as the written value; every other property is unchanged; the key set gains exactly that property |
| Bridge.InitialBridge | core/UnifiedReactivityBridge.js:13-84 | a new bridge has an empty queue, is not processing, batches 3 events per frame, and holds numeric navigation settings |
| Bridge.QueueEvent | core/UnifiedReactivityBridge.js:319-326 | the queue never exceeds 50; below the limit the event is appended; on overflow exactly the 30 newest events remain in order, the new one last |
| Bridge.MouseIntensity | core/UnifiedReactivityBridge.js:433 | mouse intensity is velocity/40 capped at 1, and non-negative for a non-negative velocity |
| Bridge.MicroScale | core/UnifiedReactivityBridge.js:437 | for an intensity in [0,1] the micro-interaction scale lies in [1, 1.05] |
| Bridge.ScrollVelocity | core/UnifiedReactivityBridge.js:455 | scroll velocity is v/100 capped at 1 |
| Bridge.ScrollChaos | core/UnifiedReactivityBridge.js:456 | chaos is accumulated/500 capped at 1 |
| Bridge.PortalEnergy | core/UnifiedReactivityBridge.js:508-509 | portal energy is v/1000 capped at 2, and above 1.5 whenever a burst fires |
| Bridge.ScrollProgress | core/UnifiedReactivityBridge.js:461 | scroll progress is position over page height; a zero height gives a non-number |
| Bridge.WheelInput | core/UnifiedReactivityBridge.js:262-277 | a wheel event adds \|deltaY\| to the accumulator and queues a scroll event carrying it |
| Bridge.DecayAccumulator | core/UnifiedReactivityBridge.js:280-283 | the scroll accumulator decays by ×0.9 and snaps to 0 below 1, never growing |
| Bridge.ProcessMouse | core/UnifiedReactivityBridge.js:432-452 | mouse processing writes the influence and micro-scale variables and feeds the capped intensity to the home master |
| Bridge.TriggerPortalBurst | core/UnifiedReactivityBridge.js:508-514 | a burst writes the portal energy and sets chaos to 1 |
| Bridge.ProcessScroll | core/UnifiedReactivityBridge.js:454-480 | scroll writes global intensity, chaos and progress; above 1500 the burst overrides chaos with 1 and writes portal energy; the home master gets the normalised velocity and chaos |
| Bridge.ProcessClick | core/UnifiedReactivityBridge.js:482-495 | a click sets global intensity to 1 and raises the home master's click pulse |
| Bridge.ProcessEditorUpdate | core/UnifiedReactivityBridge.js:374-402 | each known editor parameter writes its CSS variable (crystalline accents as "1"/"0"), unknown ones write nothing, and every update reaches the home master |
| Bridge.ProcessCubeNavigation | core/UnifiedReactivityBridge.js:407-430 | below the drag threshold only the cube tension is written and nothing is registered; otherwise the portal energy is the snap strength and a cube rotation of tension·snap is registered |
| Bridge.ProcessEvent | core/UnifiedReactivityBridge.js:342-369 | each event type reaches its handler; visualizer-interaction, preset and unknown events change nothing |
| Bridge.DrainIsFifo | core/UnifiedReactivityBridge.js:334-337 | taking k events processes exactly the first k in order and leaves the rest queued |
| Bridge.BatchSize | core/UnifiedReactivityBridge.js:332 | a frame takes min(maxEventsPerFrame, queue length) events |
| Bridge.ProcessEventQueue | core/UnifiedReactivityBridge.js:328-340 | an empty or busy queue is left alone; otherwise exactly one batch is dequeued from the front and processed in order |
| Bridge.ProcessEventQueueLoop | core/UnifiedReactivityBridge.js:328-340 | the imperative shift loop computes the same result as the functional batch |
| Bridge.Tier | core/UnifiedReactivityBridge.js:631-640 | a frame time above 32 gives 1 event (minimal), above 20 gives 2 (standard), otherwise 3 (premium) |
| Bridge.PerformanceTick | core/UnifiedReactivityBridge.js:625-641 | the monitor records the frame time and sets the batch size and profile from its tier, leaving the queue and world alone |
| Bridge.BatchBounds | core/UnifiedReactivityBridge.js:623-641 | after any monitor tick a non-empty queue drains 1 to 3 events per frame |
| Bridge.FireTimer | core/UnifiedReactivityBridge.js:482-522 | each auto-decay timer (click pulse, portal burst, and likewise mouse influence at :252-254) resets only its own variable to 0, and the scroll-accumulator timer touches no variable |
| Bridge.BridgeFrame | core/UnifiedReactivityBridge.js:775-782 | a live frame processes one batch and then publishes the home master's coherence |
| Bridge.IndexFrom | core/UnifiedReactivityBridge.js:813 | finds the first occurrence of a pattern at or after a position, or reports that there is none |
| Bridge.StripSuffix | core/UnifiedReactivityBridge.js:813 | replacing a `_`-suffix in a name with no other `_` yields the bare name |
| Bridge.CardUnit | core/UnifiedReactivityBridge.js:806-811 | the unit is px for `_px` names, % for `_percent` names, and empty otherwise |
| Common.JsRound | core/UnifiedReactivityBridge.js:817 | `Math.round` gives the unique integer within half a unit below or above, halves rounding up |
| Bridge.CardEffectWrite | core/UnifiedReactivityBridge.js:802-824 | an effect without a current value writes nothing; otherwise it writes its `--self-` variable, zIndex rounded, and any other number except borderColor with its value unchanged |
| Bridge.CardPxRule | core/UnifiedReactivityBridge.js:805-822 | an effect `base_px` writes `--self-base` as the value in px |
| Bridge.CardPercentRule | core/UnifiedReactivityBridge.js:805-822 | an effect `base_percent` writes `--self-base` as the value in % |
| Bridge.CardEffectWrites | core/UnifiedReactivityBridge.js:796-828 | a missing card writes nothing; otherwise there is at most one write per effect, and exactly one each when every effect has a current value |
| Bridge.TargetValue | core/UnifiedReactivityBridge.js:1125-1131 | an animated target yields `.current`, else `.target`, else 1.0 |
| Bridge.OverrideBag | core/UnifiedReactivityBridge.js:1110 | every editor override appears in the bag with its raw value |
| Bridge.TargetBag | core/UnifiedReactivityBridge.js:1122-1132 | every per-visualizer target appears with its target value |
| Bridge.WebGLParametersAsWritten | core/UnifiedReactivityBridge.js:1113-1115 | as written, the bag is undefined (the access throws) exactly when nothing is hovered and the caller passes no id |
| Bridge.SummaryCallThrowsAsWritten | core/UnifiedReactivityBridge.js:746-757 | with no hovered visualizer, the id-less call made by `getSystemState` throws |
| Bridge.WebGLParameters | core/UnifiedReactivityBridge.js:1069-1151 | the bag always carries the hover flag and the mouse position, and reports not hovered when nothing is hovered and the visualizer has no animation targets |
| Bridge.AsWrittenAgreesWhenDefined | core/UnifiedReactivityBridge.js:1113-1115 | whenever the as-written bag is defined, it equals the corrected bag |
| Bridge.OverridePrecedence | core/UnifiedReactivityBridge.js:1080-1132 | an editor override appears raw, after the spread, so a density override is no longer divided by 3, unless a per-visualizer target for that key wins |
| Bridge.BaseBagReads | core/UnifiedReactivityBridge.js:1080-1084 | without overrides, intensity, speed and density come from the section values, and there is no density multiplier yet |
| Bridge.SectionValuesByDefault | core/UnifiedReactivityBridge.js:1080-1138 | without overrides or targets, the bag carries the section's intensity, speed and density and a density multiplier of 1 |
| Bridge.VisualizerId | core/UnifiedReactivityBridge.js:1164 | a visualizer is identified by its instance id, else its role |
| Bridge.LayerBagAsWritten | core/UnifiedReactivityBridge.js:1162-1168 | as written, a visualizer's sync call throws exactly when nothing is hovered and the visualizer has no non-empty instance id and no role |
| Bridge.SyncAllLayersAsWritten | core/UnifiedReactivityBridge.js:1154-1177 | as written, the sync hands each visualizer, in order, its as-written bag, and throws exactly when one of those calls throws |
| Bridge.SyncThrowsAsWritten | core/UnifiedReactivityBridge.js:401 | as written, the sync that closes every editor update throws when nothing is hovered and some visualizer has neither id nor role |
| Common.AllSomeSpec | core/UnifiedReactivityBridge.js:1162-1173 | a loop that stops at the first throw succeeds exactly when no call throws, and then returns every result in place |
| ContextCache.Round3 | core/VIB34DContextManager.js:242 | compression rounds a number to the 0.001 grid and moves it by at most 0.0005 |
| ContextCache.Round3Fixes | core/VIB34DContextManager.js:242 | a number already on the grid is unchanged |
| ContextCache.Compress | core/VIB34DContextManager.js:242 | compression keeps the keys; every number, including numbers inside arrays, ends within 0.0005 and on the grid; non-numbers are kept |
| ContextCache.CompressIdempotent | core/VIB34DContextManager.js:242 | compressing twice is the same as compressing once |
| ContextCache.KeysAlias | core/VIB34DContextManager.js:148 | the `face_section_role` key is ambiguous: different section/role splits can give the same key |
| ContextCache.Lookup | core/VIB34DContextManager.js:184-187 | a lookup finds an entry stored under the key, or reports that no slot has the key |
| ContextCache.LookupIffKey | core/VIB34DContextManager.js:184-187 | a lookup hits iff the key is present |
| ContextCache.StoreSpec | core/VIB34DContextManager.js:170 | `Map.set`: the key reads back the new entry; other keys are unchanged; an existing key keeps its position and a new one is appended; distinct keys stay distinct |
| ContextCache.SortSpec | core/VIB34DContextManager.js:242 | the eviction sort yields a list sorted by the score, with the same set of keys, and distinct keys stay distinct |
| ContextCache.EvictCount | core/VIB34DContextManager.js:242 | eviction removes floor(0.2·n) entries |
| ContextCache.WithoutCount | core/VIB34DContextManager.js:242 | deleting a set of keys shrinks the cache by exactly the number of those keys that were present |
| ContextCache.CollectSpec | core/VIB34DContextManager.js:242 | eviction keeps n − floor(n/5) entries from the cache, and no removed entry ranks above a kept one |
| ContextCache.GarbageCollectAsWritten | core/VIB34DContextManager.js:242 | as written, eviction removes the entries with the lowest accessCount×age score |
| ContextCache.FreshEntryEvictedAsWritten | core/VIB34DContextManager.js:156-175 | as written, an entry just stored (access count 0, so score 0) is among those evicted when every other entry has a positive score |
| ContextCache.CacheThenMissAsWritten | core/VIB34DContextManager.js:147-175 | as written, caching a new key that takes the cache over its threshold, when every other entry has a positive score, loses the entry just stored |
| ContextCache.GarbageCollect | core/VIB34DContextManager.js:242 | eviction removes floor(0.2·n) entries, keeps keys distinct, and never removes an entry accessed later than one it keeps |
| ContextCache.LastMaximumSurvives | core/VIB34DContextManager.js:242 | an entry added last that ranks at least as high as every other entry survives eviction; under the recency order that is the entry just stored |
| ContextCache.CacheParameters | core/VIB34DContextManager.js:147-178 | below the threshold the key reads back the new entry (compressed when compression is on) and other keys are unchanged; above it, one corrected eviction (`ContextCache.GarbageCollect`, least recently accessed first, not the score order at :242) runs over the cache with the new entry, keeping n − floor(n/5) of those entries; only the cache changes |
| ContextCache.CacheParametersAsWritten | core/VIB34DContextManager.js:147-178 | as written: below the threshold the cache is the cache with the new entry stored; above it, the score-order eviction keeps n − floor(n/5) of those entries; only the cache changes |
| ContextCache.GetCachedParameters | core/VIB34DContextManager.js:183-211 | a hit returns the stored parameters, counts a hit and bumps that entry's access count and time in place, every slot keeping its position and key, and changes nothing else; a miss returns nothing and counts only a miss |
| ContextCache.RecordHit | core/VIB34DContextManager.js:187-191 | a hit bumps only the found entry, in its own slot, and counts one hit; every other key, every slot's position and every other field are unchanged |
| ContextCache.CachedEntryPresent | core/VIB34DContextManager.js:147-178 | with recency eviction, and no stored entry newer than now, a just-cached entry is present afterwards whenever its key is new or the cache is below the threshold |
| ContextCache.GetAfterCache | core/VIB34DContextManager.js:147-211 | getting after caching returns the parameters, compressed when compression is on |
| ContextCache.AliasedLookupHits | core/VIB34DContextManager.js:184 | a lookup under a different section/role split with the same key text hits the cached entry |
| ContextCache.HitRate | core/VIB34DContextManager.js:242 | the hit rate is in [0,1], 0 with no lookups, and 1 with only hits |
| ContextCache.XorZeroIffEqual | core/VIB34DContextManager.js:242 | xor is 0 iff the operands are equal |
| ContextCache.XorCommutes | core/VIB34DContextManager.js:242 | xor is symmetric |
| ContextCache.PopCountXorIsHamming | core/VIB34DContextManager.js:242 | counting the ones of a xor b is the bitwise Hamming distance |
| ContextCache.HammingTriangle | core/VIB34DContextManager.js:242 | the Hamming distance obeys the triangle inequality |
| ContextCache.FaceDistanceSpec | core/VIB34DContextManager.js:242 | face distance is symmetric, is 0 iff the faces agree as 32-bit words, and is the Hamming distance for non-negative int32 faces |
| ContextCache.AdjacentFaces | core/VIB34DContextManager.js:242 | adjacent faces are exactly the faces 0..7 other than the current one within the radius, in ascending order |
| ContextCache.AdjacencySymmetric | core/VIB34DContextManager.js:242 | face d is adjacent to c iff c is adjacent to d |
| ContextCache.HandleFaceTransition | core/VIB34DContextManager.js:242 | a transition records from/to faces and the transition entry, marks the target face visited, preloads exactly the faces within the radius, and changes nothing else |
| ContextCache.EndTransition | core/VIB34DContextManager.js:242 | the transition timer clears only the in-progress flag |
| ContextCache.HandleParameterChange | core/VIB34DContextManager.js:242 | a change is appended to its face_parameter history, dropping the oldest entry when the history is full; a zero timestamp uses the clock; other histories are unchanged |
| ContextCache.ParameterChangeKeepsBound | core/VIB34DContextManager.js:242 | every history stays within maxHistoryEntries |
| ContextCache.CleanupHistory | core/VIB34DContextManager.js:242 | cleanup keeps every history key and replaces each history by its filter to the last 24 hours, which keeps exactly those changes in order (`ContextCache.RecentIsFilter`), and preserves the bound |
| ContextCache.RecentIsFilter | core/VIB34DContextManager.js:242 | the history filter distributes over concatenation and keeps a single change iff it is newer than the cutoff |
| ContextCache.GenerateCacheMetadata | core/VIB34DContextManager.js:242 | the optimal size is the larger of maxCacheSize and the cache size |
| ContextCache.ApplyCacheMetadata | core/VIB34DContextManager.js:242 | a non-zero optimal size replaces maxCacheSize and nothing else; zero changes nothing |
| ContextCache.MetadataRoundTrip | core/VIB34DContextManager.js:242 | generating and then applying metadata never shrinks maxCacheSize and sets it to max(maxCacheSize, size) |
| Progressive.MakeOptions | VIB34D_PROGRESSIVE_ENHANCEMENT_SYSTEM.js:18-26 | absent options default to 33 visualizers, quality steps [0.1, 0.3, 0.5, 0.8, 1], 45 fps and 30 fps; a given visualizer limit of 0 is kept, because the later spread wins over the `\|\| 33` default |
| Progressive.RecordPerformance | VIB34D_PROGRESSIVE_ENHANCEMENT_SYSTEM.js:139-146 | the history keeps the 10 most recent samples with the new one last, and nothing else changes |
| Progressive.DegradeDecision | VIB34D_PROGRESSIVE_ENHANCEMENT_SYSTEM.js:151-168 | fps below the degradation threshold degrades; three recent samples all below the performance threshold degrade; fps at or above the threshold with recent samples at or above it does not |
| Progressive.EnhanceDecision | VIB34D_PROGRESSIVE_ENHANCEMENT_SYSTEM.js:173-192 | never at the maximum or at or below the threshold; always above threshold+10; between those only with a recent interaction scoring above 5 |
| Progressive.DetermineStrategy | VIB34D_PROGRESSIVE_ENHANCEMENT_SYSTEM.js:251-271 | 'none' iff nothing can be added or improved; 'both' iff both can and the score exceeds 8; otherwise, when both can, adding is chosen iff fewer than 8 visualizers run; a lone possibility is chosen; each choice is possible |
| Progressive.VisualizerIncrement | VIB34D_PROGRESSIVE_ENHANCEMENT_SYSTEM.js:360-370 | above 55 fps the increment is min(4, room), above 50 fps min(2, room), otherwise 1; so it is never more than 4 and, with room, at least 1 |
| Progressive.AddVisualizersStep | VIB34D_PROGRESSIVE_ENHANCEMENT_SYSTEM.js:276-299 | with room, the count becomes min(count + increment, maximum): min(count + 4, max) above 55 fps, min(count + 2, max) above 50 fps, count + 1 otherwise; without room nothing changes; only the count changes |
| Progressive.RemoveVisualizersStep | VIB34D_PROGRESSIVE_ENHANCEMENT_SYSTEM.js:304-318 | removal sets count = max(1, count − ceil(count/4)): at least 1, and strictly smaller when above 1 |
| Progressive.ImproveQualityStep | VIB34D_PROGRESSIVE_ENHANCEMENT_SYSTEM.js:322-337 | below the top, quality rises by one index; at the top nothing changes |
| Progressive.ReduceQualityStep | VIB34D_PROGRESSIVE_ENHANCEMENT_SYSTEM.js:341-355 | above 0, quality drops by one index; at 0 nothing changes |
| Progressive.Enhance | VIB34D_PROGRESSIVE_ENHANCEMENT_SYSTEM.js:197-225 | the chosen strategy decides the change: add-visualizers (or both with the coin up) raises only the count, by the add step; improve-quality (or both with the coin down) raises only the quality, by one; none changes nothing; so it raises exactly one of them iff either can rise, and the enhancing flag is cleared |
| Progressive.Degrade | VIB34D_PROGRESSIVE_ENHANCEMENT_SYSTEM.js:230-246 | degrading lowers quality first, and removes visualizers only at quality 0 with more than one; it never raises either |
| Progressive.EvaluateAndEnhance | VIB34D_PROGRESSIVE_ENHANCEMENT_SYSTEM.js:100-118 | a cycle during enhancement does nothing; otherwise it records the sample, then: when it should degrade it never raises, and strictly lowers count or quality when either can drop; otherwise it never lowers, and when it should enhance it strictly raises one iff either can rise; when neither applies only the sample is recorded |
| Progressive.Respond | VIB34D_PROGRESSIVE_ENHANCEMENT_SYSTEM.js:109-117 | after the sample is recorded: degrading never raises and makes progress when it can, enhancing never lowers and strictly raises iff it can, otherwise nothing changes |
| Progressive.RecordUserInteraction | VIB34D_PROGRESSIVE_ENHANCEMENT_SYSTEM.js:405-412 | score' = max(0, 0.9·(score+s)): never negative, never raised by a non-positive s, and the interaction time is now |
| Progressive.ResetToMinimal | VIB34D_PROGRESSIVE_ENHANCEMENT_SYSTEM.js:490-499 | reset returns to the initial count at quality 0 with no score and no history |
| Progressive.StepKeepsValid | VIB34D_PROGRESSIVE_ENHANCEMENT_SYSTEM.js:100-412 | every controller step keeps the count non-negative, the quality index at 0 or within the quality steps, the score non-negative and at most 10 samples |
| Progressive.RunKeepsValid | VIB34D_PROGRESSIVE_ENHANCEMENT_SYSTEM.js:100-412 | any sequence of steps keeps those bounds |
| Progressive.InitialValid | VIB34D_PROGRESSIVE_ENHANCEMENT_SYSTEM.js:16-72 | the constructed and the minimal starting states satisfy the bounds |
| Progressive.RunKeepsCap | VIB34D_PROGRESSIVE_ENHANCEMENT_SYSTEM.js:276-318 | no sequence of steps takes the count above maxVisualizerCount |
| WebGlPerf.MakeOptions | VIB34D_WEBGL_PERFORMANCE_SYSTEM.js:18-26 | adaptive scaling is off iff explicitly false; absent max contexts is 16 and absent target is 60 |
| WebGlPerf.PoolMax | VIB34D_WEBGL_PERFORMANCE_SYSTEM.js:257 | the pool's limit is the option, with 0 falling back to 16 |
| WebGlPerf.MonitorTarget | VIB34D_WEBGL_PERFORMANCE_SYSTEM.js:603 | the monitor's target fps is the option, with 0 falling back to 60 |
| WebGlPerf.CreatePooled | VIB34D_WEBGL_PERFORMANCE_SYSTEM.js:272-312 | a successful creation appends a fresh, free context with the next id; a failure changes nothing |
| WebGlPerf.CreatePooledKeepsInv | VIB34D_WEBGL_PERFORMANCE_SYSTEM.js:272-312 | creating below the limit keeps the pool invariant |
| WebGlPerf.InitializeSpec | VIB34D_WEBGL_PERFORMANCE_SYSTEM.js:260-270 | initialisation pre-creates min(4, max) free contexts and leaves none active |
| WebGlPerf.AcquireAsWritten | VIB34D_WEBGL_PERFORMANCE_SYSTEM.js:314-340 | as written, an acquired context is active |
| WebGlPerf.FreshContextStaysFreeAsWritten | VIB34D_WEBGL_PERFORMANCE_SYSTEM.js:304-333 | as written, with nothing free, the context created on demand is handed out while it stays in the available list, so the counted total grows by 2 |
| WebGlPerf.DoubleHandOutAsWritten | VIB34D_WEBGL_PERFORMANCE_SYSTEM.js:304-333 | as written, the next acquire pops that same context and reassigns it to a second canvas |
| WebGlPerf.Acquire | VIB34D_WEBGL_PERFORMANCE_SYSTEM.js:314-340 | acquire fails iff nothing is free and (the pool is full or GL fails); otherwise it pops the last free context or creates one, marks it taken by the canvas and adds it to active |
| WebGlPerf.AcquireKeepsInv | VIB34D_WEBGL_PERFORMANCE_SYSTEM.js:314-340 | acquire keeps the pool invariant (available and active are disjoint, free contexts have no holder), never hands out an active context, and grows the total by 1 only when it creates |
| WebGlPerf.Release | VIB34D_WEBGL_PERFORMANCE_SYSTEM.js:359-379 | releasing a context not in active is a no-op; otherwise it moves from active to available and is marked free |
| WebGlPerf.ReleaseKeepsInv | VIB34D_WEBGL_PERFORMANCE_SYSTEM.js:359-387 | release keeps the invariant and the total count |
| WebGlPerf.AcquireReleaseRestores | VIB34D_WEBGL_PERFORMANCE_SYSTEM.js:314-379 | acquiring a free context and releasing it restores the available list and the active set |
| WebGlPerf.HashStepIs31 | VIB34D_WEBGL_PERFORMANCE_SYSTEM.js:483-485 | `((h << 5) − h) + c` then `h & h` is the int32 of 31·h + c |
| WebGlPerf.HashIsPolynomial | VIB34D_WEBGL_PERFORMANCE_SYSTEM.js:480-488 | the hash of a string is the int32 reduction of the polynomial Σ c_i·31^(n−1−i) |
| WebGlPerf.HashRange | VIB34D_WEBGL_PERFORMANCE_SYSTEM.js:480-488 | hashes are int32 values, and the empty string hashes to 0 |
| WebGlPerf.GetShader | VIB34D_WEBGL_PERFORMANCE_SYSTEM.js:425-447 | a cached key counts a hit and returns the cached shader; otherwise it counts a miss, and a successful compile is cached |
| WebGlPerf.RepeatedShaderHits | VIB34D_WEBGL_PERFORMANCE_SYSTEM.js:425-447 | asking again for a shader that compiled is a hit with the same result |
| WebGlPerf.GetProgram | VIB34D_WEBGL_PERFORMANCE_SYSTEM.js:449-478 | a cached program is a hit; a miss counts a miss, also looks up both shaders (three lookups in all) and caches a successful link; a failed build caches nothing |
| WebGlPerf.RepeatedProgramHits | VIB34D_WEBGL_PERFORMANCE_SYSTEM.js:449-478 | asking again for a program that linked is a hit with the same program |
| WebGlPerf.HitRate | VIB34D_WEBGL_PERFORMANCE_SYSTEM.js:490-493 | the hit rate is in [0,1] and is 0 with no lookups |
| WebGlPerf.HitRaisesRate | VIB34D_WEBGL_PERFORMANCE_SYSTEM.js:490-493 | a hit never lowers the rate |
| WebGlPerf.MissLowersRate | VIB34D_WEBGL_PERFORMANCE_SYSTEM.js:490-493 | a miss never raises the rate |
| WebGlPerf.TrackFrame | VIB34D_WEBGL_PERFORMANCE_SYSTEM.js:611-626 | each frame counts; once a second has passed the count becomes the fps and restarts |
| WebGlPerf.RecordRenderTime | VIB34D_WEBGL_PERFORMANCE_SYSTEM.js:628-633 | the render-time window keeps the 100 most recent samples with the new one last |
| WebGlPerf.AverageRenderTime | VIB34D_WEBGL_PERFORMANCE_SYSTEM.js:639-642 | the average of no samples is 0 |
| WebGlPerf.AverageWithinSamples | VIB34D_WEBGL_PERFORMANCE_SYSTEM.js:639-642 | the average of a non-empty window lies between any lower and upper bound on its samples |
| WebGlPerf.ReduceQuality | VIB34D_WEBGL_PERFORMANCE_SYSTEM.js:822-825 | reduce gives max(0.1, 0.8q): never below 0.1 and never above q |
| WebGlPerf.IncreaseQuality | VIB34D_WEBGL_PERFORMANCE_SYSTEM.js:827-830 | increase gives min(1, 1.1q): never above 1 and never below q in [0,1] |
| WebGlPerf.QualityStepsConverge | VIB34D_WEBGL_PERFORMANCE_SYSTEM.js:822-835 | in range, reduce strictly lowers until it reaches 0.1, and increase strictly raises until it reaches 1 |
| WebGlPerf.QualityStaysInRange | VIB34D_WEBGL_PERFORMANCE_SYSTEM.js:822-835 | starting in [0.1, 1] (the initial level is 1.0, at :716), any sequence of reduce, increase and minimum keeps quality in [0.1, 1] |
| WebGlPerf.UpdateQualitySettings | VIB34D_WEBGL_PERFORMANCE_SYSTEM.js:184-204 | disabled scaling changes nothing; performance below 0.8 of the target fps (:644-646) reduces every visualizer; fps above 1.2·target increases every one; otherwise nothing changes |
| WebGlPerf.UpdateKeepsRange | VIB34D_WEBGL_PERFORMANCE_SYSTEM.js:184-204 | a quality update keeps every visualizer in [0.1, 1] |
| WebGlPerf.EmergencyCleanup | VIB34D_WEBGL_PERFORMANCE_SYSTEM.js:227-235 | emergency cleanup drops every visualizer to the minimum quality 0.1 (:832-835) |
| Chromatic.SourceValue | VIB34D_PHASE6_CHROMATIC_INTEGRATION.js:129-142 | an empty path returns the state itself; when the state is not an object or lacks the first segment, the lookup gives 0 |
| Chromatic.SourceValueResolves | VIB34D_PHASE6_CHROMATIC_INTEGRATION.js:129-142 | the walk returns the value at the end of the path when every segment resolves through objects, and 0 otherwise |
| Chromatic.SmoothCurveShape | VIB34D_PHASE6_CHROMATIC_INTEGRATION.js:160-165 | the smooth curve maps [-1,1] into [-1,1], fixes -1, 0 and 1, and is odd |
| Chromatic.ApplyMapping | VIB34D_PHASE6_CHROMATIC_INTEGRATION.js:147-175 | a non-number stays a non-number; for a linear (or unknown) curve the result is the value times the multiplier, plus the offset when one is defined |
| Chromatic.CurveShape | VIB34D_PHASE6_CHROMATIC_INTEGRATION.js:151-175 | the exponential curve keeps the sign of its input and sends 0 to 0; the smooth curve, scaled by a non-negative multiplier, stays within ±multiplier of the offset on [-1,1] |
| Chromatic.ApplySmoothing | VIB34D_PHASE6_CHROMATIC_INTEGRATION.js:180-186 | the smoothed value is stored as the mapping's next previous value; a non-number stores nothing; other mappings' previous values are unchanged |
| Chromatic.SmoothingBetween | VIB34D_PHASE6_CHROMATIC_INTEGRATION.js:180-186 | with no stored value, or a stored 0, the smoothed value is the new value; otherwise, with a factor in [0,1], it lies between the previous and the new value |
| Chromatic.ApplyOne | VIB34D_PHASE6_CHROMATIC_INTEGRATION.js:113-120 | one mapping writes its target uniform when the bridge has a shader manager and no uniform without one (the early return at line 192), keeps the manager flag, and leaves every other uniform as it was |
| Chromatic.NoManagerWritesNothing | VIB34D_PHASE6_CHROMATIC_INTEGRATION.js:191-193 | without a shader manager an update writes no uniform, yet stores exactly the smoothing values it would store with one |
| Chromatic.FlatRangeIgnoredAsWritten | VIB34D_PHASE6_CHROMATIC_INTEGRATION.js:25-62 | as written, from a fresh bridge with a shader manager, one update with any dynamic range leaves the uniforms at 0, 0, 0 and 1, whatever the range's values |
| Chromatic.StuckForeverAsWritten | VIB34D_PHASE6_CHROMATIC_INTEGRATION.js:107-124 | as written, from a fresh bridge with a shader manager, the uniforms stay at 0, 0, 0 and 1 through any sequence of updates |
| Chromatic.FirstUpdateFollowsRange | VIB34D_PHASE6_CHROMATIC_INTEGRATION.js:107-186 | with the corrected table, the first update writes 0.01·hue velocity, 2·smooth(pulse), 1.5·signed power of mix, and 1 + 1.5·smooth(wave) |
| Chromatic.ColorShiftResponds | VIB34D_PHASE6_CHROMATIC_INTEGRATION.js:107-124 | with the corrected table, different hue velocities give different colour shifts |
| Chromatic.Rem360 | VIB34D_PHASE6_CHROMATIC_INTEGRATION.js:212 | JavaScript `% 360` on a real: the result lies strictly within ±360 and carries the dividend's sign |
| Chromatic.Rem360Periodic | VIB34D_PHASE6_CHROMATIC_INTEGRATION.js:212 | the remainder is the identity inside ±360 and repeats every 360 on each side of 0 |
| Chromatic.Modulation | VIB34D_PHASE6_CHROMATIC_INTEGRATION.js:211-219 | the shift is 0.5·velocity when that is within ±360, always lies within ±360 and keeps the velocity's sign; saturation is in [1, 1.3] for a pulse in [0,1]; brightness is in [0.8, 1.2] for a wave in [-1,1] |
| Chromatic.NameIsBand | VIB34D_PHASE6_CHROMATIC_INTEGRATION.js:257 | every hue in [0,360) gets exactly the name of its 30° band centred on the wheel colours, never neutral; every other hue is neutral |
| Chromatic.ClassifierExamples | VIB34D_PHASE6_CHROMATIC_INTEGRATION.js:257 | 10° is red, 120° is green, 240° is blue |
| Chromatic.ClassifyColor | VIB34D_PHASE6_CHROMATIC_INTEGRATION.js:257 | the classifier records the name it returns, which is neutral iff the hue is outside [0,360) |
| Chromatic.UpdateBlend | VIB34D_PHASE6_CHROMATIC_INTEGRATION.js:257 | emergence is active iff mix > 0.7; tetrahedron gives normal/soft-light, fractal gives color-burn/difference, others give screen/overlay; the intensity is the mix; background, highlight and mode never change |
| Chromatic.BlendForgetsHistory | VIB34D_PHASE6_CHROMATIC_INTEGRATION.js:257 | a blend update depends only on the latest mix and geometry |
| Chromatic.Recent | VIB34D_PHASE6_CHROMATIC_INTEGRATION.js:257 | the history filter keeps exactly the entries newer than the cutoff |
| Chromatic.RecentIsFilter | VIB34D_PHASE6_CHROMATIC_INTEGRATION.js:257 | the history filter distributes over concatenation and keeps a single entry iff it is newer than the cutoff, so it keeps order and multiplicity |
| Chromatic.EngineUpdate | VIB34D_PHASE6_CHROMATIC_INTEGRATION.js:257 | a given geometry becomes active; the blend follows the mix and geometry; a dominant colour makes the history the earlier entries of the last 10 s, in order, followed by the new entry, so every in-window earlier entry is kept; without one the history is unchanged; an active bridge runs one parameter update with the given mapping table |
| Chromatic.RecordDominant | VIB34D_PHASE6_CHROMATIC_INTEGRATION.js:257 | the new history is the earlier entries of the last 10 s in order followed by the new entry, so it keeps every in-window entry and nothing older |
| Chromatic.EngineUpdateStuckAsWritten | VIB34D_PHASE6_CHROMATIC_INTEGRATION.js:25-124 | as written, an integrated engine whose bridge has a shader manager and starts fresh leaves the uniforms at 0, 0, 0 and 1 on every update, whatever the dynamic range |
| Chromatic.EngineUpdateFollowsRange | VIB34D_PHASE6_CHROMATIC_INTEGRATION.js:107-186 | with the corrected table, the first update of an integrated engine with a fresh bridge writes 0.01·hue velocity, 2·smooth(pulse), 1.5·signed power of mix, and 1 + 1.5·smooth(wave) |

## Left out

- DOM, CSS and GL side effects are left out: style writes, class toggles, ripples, canvases, every `gl.*` call and `drawImage`. The CSS property map and the uniform map stand in for them.
- Timers, `requestAnimationFrame`, `setInterval`, `fetch` of the editor configuration, promises and `async` are modelled as explicit steps (`HomeMaster.FireRevert`, `Bridge.FireTimer`, `ContextCache.EndTransition`) or are left out.
- Persistence is left out: `localStorage` save and load, `beforeunload`/`visibilitychange` hooks, and `restore*` in core/VIB34DContextManager.js. These are I/O.
- The card-focus block of the live bridge loop (core/UnifiedReactivityBridge.js:846-1052) is left out. It reads an undeclared `ms`, so the frame throws there. `Bridge.BridgeFrame` models the part that runs before it.
- Scrollable-element and content-gravity CSS sync in the live loop are left out. They are pure DOM writes of state that no modelled operation produces.
- Floating-point rounding and `toFixed` text are left out. Numbers are exact reals, and `Math.round(x)` is floor(x + 0.5).
- `Math.pow(|x|, 1.5)` is the parameter `pow`. Only its sign behaviour is used.
- `Math.random` in the 'both' strategy is the `coin` parameter of `Progressive.Enhance`.
- The chromatic engine (`getDynamicRange`, `getEmergentColors`, colour wheels) is not part of this model. Its dynamic range enters as a flat record.
- `String.split('.')` is modelled by giving source paths pre-split.
- Non-numeric leaves of the chromatic state (null, booleans, numeric strings) are treated as NaN rather than coerced.
- `charCodeAt` on characters outside the Basic Multilingual Plane is left out. The model hashes Dafny `char` codes as UTF-16 units.
- The following are left out because they are resource or diagnostics plumbing outside the parameter core: `createOptimizedVisualizer`, `disposeVisualizer`, the resource manager, the memory tracker, `getPerformanceStats`, `getStatus`, `getChromaticAnalysis`, and the progressive manager class (VIB34D_PROGRESSIVE_ENHANCEMENT_SYSTEM.js:520 onward).
- Context-manager items left out:
  - the JSON `size` metadata of a cache entry;
  - per-comparison `Date.now()` inside the eviction sort (one `now` is used);
  - `preloadSuccessRate`;
  - `handleInteractionEvent`;
  - the snapshot stored with a transition.
- core/VIB34DContextManager.js:177, :232 and :242 and VIB34D_PHASE6_CHROMATIC_INTEGRATION.js:257 contain the two characters `\` and `n` outside any string where line breaks belong (for example `if (this.config.debugMode) {\n console.log(...)`). JavaScript rejects that, so as written neither file parses and neither class can be loaded. The model reads each such `\n` as a line break, and every "as written" statement about these two files, the `ContextCache` and `Chromatic` members named `*AsWritten` included, means the code read that way.
- HomeMaster.InstanceParameters: inherited object keys are not modelled. The source looks the role up as `this.instanceRoles[role]` (core/VIB3HomeMaster.js:290), which is truthy for keys such as `constructor` or `toString`; the bag it then builds has NaN scaled fields, because the role's scales are undefined (:293-311). The model treats every string other than a role label as naming no role (`HomeMaster.ParseRole`) and returns the section bag.
- Bridge.ProcessEditorUpdate: leaves out the closing `syncAllLayers()` (core/UnifiedReactivityBridge.js:401). Its DOM writes and the visualizers' own `updateParameters` are outside this model. Its throw is modelled separately (`Bridge.SyncAllLayersAsWritten`, `Bridge.SyncThrowsAsWritten`): with nothing hovered and a visualizer with neither id nor role, the sync throws. `processEventQueue` has no `try`, so that throw would skip `isProcessingEvents = false` (line 339) and every later call would return at line 329. The model's editor update and queue do not carry that throw, so they do not show the queue stopping.
- Chromatic.ApplyOne: a `setUniform` that throws is not modelled. The source catches and discards the error (VIB34D_PHASE6_CHROMATIC_INTEGRATION.js:194-198); the shader manager is not part of this model, so with a manager present every write is taken to succeed. A missing manager is modelled (`Chromatic.NoManagerWritesNothing`).
- HomeMaster.FireRevert: requires a non-zero value for a pending multiply revert. The source divides by it, and a zero would give a non-number, which is not modelled.
- HomeMaster.TransitionToSection: requires a known section key, because the source dereferences the row's name (core/VIB3HomeMaster.js:371) and throws otherwise.
- HomeMaster.ApplyEffectPair: states only that a disabled effect changes nothing. The secondary effect is `ApplyEffect` applied twice, and that is covered by `HomeMaster.ApplyEffect`.
- Bridge.ProcessCubeNavigation: requires numeric navigation settings. The initial ones are numeric and nothing else writes them (`Bridge.InitialCssNavNumeric`). A non-numeric setting would make the comparison false in JavaScript, and that case is not modelled.
- Progressive.DegradeDecision: states the three-sample trend rule through its two decisive cases: every recent sample below the threshold, or every one at or above it. It does not state the average itself.
- WebGlPerf.AverageRenderTime: states only the empty-window case in its own contract. The range of the average is `WebGlPerf.AverageWithinSamples`.
- Chromatic.EngineUpdate: models the engine's update only as far as the integration shows it. Colour-wheel and emergent-colour computation live in the engine, which is not part of this model.
- Chromatic.EngineUpdate: assumes the bridge reads the same dynamic range the engine reports. In the source the bridge reads its own `chromaticEngine` (line 109), which is not part of this model; the range is passed in as `d` for both.
- HomeMaster.SetDial: addresses only the numeric dials and the extra numeric properties. In the source `applyEffect` and `overrideParameters` can also write `activeSection`, `editorOverrides` and `navigationEffectTimers` by name (`hasOwnProperty` and `Object.assign` accept them), which would replace those objects with a number. The model keeps them out of reach; `HomeMaster.GetDial` and `HomeMaster.OverrideParameters` share this restriction.

## Findings

| source | as written | input that shows it | evidently intended | confidence | as-written member | corrected member |
|---|---|---|---|---|---|---|
| core/UnifiedReactivityBridge.js:1113-1115 | `ms.hoveredVisualizerInfo?.id === vizInfo.id` is true when both sides are undefined, and the next access `ms.hoveredVisualizerInfo.x` then throws | `getSystemState()` calls `getWebGLParameters()` with no argument (line 753) while no visualizer is hovered; so does every editor update's closing `syncAllLayers()` (line 401) for a visualizer with neither instance id nor role | an absent hover compares unequal, and the defaults 0.5/0.5 are used | high, not executed | Bridge.WebGLParametersAsWritten, Bridge.SummaryCallThrowsAsWritten, Bridge.SyncThrowsAsWritten | Bridge.WebGLParameters, Bridge.AsWrittenAgreesWhenDefined |
| core/VIB3HomeMaster.js:456-482 | multiply stores `(cur \|\| 1) * v`, and its timed revert divides by `v` | a timed multiply by 2 on a dial at 0: the dial becomes 2, then reverts to 1 | the revert restores the dial's value from before the effect | medium, not executed | HomeMaster.ApplyOperationAsWritten, HomeMaster.MultiplyRevertAsWrittenLeavesOne, HomeMaster.EffectThenRevertAsWritten, HomeMaster.PortallingRevertAsWrittenLeavesOne | HomeMaster.FireRestore, HomeMaster.EffectThenRestoreRestores |
| core/VIB34DContextManager.js:156-175 | reading the literal `\n` sequences as line breaks (see Left out): a new entry has access count 0, and eviction (line 242) sorts by accessCount × age ascending, so the entry just stored has the lowest score | 800 entries, each accessed at least once and older than now, with maxCacheSize 1000 and gcThreshold 0.8; cache a new key: it is among the 160 entries evicted, and the next get misses | evict the least recently used entries and keep the entry just stored | medium, not executed | ContextCache.GarbageCollectAsWritten, ContextCache.FreshEntryEvictedAsWritten, ContextCache.CacheThenMissAsWritten | ContextCache.GarbageCollect, ContextCache.CacheParameters, ContextCache.GetAfterCache |
| VIB34D_WEBGL_PERFORMANCE_SYSTEM.js:304-333 | a context created on demand is pushed onto the available list (line 304) and handed out without being popped | an empty available list below the limit: acquire for canvas A, then for canvas B; both get the same context | a created context is handed out and not left free | high, not executed | WebGlPerf.AcquireAsWritten, WebGlPerf.FreshContextStaysFreeAsWritten, WebGlPerf.DoubleHandOutAsWritten | WebGlPerf.Acquire, WebGlPerf.AcquireKeepsInv |
| VIB34D_PHASE6_CHROMATIC_INTEGRATION.js:25-62 | reading the literal `\n` sequences as line breaks (see Left out): every mapping source is `dynamicRange.<x>`, but the state passed to the lookup is the dynamic range itself, whose `<x>` fields `updateCSSVariables` reads at the top level (line 206) | any dynamic range, e.g. hue velocity 100: every source reads 0, and the uniforms stay at 0, 0, 0 and 1 | the sources name the fields of the dynamic range itself | medium, not executed | Chromatic.UpdateAsWritten, Chromatic.FlatRangeIgnoredAsWritten, Chromatic.StuckForeverAsWritten | Chromatic.UpdateChromaticParameters, Chromatic.FirstUpdateFollowsRange, Chromatic.ColorShiftResponds |

=== FILE: chromatic.dfy ===
/** The chromatic parameter bridge and its helpers: dotted-path lookup into
    the chromatic engine's state, curve mapping and exponential smoothing of
    the four chromatic uniforms, the CSS modulation formulas, hue naming,
    and blend-mode selection by geometry.

    The chromatic engine that produces the dynamic range and emergent
    colours is not part of this model: its outputs are inputs here.
    `Math.pow(|x|, 1.5)` is a parameter `pow`; writing CSS variables and
    shader uniforms becomes a record of the last value written. */
module Chromatic {
  import opened Common

  // ---------------------------------------------------------------------
  // Source lookup
  // ---------------------------------------------------------------------

  /** A JavaScript value as far as the lookup cares: a number, an object
      with named properties, or anything else (a string, `undefined`). */
  datatype JsValue = JNum(x: real) | JObj(fields: map<string, JsValue>) | JOther

  /** `getChromaticSourceValue` on a path already split at the dots: walk
      the segments while the current value is an object holding the next
      one, and give the number 0 as soon as that fails. */
  function SourceValue(state: JsValue, path: seq<string>): (r: JsValue)
    ensures |path| == 0 ==> r == state
    ensures |path| > 0 && !(state.JObj? && path[0] in state.fields) ==> r == JNum(0.0)
    decreases |path|
  {
    if |path| == 0 then state
    else if state.JObj? && path[0] in state.fields then SourceValue(state.fields[path[0]], path[1..])
    else JNum(0.0)
  }

  /** The reference: resolve the path from its last segment back, giving
      None when some segment is missing. */
  function Resolve(state: JsValue, path: seq<string>): Option<JsValue>
    decreases |path|
  {
    if |path| == 0 then Some(state)
    else
      var parent := Resolve(state, path[..|path| - 1]);
      var last := path[|path| - 1];
      if parent.Some? && parent.value.JObj? && last in parent.value.fields then Some(parent.value.fields[last])
      else None
  }

  lemma {:induction false} ResolveFront(state: JsValue, path: seq<string>)
    requires |path| > 0
    ensures Resolve(state, path) ==
              (if state.JObj? && path[0] in state.fields then Resolve(state.fields[path[0]], path[1..]) else None)
    decreases |path|
  {
    if |path| == 1 {
      assert path[..0] == [];
    } else {
      var n := |path|;
      var init := path[..n - 1];
      ResolveFront(state, init);
      assert init[1..] == path[1..][..n - 2];
      assert init[0] == path[0];
    }
  }

  /** The lookup gives the resolved value when every segment exists, and 0
      otherwise. */
  lemma {:induction false} SourceValueResolves(state: JsValue, path: seq<string>)
    ensures SourceValue(state, path) == (if Resolve(state, path).Some? then Resolve(state, path).value else JNum(0.0))
    decreases |path|
  {
    if |path| > 0 {
      ResolveFront(state, path);
      if state.JObj? && path[0] in state.fields {
        SourceValueResolves(state.fields[path[0]], path[1..]);
      }
    }
  }

  /** `o` is the number `x` (not NaN). */
  predicate Is(o: Option<real>, x: real)
  {
    o.Some? && o.value == x
  }

  /** Arithmetic on a looked-up value: a number is itself, anything else is
      NaN (None). */
  function NumberOf(v: JsValue): Option<real>
  {
    if v.JNum? then Some(v.x) else None
  }

  // ---------------------------------------------------------------------
  // Curve mapping
  // ---------------------------------------------------------------------

  /** 'linear', 'exponential', 'smooth', or any other name (no transform). */
  datatype Curve = Linear | Exponential | Smooth | OtherCurve

  /** One entry of `chromaticMappings`. */
  datatype Mapping = Mapping(
    source: seq<string>,
    target: string,
    curve: Curve,
    multiplier: real,
    offset: Option<real>,
    smoothing: real)

  function Sign(x: real): (r: real)
    ensures r == 1.0 || r == 0.0 || r == -1.0
    ensures (r > 0.0 <==> x > 0.0) && (r < 0.0 <==> x < 0.0)
  {
    if x > 0.0 then 1.0 else if x < 0.0 then -1.0 else 0.0
  }

  /** The 'smooth' curve: smoothstep on (x+1)/2, mapped back to [-1, 1]. */
  function SmoothCurve(x: real): real
  {
    var n := (x + 1.0) / 2.0;
    var t := n * n * (3.0 - 2.0 * n);
    t * 2.0 - 1.0
  }

  /** The smooth curve maps [-1, 1] into itself, fixes -1, 0 and 1, and is
      odd. */
  lemma SmoothCurveShape(x: real)
    ensures -1.0 <= x <= 1.0 ==> -1.0 <= SmoothCurve(x) <= 1.0
    ensures SmoothCurve(-1.0) == -1.0 && SmoothCurve(0.0) == 0.0 && SmoothCurve(1.0) == 1.0
    ensures SmoothCurve(-x) == -SmoothCurve(x)
  {
    var n := (x + 1.0) / 2.0;
    if -1.0 <= x <= 1.0 {
      assert 0.0 <= n <= 1.0;
      MulNonNegative(n, n);
      MulNonNegative(n * n, 3.0 - 2.0 * n);
      assert 1.0 - n * n * (3.0 - 2.0 * n) == (1.0 - n) * (1.0 - n) * (1.0 + 2.0 * n);
      MulNonNegative(1.0 - n, 1.0 - n);
      MulNonNegative((1.0 - n) * (1.0 - n), 1.0 + 2.0 * n);
    }
  }

  lemma MulNonNegative(a: real, b: real)
    requires a >= 0.0 && b >= 0.0
    ensures a * b >= 0.0
  {
  }

  /** The curve step of `applyChromaticMapping`. */
  function Transform(x: real, c: Curve, pow: real -> real): real
  {
    match c
    case Linear => x
    case Exponential => pow(Abs(x)) * Sign(x)
    case Smooth => SmoothCurve(x)
    case OtherCurve => x
  }

  /** `applyChromaticMapping`: curve, then multiplier, then the offset when
      the mapping has one. NaN stays NaN. */
  function ApplyMapping(v: Option<real>, m: Mapping, pow: real -> real): (r: Option<real>)
    ensures v.None? <==> r.None?
    ensures v.Some? && (m.curve == Linear || m.curve == OtherCurve) ==>
              Is(r, v.value * m.multiplier + OffsetOf(m))
  {
    if v.None? then None else Some(Transform(v.value, m.curve, pow) * m.multiplier + OffsetOf(m))
  }

  /** The mapping's offset, added only when the mapping has one. */
  function OffsetOf(m: Mapping): real
  {
    if m.offset.Some? then m.offset.value else 0.0
  }

  /** The exponential curve keeps the sign of its input (the power of a
      non-negative number is non-negative), and the smooth curve keeps an
      input in [-1, 1] within `multiplier` of the offset. */
  lemma CurveShape(x: real, m: Mapping, pow: real -> real)
    requires pow(Abs(x)) >= 0.0
    ensures m.curve == Exponential ==>
              (x >= 0.0 ==> Transform(x, m.curve, pow) >= 0.0) &&
              (x <= 0.0 ==> Transform(x, m.curve, pow) <= 0.0) &&
              (x == 0.0 ==> Transform(x, m.curve, pow) == 0.0)
    ensures m.curve == Smooth && -1.0 <= x <= 1.0 && m.multiplier >= 0.0 ==>
              var r := ApplyMapping(Some(x), m, pow).value - OffsetOf(m);
              -m.multiplier <= r <= m.multiplier
  {
    SmoothCurveShape(x);
    if m.curve == Smooth && -1.0 <= x <= 1.0 && m.multiplier >= 0.0 {
      var s := SmoothCurve(x);
      assert -m.multiplier <= s * m.multiplier <= m.multiplier by {
        assert (1.0 - s) * m.multiplier >= 0.0;
        assert (1.0 + s) * m.multiplier >= 0.0;
      }
    }
  }

  // ---------------------------------------------------------------------
  // Smoothing
  // ---------------------------------------------------------------------

  /** Stored previous values by mapping id. A stored NaN reads back falsy,
      exactly like an absent entry, so it is kept as an absent entry. */
  type Previous = map<string, real>

  /** `applyChromaticSmoothing`: start from the stored value, or from the new
      value when the stored one is absent or 0 (`||`), move by `factor`
      towards the new value, and store the result. */
  function ApplySmoothing(prev: Previous, id: string, nv: Option<real>, factor: real): (r: (Previous, Option<real>))
    ensures r.1.Some? ==> id in r.0 && r.0[id] == r.1.value
    ensures r.1.None? ==> id !in r.0
    ensures forall k :: k != id ==> (k in r.0 <==> k in prev) && (k in prev ==> r.0[k] == prev[k])
    ensures nv.None? ==> r.1.None?
  {
    var s := Smoothed(prev, id, nv, factor);
    (if s.Some? then prev[id := s.value] else prev - {id}, s)
  }

  function Smoothed(prev: Previous, id: string, nv: Option<real>, factor: real): Option<real>
  {
    var p := if id in prev && prev[id] != 0.0 then Some(prev[id]) else nv;
    if p.None? || nv.None? then None else Some(p.value + (nv.value - p.value) * factor)
  }

  /** Scaling by a fraction in [0, 1] moves a number towards 0. */
  lemma ScaleTowardsZero(d: real, f: real)
    requires 0.0 <= f <= 1.0
    ensures d >= 0.0 ==> 0.0 <= d * f <= d
    ensures d < 0.0 ==> d <= d * f <= 0.0
  {
    assert d - d * f == d * (1.0 - f);
  }

  /** A step of a fraction `f` in [0, 1] from `p` towards `x` stays between
      the two. */
  lemma Interpolates(p: real, x: real, f: real)
    requires 0.0 <= f <= 1.0
    ensures Min(p, x) <= p + (x - p) * f <= Max(p, x)
  {
    StepBetween(p, x - p, f);
  }

  /** The same, for the step `d` itself. */
  lemma StepBetween(p: real, d: real, f: real)
    requires 0.0 <= f <= 1.0
    ensures Min(p, p + d) <= p + d * f <= Max(p, p + d)
  {
    ScaleTowardsZero(d, f);
    if d >= 0.0 {
      assert Min(p, p + d) == p && Max(p, p + d) == p + d;
    } else {
      assert Min(p, p + d) == p + d && Max(p, p + d) == p;
    }
  }

  /** With a factor in [0, 1] the output lies between the previous and the
      new value; with nothing usable stored it is the new value itself. */
  lemma SmoothingBetween(prev: Previous, id: string, x: real, factor: real)
    ensures !(id in prev && prev[id] != 0.0) ==> Is(ApplySmoothing(prev, id, Some(x), factor).1, x)
    ensures id in prev && prev[id] != 0.0 && 0.0 <= factor <= 1.0 ==>
              var s := ApplySmoothing(prev, id, Some(x), factor).1.value;
              Min(prev[id], x) <= s <= Max(prev[id], x)
  {
    if id in prev && prev[id] != 0.0 {
      if 0.0 <= factor <= 1.0 {
        var p := prev[id];
        assert Is(Smoothed(prev, id, Some(x), factor), p + (x - p) * factor);
        Interpolates(p, x, factor);
      }
    } else {
      assert (x - x) * factor == 0.0;
      assert Is(Smoothed(prev, id, Some(x), factor), x + (x - x) * factor);
    }
  }

  // ---------------------------------------------------------------------
  // The parameter bridge
  // ---------------------------------------------------------------------

  /** Whether the bridge was given a shader manager, the stored smoothing
      values, and the last value written to each shader uniform (None is
      NaN). */
  datatype Bridge = Bridge(hasManager: bool, prev: Previous, uniforms: map<string, Option<real>>)

  /** A fresh bridge constructed with a shader manager. */
  const InitialBridge := Bridge(true, map[], map[])

  /** The bridge last wrote the number `x` to uniform `target`. */
  predicate Writes(b: Bridge, target: string, x: real)
  {
    target in b.uniforms && Is(b.uniforms[target], x)
  }

  /** One mapping of `updateChromaticParameters`: look up, map, smooth,
      then write the uniform through the shader manager; without a manager
      the write returns early and only the smoothing value is stored. */
  function ApplyOne(b: Bridge, state: JsValue, id: string, m: Mapping, pow: real -> real): (r: Bridge)
    ensures r.hasManager == b.hasManager
    ensures b.hasManager ==> m.target in r.uniforms
    ensures !b.hasManager ==> r.uniforms == b.uniforms
    ensures forall t :: t in b.uniforms && t != m.target ==> t in r.uniforms && r.uniforms[t] == b.uniforms[t]
  {
    var mapped := ApplyMapping(NumberOf(SourceValue(state, m.source)), m, pow);
    var (prev, s) := ApplySmoothing(b.prev, id, mapped, m.smoothing);
    Bridge(b.hasManager, prev, if b.hasManager then b.uniforms[m.target := s] else b.uniforms)
  }

  const HueId := "hue_velocity_to_colorshift"
  const SaturationId := "saturation_pulse_to_pattern"
  const MixId := "mix_intensity_to_morph"
  const LuminanceId := "luminance_wave_to_universe"

  const ColorShift := "u_colorShift"
  const PatternIntensity := "u_patternIntensity"
  const MorphFactor := "u_morphFactor"
  const UniverseModifier := "u_universeModifier"

  /** `chromaticMappings`: four fixed entries, visited in this order. */
  datatype Table = Table(hue: Mapping, saturation: Mapping, mix: Mapping, luminance: Mapping)

  function MakeTable(hue: seq<string>, sat: seq<string>, mix: seq<string>, lum: seq<string>): Table
  {
    Table(Mapping(hue, ColorShift, Linear, 0.01, None, 0.1),
          Mapping(sat, PatternIntensity, Smooth, 2.0, None, 0.15),
          Mapping(mix, MorphFactor, Exponential, 1.5, None, 0.2),
          Mapping(lum, UniverseModifier, Smooth, 1.5, Some(1.0), 0.12))
  }

  /** The table as written: every source is under `dynamicRange.`. */
  const MappingsAsWritten := MakeTable(["dynamicRange", "hueVelocity"], ["dynamicRange", "saturationPulse"],
                                       ["dynamicRange", "mixIntensity"], ["dynamicRange", "luminanceWave"])

  /** The table reading the fields where the CSS update reads them: at the
      top of the dynamic-range object. */
  const Mappings := MakeTable(["hueVelocity"], ["saturationPulse"], ["mixIntensity"], ["luminanceWave"])

  /** `updateChromaticParameters` over a table: every mapping in order. */
  function UpdateParameters(b: Bridge, state: JsValue, t: Table, pow: real -> real): Bridge
  {
    var b1 := ApplyOne(b, state, HueId, t.hue, pow);
    var b2 := ApplyOne(b1, state, SaturationId, t.saturation, pow);
    var b3 := ApplyOne(b2, state, MixId, t.mix, pow);
    ApplyOne(b3, state, LuminanceId, t.luminance, pow)
  }

  /** Without a shader manager an update writes no uniform, yet stores
      exactly the smoothing values it would store with one. */
  lemma NoManagerWritesNothing(b: Bridge, state: JsValue, t: Table, pow: real -> real)
    requires !b.hasManager
    ensures UpdateParameters(b, state, t, pow).uniforms == b.uniforms
    ensures UpdateParameters(b, state, t, pow).prev == UpdateParameters(b.(hasManager := true), state, t, pow).prev
  {
  }

  /** The dynamic range the chromatic engine reports, as its CSS consumer
      reads it: four numbers at the top level. */
  datatype DynamicRange = DynamicRange(hueVelocity: real, saturationPulse: real, luminanceWave: real, mixIntensity: real)

  function AsJs(d: DynamicRange): JsValue
  {
    JObj(map["hueVelocity" := JNum(d.hueVelocity), "saturationPulse" := JNum(d.saturationPulse),
             "luminanceWave" := JNum(d.luminanceWave), "mixIntensity" := JNum(d.mixIntensity)])
  }

  function UpdateAsWritten(b: Bridge, d: DynamicRange, pow: real -> real): Bridge
  {
    UpdateParameters(b, AsJs(d), MappingsAsWritten, pow)
  }

  /** Every curve sends 0 to 0. */
  lemma MappedZero(m: Mapping, pow: real -> real)
    ensures Is(ApplyMapping(Some(0.0), m, pow), OffsetOf(m))
  {
    SmoothCurveShape(0.0);
    assert Transform(0.0, m.curve, pow) == 0.0;
  }

  /** Smoothing a constant `c` gives `c` when the stored value is absent, 0
      or `c` itself. */
  lemma SmoothConstant(prev: Previous, id: string, c: real, f: real)
    requires id !in prev || prev[id] == 0.0 || prev[id] == c
    ensures Is(ApplySmoothing(prev, id, Some(c), f).1, c)
  {
    assert (c - c) * f == 0.0;
    assert Is(Smoothed(prev, id, Some(c), f), c + (c - c) * f);
  }

  /** One as-written mapping on a flat range: the source reads 0 and the
      uniform settles at the offset. */
  lemma ApplyOneStuck(b: Bridge, d: DynamicRange, id: string, m: Mapping, pow: real -> real)
    requires b.hasManager
    requires |m.source| > 0 && m.source[0] == "dynamicRange"
    requires id !in b.prev || b.prev[id] == 0.0 || b.prev[id] == OffsetOf(m)
    ensures var r := ApplyOne(b, AsJs(d), id, m, pow);
            Writes(r, m.target, OffsetOf(m)) && id in r.prev && r.prev[id] == OffsetOf(m) &&
            (forall k :: k != id ==> (k in r.prev <==> k in b.prev) && (k in b.prev ==> r.prev[k] == b.prev[k]))
  {
    assert "dynamicRange" !in AsJs(d).fields;
    MappedZero(m, pow);
    SmoothConstant(b.prev, id, OffsetOf(m), m.smoothing);
  }

  /** What a bridge holds after the as-written table has run on a flat
      state: colour shift, pattern and morph settled at 0 (or never
      stored) and the universe modifier at 1. */
  predicate StuckAsWritten(b: Bridge)
  {
    && (HueId !in b.prev || b.prev[HueId] == 0.0)
    && (SaturationId !in b.prev || b.prev[SaturationId] == 0.0)
    && (MixId !in b.prev || b.prev[MixId] == 0.0)
    && (LuminanceId !in b.prev || b.prev[LuminanceId] == 1.0)
  }

  /** As written, a flat dynamic range has no `dynamicRange` property, so
      every source reads 0 and the four uniforms come out as 0, 0, 0 and 1
      whatever the hue velocity, pulse, mix and wave are. */
  lemma FlatRangeIgnoredAsWritten(b: Bridge, d: DynamicRange, pow: real -> real)
    requires b.hasManager && StuckAsWritten(b)
    ensures var r := UpdateAsWritten(b, d, pow);
            r.hasManager && StuckAsWritten(r) &&
            Writes(r, ColorShift, 0.0) && Writes(r, PatternIntensity, 0.0) &&
            Writes(r, MorphFactor, 0.0) && Writes(r, UniverseModifier, 1.0)
  {
    var s := AsJs(d);
    var t := MappingsAsWritten;
    var b2 := FirstTwoStuckAsWritten(b, d, pow);
    var b3 := ApplyOne(b2, s, MixId, t.mix, pow);
    ApplyOneStuck(b2, d, MixId, t.mix, pow);
    var b4 := ApplyOne(b3, s, LuminanceId, t.luminance, pow);
    ApplyOneStuck(b3, d, LuminanceId, t.luminance, pow);
    assert UpdateAsWritten(b, d, pow) == b4;
  }

  /** The first two as-written mappings on a flat range: colour shift and
      pattern intensity settle at 0, and the other two mappings' stored
      values are untouched. */
  lemma FirstTwoStuckAsWritten(b: Bridge, d: DynamicRange, pow: real -> real) returns (b2: Bridge)
    requires b.hasManager && StuckAsWritten(b)
    ensures b2 == ApplyOne(ApplyOne(b, AsJs(d), HueId, MappingsAsWritten.hue, pow),
                           AsJs(d), SaturationId, MappingsAsWritten.saturation, pow)
    ensures b2.hasManager && StuckAsWritten(b2)
    ensures Writes(b2, ColorShift, 0.0) && Writes(b2, PatternIntensity, 0.0)
    ensures (MixId in b2.prev <==> MixId in b.prev) && (MixId in b.prev ==> b2.prev[MixId] == b.prev[MixId])
    ensures (LuminanceId in b2.prev <==> LuminanceId in b.prev) &&
            (LuminanceId in b.prev ==> b2.prev[LuminanceId] == b.prev[LuminanceId])
  {
    var s := AsJs(d);
    var t := MappingsAsWritten;
    var b1 := ApplyOne(b, s, HueId, t.hue, pow);
    ApplyOneStuck(b, d, HueId, t.hue, pow);
    b2 := ApplyOne(b1, s, SaturationId, t.saturation, pow);
    ApplyOneStuck(b1, d, SaturationId, t.saturation, pow);
  }

  function RunAsWritten(b: Bridge, ds: seq<DynamicRange>, pow: real -> real): Bridge
    decreases |ds|
  {
    if |ds| == 0 then b else RunAsWritten(UpdateAsWritten(b, ds[0], pow), ds[1..], pow)
  }

  /** As written, from a fresh bridge the uniforms stay at 0, 0, 0 and 1
      through any sequence of updates. */
  lemma {:induction false} StuckForeverAsWritten(b: Bridge, ds: seq<DynamicRange>, pow: real -> real)
    requires b.hasManager && StuckAsWritten(b)
    requires |ds| > 0
    ensures var r := RunAsWritten(b, ds, pow);
            Writes(r, ColorShift, 0.0) && Writes(r, PatternIntensity, 0.0) &&
            Writes(r, MorphFactor, 0.0) && Writes(r, UniverseModifier, 1.0)
    decreases |ds|
  {
    FlatRangeIgnoredAsWritten(b, ds[0], pow);
    if |ds| > 1 {
      StuckForeverAsWritten(UpdateAsWritten(b, ds[0], pow), ds[1..], pow);
    }
  }

  /** `updateChromaticParameters` with the corrected table. */
  function UpdateChromaticParameters(b: Bridge, d: DynamicRange, pow: real -> real): Bridge
  {
    UpdateParameters(b, AsJs(d), Mappings, pow)
  }

  /** One corrected mapping on a fresh id: the uniform is the mapped
      source itself. */
  lemma ApplyOneFresh(b: Bridge, d: DynamicRange, id: string, m: Mapping, x: real, pow: real -> real)
    requires b.hasManager && id !in b.prev
    requires |m.source| == 1 && m.source[0] in AsJs(d).fields && AsJs(d).fields[m.source[0]] == JNum(x)
    ensures var r := ApplyOne(b, AsJs(d), id, m, pow);
            Writes(r, m.target, ApplyMapping(Some(x), m, pow).value) &&
            (forall k :: k != id ==> (k in r.prev <==> k in b.prev))
  {
    assert m.source[1..] == [];
    var v := ApplyMapping(Some(x), m, pow).value;
    assert (v - v) * m.smoothing == 0.0;
  }

  /** The value each corrected mapping writes for a source value `x`. */
  lemma MappedValues(x: real, pow: real -> real)
    ensures Is(ApplyMapping(Some(x), Mappings.hue, pow), x * 0.01)
    ensures Is(ApplyMapping(Some(x), Mappings.saturation, pow), SmoothCurve(x) * 2.0)
    ensures Is(ApplyMapping(Some(x), Mappings.mix, pow), pow(Abs(x)) * Sign(x) * 1.5)
    ensures Is(ApplyMapping(Some(x), Mappings.luminance, pow), SmoothCurve(x) * 1.5 + 1.0)
  {
  }

  /** With the corrected table, the first update of a fresh bridge writes
      each uniform as its mapped source: the hue velocity scaled by 0.01,
      the smoothed pulse doubled, the signed power of the mix scaled by
      1.5, and the smoothed wave scaled by 1.5 around 1. */
  lemma FirstUpdateFollowsRange(d: DynamicRange, pow: real -> real)
    ensures var r := UpdateChromaticParameters(InitialBridge, d, pow);
            Writes(r, ColorShift, d.hueVelocity * 0.01) &&
            Writes(r, PatternIntensity, SmoothCurve(d.saturationPulse) * 2.0) &&
            Writes(r, MorphFactor, pow(Abs(d.mixIntensity)) * Sign(d.mixIntensity) * 1.5) &&
            Writes(r, UniverseModifier, SmoothCurve(d.luminanceWave) * 1.5 + 1.0)
  {
    var s := AsJs(d);
    var t := Mappings;
    var b2 := FirstTwoFollowRange(d, pow);
    MappedValues(d.mixIntensity, pow);
    MappedValues(d.luminanceWave, pow);
    var b3 := ApplyOne(b2, s, MixId, t.mix, pow);
    ApplyOneFresh(b2, d, MixId, t.mix, d.mixIntensity, pow);
    assert Writes(b3, ColorShift, d.hueVelocity * 0.01);
    assert Writes(b3, PatternIntensity, SmoothCurve(d.saturationPulse) * 2.0);
    var b4 := ApplyOne(b3, s, LuminanceId, t.luminance, pow);
    ApplyOneFresh(b3, d, LuminanceId, t.luminance, d.luminanceWave, pow);
    assert UpdateChromaticParameters(InitialBridge, d, pow) == b4;
  }

  /** The first two corrected mappings on a fresh bridge: the colour shift
      and the pattern intensity are written, and the other two mappings
      have stored nothing yet. */
  lemma FirstTwoFollowRange(d: DynamicRange, pow: real -> real) returns (b2: Bridge)
    ensures b2 == ApplyOne(ApplyOne(InitialBridge, AsJs(d), HueId, Mappings.hue, pow),
                           AsJs(d), SaturationId, Mappings.saturation, pow)
    ensures Writes(b2, ColorShift, d.hueVelocity * 0.01)
    ensures Writes(b2, PatternIntensity, SmoothCurve(d.saturationPulse) * 2.0)
    ensures MixId !in b2.prev && LuminanceId !in b2.prev
  {
    var s := AsJs(d);
    var t := Mappings;
    MappedValues(d.hueVelocity, pow);
    MappedValues(d.saturationPulse, pow);
    var b1 := ApplyOne(InitialBridge, s, HueId, t.hue, pow);
    ApplyOneFresh(InitialBridge, d, HueId, t.hue, d.hueVelocity, pow);
    b2 := ApplyOne(b1, s, SaturationId, t.saturation, pow);
    ApplyOneFresh(b1, d, SaturationId, t.saturation, d.saturationPulse, pow);
  }

  /** So, unlike the table as written, the colour shift responds to the hue
      velocity: two ranges with different velocities give different
      shifts. */
  lemma ColorShiftResponds(d1: DynamicRange, d2: DynamicRange, pow: real -> real)
    requires d1.hueVelocity != d2.hueVelocity
    ensures UpdateChromaticParameters(InitialBridge, d1, pow).uniforms[ColorShift] !=
            UpdateChromaticParameters(InitialBridge, d2, pow).uniforms[ColorShift]
  {
    FirstUpdateFollowsRange(d1, pow);
    FirstUpdateFollowsRange(d2, pow);
  }

  // ---------------------------------------------------------------------
  // CSS modulation
  // ---------------------------------------------------------------------

  /** Truncation toward zero. */
  function Trunc(x: real): (r: int)
    ensures x >= 0.0 ==> r as real <= x < r as real + 1.0
    ensures x < 0.0 ==> r as real - 1.0 < x <= r as real
  {
    if x >= 0.0 then x.Floor else -((-x).Floor)
  }

  /** JavaScript `a % 360`: the remainder takes the sign of `a`. */
  function Rem360(a: real): (r: real)
    ensures -360.0 < r < 360.0
    ensures a >= 0.0 ==> r >= 0.0
    ensures a <= 0.0 ==> r <= 0.0
  {
    a - 360.0 * Trunc(a / 360.0) as real
  }

  /** The remainder leaves a value already inside (-360, 360) alone and
      repeats every full turn on either side of zero. */
  lemma Rem360Periodic(a: real)
    ensures -360.0 < a < 360.0 ==> Rem360(a) == a
    ensures a >= 0.0 ==> Rem360(a + 360.0) == Rem360(a)
    ensures a <= 0.0 ==> Rem360(a - 360.0) == Rem360(a)
  {
    if a >= 0.0 {
      assert (a + 360.0) / 360.0 == a / 360.0 + 1.0;
      assert Trunc((a + 360.0) / 360.0) == Trunc(a / 360.0) + 1;
    }
    if a <= 0.0 {
      assert (a - 360.0) / 360.0 == a / 360.0 - 1.0;
      if a / 360.0 == (a / 360.0).Floor as real {
        assert Trunc((a - 360.0) / 360.0) == Trunc(a / 360.0) - 1;
      } else {
        assert Trunc((a - 360.0) / 360.0) == Trunc(a / 360.0) - 1;
      }
    }
  }

  /** The numbers written to `--chromatic-shift`, `--chromatic-saturation`
      and `--chromatic-brightness`. */
  datatype CssModulation = CssModulation(shift: real, saturation: real, brightness: real)

  function Modulation(d: DynamicRange): (r: CssModulation)
    ensures -360.0 < r.shift < 360.0
    ensures 0.0 <= d.saturationPulse <= 1.0 ==> 1.0 <= r.saturation <= 1.3
    ensures -1.0 <= d.luminanceWave <= 1.0 ==> 0.8 <= r.brightness <= 1.2
    ensures -720.0 < d.hueVelocity < 720.0 ==> r.shift == d.hueVelocity * 0.5
    ensures (r.shift >= 0.0) == (d.hueVelocity >= 0.0) || r.shift == 0.0
  {
    Rem360Periodic(d.hueVelocity * 0.5);
    CssModulation(Rem360(d.hueVelocity * 0.5), 1.0 + d.saturationPulse * 0.3, 1.0 + d.luminanceWave * 0.2)
  }

  // ---------------------------------------------------------------------
  // Colour classification
  // ---------------------------------------------------------------------

  datatype ColorName = Red | Orange | Yellow | Lime | Green | Teal | Cyan | Sky | Blue | Purple | Magenta | Pink | Neutral

  /** `classifyColor`'s table, searched in order for the first half-open
      range [from, to) holding the hue. */
  function NameOfHue(h: real): ColorName
  {
    if 0.0 <= h < 15.0 then Red
    else if 15.0 <= h < 45.0 then Orange
    else if 45.0 <= h < 75.0 then Yellow
    else if 75.0 <= h < 105.0 then Lime
    else if 105.0 <= h < 135.0 then Green
    else if 135.0 <= h < 165.0 then Teal
    else if 165.0 <= h < 195.0 then Cyan
    else if 195.0 <= h < 225.0 then Sky
    else if 225.0 <= h < 255.0 then Blue
    else if 255.0 <= h < 285.0 then Purple
    else if 285.0 <= h < 315.0 then Magenta
    else if 315.0 <= h < 345.0 then Pink
    else if 345.0 <= h < 360.0 then Red
    else Neutral
  }

  const Wheel: seq<ColorName> := [Red, Orange, Yellow, Lime, Green, Teal, Cyan, Sky, Blue, Purple, Magenta, Pink]

  /** The reference: twelve 30-degree bands centred on multiples of 30,
      starting with red around 0 and wrapping at 360. */
  function Band(h: real): ColorName
    requires 0.0 <= h < 360.0
  {
    Wheel[((h + 15.0) / 30.0).Floor % 12]
  }

  /** Every hue in [0, 360) gets exactly its band's name, and any other
      number is neutral. */
  lemma NameIsBand(h: real)
    ensures 0.0 <= h < 360.0 ==> NameOfHue(h) == Band(h) && NameOfHue(h) != Neutral
    ensures !(0.0 <= h < 360.0) ==> NameOfHue(h) == Neutral
  {
    if 0.0 <= h < 360.0 {
      var k := ((h + 15.0) / 30.0).Floor;
      assert k as real <= (h + 15.0) / 30.0 < k as real + 1.0;
      assert 30.0 * k as real - 15.0 <= h < 30.0 * k as real + 15.0;
      assert 0 <= k <= 12;
    }
  }

  lemma ClassifierExamples()
    ensures NameOfHue(10.0) == Red && NameOfHue(120.0) == Green && NameOfHue(240.0) == Blue
  {
  }

  /** The classifier remembers its last answer. */
  datatype Classifier = Classifier(current: ColorName)

  const InitialClassifier := Classifier(Neutral)

  function ClassifyColor(c: Classifier, h: real): (r: (Classifier, ColorName))
    ensures r.0.current == r.1
    ensures r.1 == Neutral <==> !(0.0 <= h < 360.0)
  {
    NameIsBand(h);
    var name := NameOfHue(h);
    (Classifier(name), name)
  }

  // ---------------------------------------------------------------------
  // Blend modes
  // ---------------------------------------------------------------------

  datatype BlendMode = Multiply | Screen | Overlay | ColorDodge | Normal | SoftLight | ColorBurn | Difference

  datatype BlendState = BlendState(
    background: BlendMode,
    content: BlendMode,
    accent: BlendMode,
    highlight: BlendMode,
    intensity: real,
    mode: string,
    emergenceActive: bool)

  const InitialBlend := BlendState(Multiply, Screen, Overlay, ColorDodge, 0.5, "standard", false)

  /** `ChromaticBlendModeController.update`. */
  function UpdateBlend(c: BlendState, mixIntensity: real, geometry: string): (r: BlendState)
    ensures r.emergenceActive <==> mixIntensity > 0.7
    ensures r.intensity == mixIntensity
    ensures r.background == c.background && r.highlight == c.highlight && r.mode == c.mode
    ensures geometry == "tetrahedron" ==> r.content == Normal && r.accent == SoftLight
    ensures geometry == "fractal" ==> r.content == ColorBurn && r.accent == Difference
    ensures geometry != "tetrahedron" && geometry != "fractal" ==> r.content == Screen && r.accent == Overlay
  {
    var (content, accent) :=
      if geometry == "tetrahedron" then (Normal, SoftLight)
      else if geometry == "fractal" then (ColorBurn, Difference)
      else (Screen, Overlay);
    c.(emergenceActive := mixIntensity > 0.7, intensity := mixIntensity, content := content, accent := accent)
  }

  /** The controller keeps no memory of earlier updates: only the latest
      mix and geometry matter. */
  lemma BlendForgetsHistory(c: BlendState, m1: real, g1: string, m2: real, g2: string)
    ensures UpdateBlend(UpdateBlend(c, m1, g1), m2, g2) == UpdateBlend(c, m2, g2)
  {
  }

  // ---------------------------------------------------------------------
  // The enhanced engine's update
  // ---------------------------------------------------------------------

  datatype Hsl = Hsl(h: real, s: real, l: real)

  datatype HistoryEntry = HistoryEntry(timestamp: real, color: Hsl, geometry: string)

  datatype Engine = Engine(
    activeGeometry: string,
    integrationActive: bool,
    bridge: Option<Bridge>,
    history: seq<HistoryEntry>,
    blend: BlendState)

  function InitialEngine(bridge: Option<Bridge>): Engine
  {
    Engine("hypercube", false, bridge, [], InitialBlend)
  }

  const HistoryWindow: real := 10000.0

  /** Entries newer than `cutoff`. */
  function After(cutoff: real): HistoryEntry -> bool
  {
    (x: HistoryEntry) => x.timestamp > cutoff
  }

  /** The history `filter`: the entries newer than the cutoff, in order. */
  function Recent(h: seq<HistoryEntry>, cutoff: real): (r: seq<HistoryEntry>)
    ensures forall i :: 0 <= i < |r| ==> r[i].timestamp > cutoff
    ensures forall i :: 0 <= i < |h| && h[i].timestamp > cutoff ==> h[i] in r
    ensures forall x :: x in r ==> x in h
  {
    FilterMembers(h, After(cutoff));
    Filter(h, After(cutoff))
  }

  /** `Recent` is the order-preserving `filter`: it distributes over
      concatenation and keeps a single entry iff it is newer than the
      cutoff, which together fix it on every history. */
  lemma RecentIsFilter(a: seq<HistoryEntry>, b: seq<HistoryEntry>, cutoff: real)
    ensures Recent(a + b, cutoff) == Recent(a, cutoff) + Recent(b, cutoff)
    ensures |a| == 1 ==> Recent(a, cutoff) == if a[0].timestamp > cutoff then a else []
  {
    FilterAppend(a, b, After(cutoff));
  }

  /** `VIB34DEnhancedChromaticEngine.update`: adopt a given geometry, push
      the engine's state to the bridge while integration is on, log the
      dominant emergent colour keeping the last ten seconds, and update the
      blend modes. `d` and `dominant` are what the chromatic engine
      reports; `t` is the bridge's mapping table, `MappingsAsWritten` in the
      program as written and `Mappings` once corrected. */
  function EngineUpdate(e: Engine, geometry: Option<string>, d: DynamicRange, dominant: Option<Hsl>,
                        now: real, t: Table, pow: real -> real): (r: Engine)
    ensures geometry.Some? && geometry.value != "" ==> r.activeGeometry == geometry.value
    ensures geometry.None? || geometry.value == "" ==> r.activeGeometry == e.activeGeometry
    ensures r.integrationActive == e.integrationActive
    ensures r.blend == UpdateBlend(e.blend, d.mixIntensity, r.activeGeometry)
    ensures dominant.Some? ==> forall i :: 0 <= i < |r.history| ==> r.history[i].timestamp > now - HistoryWindow
    ensures dominant.Some? ==> HistoryEntry(now, dominant.value, r.activeGeometry) in r.history
    ensures dominant.Some? ==> r.history == Recent(e.history, now - HistoryWindow) + [HistoryEntry(now, dominant.value, r.activeGeometry)]
    ensures dominant.Some? ==> forall i :: 0 <= i < |e.history| && e.history[i].timestamp > now - HistoryWindow ==>
              e.history[i] in r.history
    ensures dominant.None? ==> r.history == e.history
    ensures !e.integrationActive || e.bridge.None? ==> r.bridge == e.bridge
    ensures e.integrationActive && e.bridge.Some? ==>
              r.bridge == Some(UpdateParameters(e.bridge.value, AsJs(d), t, pow))
  {
    var g := if geometry.Some? && geometry.value != "" then geometry.value else e.activeGeometry;
    var bridge := if e.integrationActive && e.bridge.Some? then Some(UpdateParameters(e.bridge.value, AsJs(d), t, pow)) else e.bridge;
    var history := if dominant.Some? then RecordDominant(e.history, now, dominant.value, g) else e.history;
    Engine(g, e.integrationActive, bridge, history, UpdateBlend(e.blend, d.mixIntensity, g))
  }

  /** The history step of `update`: append the entry for colour `c` at
      `now` and keep the last ten seconds before it. */
  function RecordDominant(h: seq<HistoryEntry>, now: real, c: Hsl, g: string): (r: seq<HistoryEntry>)
    ensures forall i :: 0 <= i < |r| ==> r[i].timestamp > now - HistoryWindow
    ensures HistoryEntry(now, c, g) in r
    ensures r == Recent(h, now - HistoryWindow) + [HistoryEntry(now, c, g)]
    ensures forall i :: 0 <= i < |h| && h[i].timestamp > now - HistoryWindow ==> h[i] in r
  {
    var x := HistoryEntry(now, c, g);
    RecentIsFilter(h, [x], now - HistoryWindow);
    RecentIsFilter([x], [], now - HistoryWindow);
    Recent(h + [x], now - HistoryWindow)
  }

  /** As written, an integrated engine whose bridge starts fresh leaves the
      four uniforms at 0, 0, 0 and 1 on every update, whatever the
      dynamic range. */
  lemma EngineUpdateStuckAsWritten(e: Engine, geometry: Option<string>, d: DynamicRange, dominant: Option<Hsl>,
                                   now: real, pow: real -> real)
    requires e.integrationActive && e.bridge.Some? && e.bridge.value.hasManager && StuckAsWritten(e.bridge.value)
    ensures var r := EngineUpdate(e, geometry, d, dominant, now, MappingsAsWritten, pow);
            r.bridge.Some? && StuckAsWritten(r.bridge.value) &&
            Writes(r.bridge.value, ColorShift, 0.0) && Writes(r.bridge.value, PatternIntensity, 0.0) &&
            Writes(r.bridge.value, MorphFactor, 0.0) && Writes(r.bridge.value, UniverseModifier, 1.0)
  {
    FlatRangeIgnoredAsWritten(e.bridge.value, d, pow);
  }

  /** With the corrected table, the first update of an integrated engine
      with a fresh bridge writes each uniform from the dynamic range. */
  lemma EngineUpdateFollowsRange(e: Engine, geometry: Option<string>, d: DynamicRange, dominant: Option<Hsl>,
                                 now: real, pow: real -> real)
    requires e.integrationActive && e.bridge == Some(InitialBridge)
    ensures var r := EngineUpdate(e, geometry, d, dominant, now, Mappings, pow);
            r.bridge.Some? &&
            Writes(r.bridge.value, ColorShift, d.hueVelocity * 0.01) &&
            Writes(r.bridge.value, PatternIntensity, SmoothCurve(d.saturationPulse) * 2.0) &&
            Writes(r.bridge.value, MorphFactor, pow(Abs(d.mixIntensity)) * Sign(d.mixIntensity) * 1.5) &&
            Writes(r.bridge.value, UniverseModifier, SmoothCurve(d.luminanceWave) * 1.5 + 1.0)
  {
    FirstUpdateFollowsRange(d, pow);
  }
}

=== FILE: common.dfy ===
/** Small helpers shared by every module: an optional value, clamping on
    reals, JavaScript's `||` on numbers, and bounded histories. */
module Common {

  /** A value that may be absent (an `undefined` property in the source). */
  datatype Option<+T> = None | Some(value: T)

  function Min(a: real, b: real): (r: real)
    ensures r <= a && r <= b
    ensures r == a || r == b
  {
    if a <= b then a else b
  }

  function Max(a: real, b: real): (r: real)
    ensures r >= a && r >= b
    ensures r == a || r == b
  {
    if a >= b then a else b
  }

  function Abs(x: real): (r: real)
    ensures r >= 0.0
    ensures r == x || r == -x
  {
    if x >= 0.0 then x else -x
  }

  /** JavaScript `Math.round`: halves round towards +infinity, so the
      result is the unique integer within half a unit above or below. */
  function JsRound(x: real): (r: int)
    ensures x - 0.5 < r as real <= x + 0.5
  {
    (x + 0.5).Floor
  }

  function MinInt(a: int, b: int): (r: int)
    ensures r <= a && r <= b
    ensures r == a || r == b
  {
    if a <= b then a else b
  }

  function MaxInt(a: int, b: int): (r: int)
    ensures r >= a && r >= b
    ensures r == a || r == b
  {
    if a >= b then a else b
  }

  /** JavaScript `x || d` where `x` is a number that may be missing:
      a missing value and a zero both fall back to `d`. */
  function Or(x: Option<real>, d: real): (r: real)
    ensures x.Some? && x.value != 0.0 ==> r == x.value
    ensures x.None? || x.value == 0.0 ==> r == d
  {
    if x.Some? && x.value != 0.0 then x.value else d
  }

  /** An option key merged by a later object spread: a given value wins,
      whatever it is, and only an absent key takes the default. */
  function OrDefault<T>(x: Option<T>, d: T): (r: T)
    ensures x.Some? ==> r == x.value
    ensures x.None? ==> r == d
  {
    if x.Some? then x.value else d
  }

  /** Looks a key up in a map, giving None when it is absent. */
  function Get<K, V>(m: map<K, V>, k: K): (r: Option<V>)
    ensures r.Some? <==> k in m
    ensures r.Some? ==> r.value == m[k]
  {
    if k in m then Some(m[k]) else None
  }

  /** JavaScript `Array.prototype.filter`: the elements satisfying `p`, in
      their original order and multiplicity. */
  function Filter<T>(s: seq<T>, p: T -> bool): seq<T>
    decreases |s|
  {
    if |s| == 0 then [] else (if p(s[0]) then [s[0]] else []) + Filter(s[1..], p)
  }

  /** The filter keeps exactly the elements satisfying `p`, never grows. */
  lemma {:induction false} FilterMembers<T>(s: seq<T>, p: T -> bool)
    ensures |Filter(s, p)| <= |s|
    ensures forall i :: 0 <= i < |Filter(s, p)| ==> p(Filter(s, p)[i])
    ensures forall x :: x in Filter(s, p) <==> x in s && p(x)
    decreases |s|
  {
    if |s| > 0 {
      FilterMembers(s[1..], p);
      var head := if p(s[0]) then [s[0]] else [];
      var rest := Filter(s[1..], p);
      assert Filter(s, p) == head + rest;
      assert s == [s[0]] + s[1..];
      forall x
        ensures x in Filter(s, p) <==> x in s && p(x)
      {
        assert x in head + rest <==> x in head || x in rest;
        assert x in s <==> x == s[0] || x in s[1..];
      }
    }
  }

  lemma FilterCons<T>(x: T, t: seq<T>, p: T -> bool)
    ensures Filter([x] + t, p) == (if p(x) then [x] else []) + Filter(t, p)
  {
    assert ([x] + t)[0] == x;
    assert ([x] + t)[1..] == t;
  }

  /** The filter distributes over concatenation, and keeps a single element
      iff it satisfies `p`; with the empty case these determine it. */
  lemma {:induction false} FilterAppend<T>(a: seq<T>, b: seq<T>, p: T -> bool)
    ensures Filter(a + b, p) == Filter(a, p) + Filter(b, p)
    ensures |a| == 1 ==> Filter(a, p) == if p(a[0]) then a else []
    decreases |a|
  {
    if |a| == 0 {
      assert a + b == b;
    } else {
      var t := a[1..];
      assert a == [a[0]] + t;
      assert a + b == [a[0]] + (t + b);
      FilterCons(a[0], t, p);
      FilterCons(a[0], t + b, p);
      FilterAppend(t, b, p);
      var head := if p(a[0]) then [a[0]] else [];
      assert head + (Filter(t, p) + Filter(b, p)) == (head + Filter(t, p)) + Filter(b, p);
      if |a| == 1 {
        assert t == [];
      }
    }
  }

  /** A prefix one element longer is the shorter prefix plus that element. */
  lemma PrefixSnoc<T>(s: seq<T>, i: nat)
    requires i < |s|
    ensures s[..i + 1] == s[..i] + [s[i]]
  {
  }

  /** A loop that stops at the first call that throws: every value when all
      are present, else None. */
  function AllSome<T>(s: seq<Option<T>>): Option<seq<T>>
    decreases |s|
  {
    if |s| == 0 then Some([])
    else if s[0].None? then None
    else
      match AllSome(s[1..])
      case None => None
      case Some(t) => Some([s[0].value] + t)
  }

  /** `AllSome` fails exactly when some element is missing, and otherwise
      unwraps every element in place. */
  lemma {:induction false} AllSomeSpec<T>(s: seq<Option<T>>)
    ensures AllSome(s).None? <==> exists i :: 0 <= i < |s| && s[i].None?
    ensures AllSome(s).Some? ==> |AllSome(s).value| == |s|
    ensures AllSome(s).Some? ==> forall i :: 0 <= i < |s| ==> s[i] == Some(AllSome(s).value[i])
    decreases |s|
  {
    if |s| > 0 {
      AllSomeSpec(s[1..]);
      assert forall i :: 1 <= i < |s| ==> s[i] == s[1..][i - 1];
      if s[0].Some? && AllSome(s[1..]).None? {
        var j :| 0 <= j < |s[1..]| && s[1..][j].None?;
        assert s[j + 1].None?;
      }
    }
  }

  /** The `push` then single `shift`-if-too-long idiom: append, and drop the
      oldest element when the result is longer than `n`. */
  function PushBounded<T>(s: seq<T>, x: T, n: nat): (r: seq<T>)
    ensures |s| <= n ==> |r| <= n
    ensures |s| < n ==> r == s + [x]
    ensures |s| >= n ==> r == (s + [x])[1..] && |r| == |s|
    ensures |r| <= |s| + 1 && r == (s + [x])[|s| + 1 - |r|..]
  {
    var t := s + [x];
    if |t| > n then t[1..] else t
  }

  const Two31: int := 0x8000_0000
  const Two32: int := 0x1_0000_0000

  /** JavaScript's ToUint32. */
  function ToUint32(x: int): (r: nat)
    ensures r < Two32
  {
    x % Two32
  }

  /** JavaScript's ToInt32: the value congruent to `x` modulo 2^32 in
      [-2^31, 2^31). */
  function ToInt32(x: int): (r: int)
    ensures -Two31 <= r < Two31
    ensures (r - x) % Two32 == 0
  {
    var u := ToUint32(x);
    if u >= Two31 then u - Two32 else u
  }

  function DigitChar(d: nat): (c: char)
    requires d < 10
    ensures '0' <= c <= '9' && c as int - '0' as int == d
  {
    "0123456789"[d]
  }

  predicate AllDigits(s: string)
  {
    forall i :: 0 <= i < |s| ==> '0' <= s[i] <= '9'
  }

  /** The number a string of decimal digits denotes, read most significant
      digit first. */
  function DigitsValue(s: string): nat
    requires AllDigits(s)
  {
    if |s| == 0 then 0
    else DigitsValue(s[..|s| - 1]) * 10 + (s[|s| - 1] as int - '0' as int)
  }

  /** Decimal text of a natural number, as a template literal prints it. */
  function NatText(n: nat): (r: string)
    ensures |r| >= 1 && AllDigits(r)
    decreases n
  {
    if n < 10 then [DigitChar(n)] else NatText(n / 10) + [DigitChar(n % 10)]
  }

  /** The decimal text has no leading zero and reads back as the number. */
  lemma {:induction false} NatTextReadsBack(n: nat)
    ensures DigitsValue(NatText(n)) == n
    ensures |NatText(n)| > 1 ==> NatText(n)[0] != '0'
    decreases n
  {
    if n >= 10 {
      NatTextReadsBack(n / 10);
      var t := NatText(n);
      assert t[..|t| - 1] == NatText(n / 10);
    }
  }

  function IntText(n: int): (r: string)
    ensures '_' !in r
  {
    if n < 0 then "-" + NatText(-n) else NatText(n)
  }
}

=== FILE: context_cache.dfy ===
/** The context cache of `VIB34DContextManager`: a keyed store of parameter
    sets rounded to three decimals, hit and miss accounting, eviction of a
    fifth of the entries when the store passes its threshold, hypercube face
    adjacency by Hamming distance, face-transition bookkeeping, bounded
    per-parameter histories and the cache-size metadata round trip.

    The cache is a JavaScript `Map`, which iterates in insertion order and
    keeps an overwritten key in its old position; it is modelled as a
    sequence of slots with distinct keys. Wall-clock reads are `now`
    parameters. */
module ContextCache {
  import opened Common

  // ---------------------------------------------------------------------
  // Parameter values and three-decimal rounding ("compression")
  // ---------------------------------------------------------------------

  /** An element of an array-valued parameter: only numbers are rounded. */
  datatype Item = ItemNum(x: real) | ItemOther(repr: string)

  /** A parameter value: a number, an array, or anything else (kept as is). */
  datatype Value = Num(x: real) | List(items: seq<Item>) | Other(repr: string)

  type Params = map<string, Value>

  /** A number is on the grid when it is a whole number of thousandths. */
  predicate OnGrid(x: real)
  {
    (x * 1000.0).Floor as real == x * 1000.0
  }

  /** `Math.round(v * 1000) / 1000`. */
  function Round3(v: real): (r: real)
    ensures -0.0005 < r - v <= 0.0005
    ensures OnGrid(r)
  {
    JsRound(v * 1000.0) as real / 1000.0
  }

  /** Rounding a number that is already on the grid gives it back. */
  lemma Round3Fixes(x: real)
    requires OnGrid(x)
    ensures Round3(x) == x
  {
    var k := (x * 1000.0).Floor;
    assert x * 1000.0 == k as real;
    assert JsRound(x * 1000.0) == k;
  }

  function CompressItem(i: Item): Item
  {
    match i
    case ItemNum(x) => ItemNum(Round3(x))
    case ItemOther(_) => i
  }

  function CompressValue(v: Value): Value
  {
    match v
    case Num(x) => Num(Round3(x))
    case List(items) => List(seq(|items|, k requires 0 <= k < |items| => CompressItem(items[k])))
    case Other(_) => v
  }

  /** Two items agree up to rounding: numbers within half a thousandth,
      anything else identical. */
  predicate NearItem(a: Item, b: Item)
  {
    match (a, b)
    case (ItemNum(x), ItemNum(y)) => Abs(y - x) <= 0.0005
    case (ItemOther(s), ItemOther(t)) => s == t
    case _ => false
  }

  predicate Near(a: Value, b: Value)
  {
    match (a, b)
    case (Num(x), Num(y)) => Abs(y - x) <= 0.0005
    case (List(xs), List(ys)) =>
      |xs| == |ys| && forall k :: 0 <= k < |xs| ==> NearItem(xs[k], ys[k])
    case (Other(s), Other(t)) => s == t
    case _ => false
  }

  /** Every number a value holds is on the grid. */
  predicate Rounded(v: Value)
  {
    match v
    case Num(x) => OnGrid(x)
    case List(items) => forall k :: 0 <= k < |items| ==> (items[k].ItemNum? ==> OnGrid(items[k].x))
    case Other(_) => true
  }

  /** `compressParameters`: the same keys, every value near the original and
      rounded. */
  function Compress(p: Params): (r: Params)
    ensures r.Keys == p.Keys
    ensures forall k :: k in p ==> Near(p[k], r[k]) && Rounded(r[k])
  {
    map k | k in p :: CompressValue(p[k])
  }

  /** Compressing twice is compressing once. */
  lemma CompressIdempotent(p: Params)
    ensures Compress(Compress(p)) == Compress(p)
  {
    var q := Compress(p);
    forall k | k in q
      ensures CompressValue(q[k]) == q[k]
    {
      match q[k]
      case Num(x) => Round3Fixes(x);
      case List(items) =>
        var c := seq(|items|, j requires 0 <= j < |items| => CompressItem(items[j]));
        forall j | 0 <= j < |items|
          ensures c[j] == items[j]
        {
          if items[j].ItemNum? {
            Round3Fixes(items[j].x);
          }
        }
        assert c == items;
      case Other(_) =>
    }
  }

  // ---------------------------------------------------------------------
  // Cache keys
  // ---------------------------------------------------------------------

  /** `${faceIndex}_${sectionKey}_${role}` */
  function CacheKey(face: int, section: string, role: string): string
  {
    IntText(face) + "_" + section + "_" + role
  }

  /** Sections and roles are joined by a plain `_`, so a section ending in
      `_b` with role `c` and a section without it with role `b_c` share one
      key. */
  lemma KeysAlias(face: int, a: string, b: string, c: string)
    ensures CacheKey(face, a + "_" + b, c) == CacheKey(face, a, b + "_" + c)
  {
    JoinRegroups(IntText(face), a, b, c);
  }

  lemma JoinRegroups(t: string, a: string, b: string, c: string)
    ensures t + "_" + (a + "_" + b) + "_" + c == t + "_" + a + "_" + (b + "_" + c)
  {
  }

  // ---------------------------------------------------------------------
  // The insertion-ordered store
  // ---------------------------------------------------------------------

  datatype Entry = Entry(params: Params, timestamp: int, accessCount: nat, lastAccessed: int, compressed: bool)

  datatype Slot = Slot(key: string, entry: Entry)

  predicate DistinctKeys(s: seq<Slot>)
  {
    forall i, j :: 0 <= i < j < |s| ==> s[i].key != s[j].key
  }

  /** The keys held by a store. */
  function KeysOf(s: seq<Slot>): set<string>
  {
    if |s| == 0 then {} else KeysOf(s[..|s| - 1]) + {s[|s| - 1].key}
  }

  lemma {:induction false} KeyIn(s: seq<Slot>, i: int)
    requires 0 <= i < |s|
    ensures s[i].key in KeysOf(s)
  {
    if i < |s| - 1 {
      KeyIn(s[..|s| - 1], i);
    }
  }

  lemma {:induction false} KeyWitness(s: seq<Slot>, k: string) returns (i: int)
    requires k in KeysOf(s)
    ensures 0 <= i < |s| && s[i].key == k
  {
    if s[|s| - 1].key == k {
      i := |s| - 1;
    } else {
      i := KeyWitness(s[..|s| - 1], k);
    }
  }

  lemma KeysOfAppend(s: seq<Slot>, x: Slot)
    ensures KeysOf(s + [x]) == KeysOf(s) + {x.key}
  {
    assert (s + [x])[..|s|] == s;
  }

  /** Two stores holding the same slots hold the same keys. */
  lemma SameSlotsSameKeys(a: seq<Slot>, b: seq<Slot>)
    requires forall z :: z in a <==> z in b
    ensures KeysOf(a) == KeysOf(b)
  {
    forall k | k in KeysOf(a) ensures k in KeysOf(b) {
      var i := KeyWitness(a, k);
      assert a[i] in b;
      var j :| 0 <= j < |b| && b[j] == a[i];
      KeyIn(b, j);
    }
    forall k | k in KeysOf(b) ensures k in KeysOf(a) {
      var i := KeyWitness(b, k);
      assert b[i] in a;
      var j :| 0 <= j < |a| && a[j] == b[i];
      KeyIn(a, j);
    }
  }

  /** A store never holds more keys than slots, and holds exactly as many
      when its keys are distinct. */
  lemma {:induction false} DistinctIffCount(s: seq<Slot>)
    ensures |KeysOf(s)| <= |s|
    ensures DistinctKeys(s) <==> |KeysOf(s)| == |s|
  {
    if |s| > 0 {
      var s' := s[..|s| - 1];
      var x := s[|s| - 1];
      DistinctIffCount(s');
      if x.key in KeysOf(s') {
        var i := KeyWitness(s', x.key);
        assert s[i].key == s[|s| - 1].key;
      } else if DistinctKeys(s') {
        forall i, j | 0 <= i < j < |s| ensures s[i].key != s[j].key {
          if j == |s| - 1 {
            KeyIn(s', i);
          } else {
            assert s'[i] == s[i] && s'[j] == s[j];
          }
        }
      } else {
        var i, j :| 0 <= i < j < |s'| && s'[i].key == s'[j].key;
        assert s[i].key == s[j].key;
      }
    }
  }

  /** Position of the first slot holding `k`, or -1 when there is none. */
  function IndexOfKey(s: seq<Slot>, k: string): (i: int)
    ensures -1 <= i < |s|
    ensures i >= 0 ==> s[i].key == k
    ensures forall j :: 0 <= j < |s| && (i < 0 || j < i) ==> s[j].key != k
  {
    if |s| == 0 then -1
    else if s[0].key == k then 0
    else
      var j := IndexOfKey(s[1..], k);
      if j < 0 then -1 else j + 1
  }

  /** `Map.get`. */
  function Lookup(s: seq<Slot>, k: string): (r: Option<Entry>)
    ensures r.Some? ==> exists i :: 0 <= i < |s| && s[i] == Slot(k, r.value)
    ensures r.None? ==> forall i :: 0 <= i < |s| ==> s[i].key != k
  {
    var i := IndexOfKey(s, k);
    if i < 0 then None else Some(s[i].entry)
  }

  lemma LookupIffKey(s: seq<Slot>, k: string)
    ensures Lookup(s, k).Some? <==> k in KeysOf(s)
  {
    if k in KeysOf(s) {
      var i := KeyWitness(s, k);
    }
    if Lookup(s, k).Some? {
      KeyIn(s, IndexOfKey(s, k));
    }
  }

  /** In a store with distinct keys, a slot is found under its own key. */
  lemma LookupFindsSlot(s: seq<Slot>, x: Slot)
    requires DistinctKeys(s)
    requires x in s
    ensures Lookup(s, x.key) == Some(x.entry)
  {
    var i :| 0 <= i < |s| && s[i] == x;
    assert IndexOfKey(s, x.key) == i;
  }

  /** Stores whose slots carry the same keys position by position find
      every key at the same position. */
  lemma SameKeysSameIndex(s: seq<Slot>, t: seq<Slot>, k: string)
    requires |s| == |t|
    requires forall i :: 0 <= i < |s| ==> s[i].key == t[i].key
    ensures IndexOfKey(s, k) == IndexOfKey(t, k)
  {
    var a, b := IndexOfKey(s, k), IndexOfKey(t, k);
    if a >= 0 {
      assert t[a].key == k;
    }
    if b >= 0 {
      assert s[b].key == k;
    }
  }

  /** `Map.set`: an existing key is replaced in place, a new key goes last. */
  function Store(s: seq<Slot>, k: string, e: Entry): (r: seq<Slot>)
    ensures |r| == |s| || r == s + [Slot(k, e)]
  {
    var i := IndexOfKey(s, k);
    if i < 0 then s + [Slot(k, e)] else s[i := Slot(k, e)]
  }

  /** Setting a new key appends it: the new key reads `e` and every other
      key reads what it read before. */
  lemma StoreNewSpec(s: seq<Slot>, k: string, e: Entry)
    requires IndexOfKey(s, k) < 0
    ensures Lookup(Store(s, k, e), k) == Some(e)
    ensures forall k' :: k' != k ==> Lookup(Store(s, k, e), k') == Lookup(s, k')
  {
    IndexOfKeyAppend(s, Slot(k, e), k);
    forall k' | k' != k ensures IndexOfKey(s + [Slot(k, e)], k') == IndexOfKey(s, k') {
      IndexOfKeyAppend(s, Slot(k, e), k');
    }
  }

  /** Appending a slot leaves every earlier first position alone. */
  lemma IndexOfKeyAppend(s: seq<Slot>, x: Slot, k: string)
    ensures IndexOfKey(s + [x], k) ==
            (if IndexOfKey(s, k) >= 0 then IndexOfKey(s, k) else if x.key == k then |s| else -1)
  {
    var r := s + [x];
    assert forall j :: 0 <= j < |s| ==> r[j] == s[j];
    assert r[|s|] == x;
  }


  /** Setting a present key replaces it in place: the key reads `e` and
      every other key reads what it read before. */
  lemma StoreOldSpec(s: seq<Slot>, k: string, e: Entry)
    requires IndexOfKey(s, k) >= 0
    ensures Lookup(Store(s, k, e), k) == Some(e)
    ensures forall k' :: k' != k ==> Lookup(Store(s, k, e), k') == Lookup(s, k')
    ensures KeysOf(Store(s, k, e)) == KeysOf(s)
  {
    var r := Store(s, k, e);
    forall k' ensures IndexOfKey(r, k') == IndexOfKey(s, k') {
      SameKeysSameIndex(r, s, k');
    }
    forall z | z in KeysOf(r) ensures z in KeysOf(s) {
      var t := KeyWitness(r, z);
      KeyIn(s, t);
    }
    forall z | z in KeysOf(s) ensures z in KeysOf(r) {
      var t := KeyWitness(s, z);
      KeyIn(r, t);
    }
  }

  /** After `Map.set(k, e)` the key reads `e`, every other key reads what it
      read before, the keys are the old ones plus `k`, the size grows exactly
      when `k` is new, and distinct keys stay distinct. */
  lemma StoreSpec(s: seq<Slot>, k: string, e: Entry)
    ensures Lookup(Store(s, k, e), k) == Some(e)
    ensures forall k' :: k' != k ==> Lookup(Store(s, k, e), k') == Lookup(s, k')
    ensures KeysOf(Store(s, k, e)) == KeysOf(s) + {k}
    ensures k in KeysOf(s) ==> |Store(s, k, e)| == |s|
    ensures k !in KeysOf(s) ==> Store(s, k, e) == s + [Slot(k, e)]
    ensures DistinctKeys(s) ==> DistinctKeys(Store(s, k, e))
  {
    LookupIffKey(s, k);
    if IndexOfKey(s, k) < 0 {
      StoreNewSpec(s, k, e);
      KeysOfAppend(s, Slot(k, e));
    } else {
      StoreOldSpec(s, k, e);
    }
    DistinctIffCount(s);
    DistinctIffCount(Store(s, k, e));
  }

  // ---------------------------------------------------------------------
  // Eviction
  // ---------------------------------------------------------------------

  /** The order in which entries are evicted, lowest key first. */
  datatype Order =
    | ByScore(now: int)   // accessCount * (now - lastAccessed), as written
    | ByLastAccess        // least recently accessed first

  function SortKey(o: Order, e: Entry): int
  {
    match o
    case ByScore(now) => e.accessCount * (now - e.lastAccessed)
    case ByLastAccess => e.lastAccessed
  }

  predicate SortedBy(t: seq<Slot>, o: Order)
  {
    forall i, j :: 0 <= i < j < |t| ==> SortKey(o, t[i].entry) <= SortKey(o, t[j].entry)
  }

  /** Stable insertion: `x` goes after every slot whose key is not larger. */
  function Insert(t: seq<Slot>, x: Slot, o: Order): (r: seq<Slot>)
    ensures |r| == |t| + 1
    ensures forall z :: z in r <==> z in t || z == x
  {
    if |t| == 0 || SortKey(o, t[|t| - 1].entry) <= SortKey(o, x.entry) then t + [x]
    else Insert(t[..|t| - 1], x, o) + [t[|t| - 1]]
  }

  lemma {:induction false} InsertSorted(t: seq<Slot>, x: Slot, o: Order)
    requires SortedBy(t, o)
    ensures SortedBy(Insert(t, x, o), o)
  {
    if !(|t| == 0 || SortKey(o, t[|t| - 1].entry) <= SortKey(o, x.entry)) {
      var t' := t[..|t| - 1];
      var y := t[|t| - 1];
      InsertSorted(t', x, o);
      var u := Insert(t', x, o);
      forall i | 0 <= i < |u| ensures SortKey(o, u[i].entry) <= SortKey(o, y.entry) {
        if u[i] != x {
          assert u[i] in t';
          var j :| 0 <= j < |t'| && t'[j] == u[i];
          assert t[j] == u[i];
        }
      }
    }
  }

  /** `Array.prototype.sort` with a comparator on the order's key: stable,
      so slots with equal keys keep their insertion order. */
  function Sort(s: seq<Slot>, o: Order): (r: seq<Slot>)
    ensures |r| == |s|
    ensures forall z :: z in r <==> z in s
  {
    if |s| == 0 then []
    else
      assert s == s[..|s| - 1] + [s[|s| - 1]];
      Insert(Sort(s[..|s| - 1], o), s[|s| - 1], o)
  }

  /** Sorting orders by the key, keeps the keys, and keeps them distinct. */
  lemma {:induction false} SortSpec(s: seq<Slot>, o: Order)
    ensures SortedBy(Sort(s, o), o)
    ensures KeysOf(Sort(s, o)) == KeysOf(s)
    ensures DistinctKeys(s) ==> DistinctKeys(Sort(s, o))
  {
    if |s| > 0 {
      SortSpec(s[..|s| - 1], o);
      InsertSorted(Sort(s[..|s| - 1], o), s[|s| - 1], o);
    }
    SameSlotsSameKeys(Sort(s, o), s);
    DistinctIffCount(s);
    DistinctIffCount(Sort(s, o));
  }

  /** `Math.floor(n * 0.2)`. */
  function EvictCount(n: nat): (k: nat)
    ensures k == n / 5
  {
    (n as real * 0.2).Floor
  }

  /** `Map.delete` of every key in `ks`, keeping the others in order. */
  function Without(s: seq<Slot>, ks: set<string>): (r: seq<Slot>)
    ensures forall z :: z in r <==> z in s && z.key !in ks
  {
    if |s| == 0 then []
    else
      assert s == s[..|s| - 1] + [s[|s| - 1]];
      Without(s[..|s| - 1], ks) + (if s[|s| - 1].key in ks then [] else [s[|s| - 1]])
  }

  /** Deleting a set of keys leaves exactly the other keys. */
  lemma WithoutKeys(s: seq<Slot>, ks: set<string>)
    ensures KeysOf(Without(s, ks)) == KeysOf(s) - ks
  {
    var r := Without(s, ks);
    forall z | z in KeysOf(r) ensures z in KeysOf(s) - ks {
      var i := KeyWitness(r, z);
      assert r[i] in s;
      var j :| 0 <= j < |s| && s[j] == r[i];
      KeyIn(s, j);
    }
    forall z | z in KeysOf(s) - ks ensures z in KeysOf(r) {
      var i := KeyWitness(s, z);
      assert s[i] in r;
      var j :| 0 <= j < |r| && r[j] == s[i];
      KeyIn(r, j);
    }
  }

  lemma {:induction false} WithoutLength(s: seq<Slot>, ks: set<string>)
    requires DistinctKeys(s)
    ensures |Without(s, ks)| == |s| - |ks * KeysOf(s)|
  {
    if |s| > 0 {
      var s' := s[..|s| - 1];
      var x := s[|s| - 1];
      WithoutLength(s', ks);
      DistinctIffCount(s);
      DistinctIffCount(s');
      assert KeysOf(s) == KeysOf(s') + {x.key};
      if x.key in ks {
        assert ks * KeysOf(s) == (ks * KeysOf(s')) + {x.key};
      } else {
        assert ks * KeysOf(s) == ks * KeysOf(s');
      }
    }
  }

  /** Deleting a set of keys from a store with distinct keys shrinks it by
      the number of those keys it held, and keeps the keys distinct. */
  lemma WithoutCount(s: seq<Slot>, ks: set<string>)
    requires DistinctKeys(s)
    ensures |Without(s, ks)| == |s| - |ks * KeysOf(s)|
    ensures DistinctKeys(Without(s, ks))
  {
    WithoutLength(s, ks);
    WithoutKeys(s, ks);
    DistinctIffCount(s);
    DistinctIffCount(Without(s, ks));
    assert KeysOf(s) - ks == KeysOf(s) - (ks * KeysOf(s));
    assert KeysOf(s) == (KeysOf(s) - ks) + (ks * KeysOf(s));
  }

  /** `garbageCollectCache` under a given eviction order: sort a copy of the
      entries and delete the first fifth of them from the store. */
  function Collect(s: seq<Slot>, o: Order): seq<Slot>
  {
    Without(s, KeysOf(Sort(s, o)[..EvictCount(|s|)]))
  }

  /** Eviction removes exactly a fifth of the entries (rounded down), keeps
      only entries it was given, and never removes an entry ranked above one
      it keeps. */
  lemma CollectSpec(s: seq<Slot>, o: Order)
    requires DistinctKeys(s)
    ensures |Collect(s, o)| == |s| - |s| / 5
    ensures DistinctKeys(Collect(s, o))
    ensures forall x :: x in Collect(s, o) ==> x in s
    ensures forall x, z :: x in Collect(s, o) && z in s && z !in Collect(s, o) ==>
              SortKey(o, z.entry) <= SortKey(o, x.entry)
  {
    CollectSize(s, o);
    forall x, z | x in Collect(s, o) && z in s && z !in Collect(s, o)
      ensures SortKey(o, z.entry) <= SortKey(o, x.entry)
    {
      CollectRanked(s, o, x, z);
    }
  }

  /** The evicted keys are keys of the store, one per evicted entry. */
  lemma CollectSize(s: seq<Slot>, o: Order)
    requires DistinctKeys(s)
    ensures |Collect(s, o)| == |s| - |s| / 5
    ensures DistinctKeys(Collect(s, o))
  {
    var sorted := Sort(s, o);
    var pre := sorted[..EvictCount(|s|)];
    var ks := KeysOf(pre);
    SortSpec(s, o);
    assert DistinctKeys(pre);
    DistinctIffCount(pre);
    WithoutCount(s, ks);
    forall y | y in ks ensures y in KeysOf(s) {
      var i := KeyWitness(pre, y);
      KeyIn(sorted, i);
    }
    assert ks * KeysOf(s) == ks;
  }

  /** A kept entry ranks no lower than an evicted one. */
  lemma CollectRanked(s: seq<Slot>, o: Order, x: Slot, z: Slot)
    requires DistinctKeys(s)
    requires x in Collect(s, o) && z in s && z !in Collect(s, o)
    ensures SortKey(o, z.entry) <= SortKey(o, x.entry)
  {
    var sorted := Sort(s, o);
    var m := EvictCount(|s|);
    var pre := sorted[..m];
    SortSpec(s, o);
    assert z.key in KeysOf(pre);
    var j := KeyWitness(pre, z.key);
    assert sorted[j] in s;
    var a :| 0 <= a < |s| && s[a] == sorted[j];
    var b :| 0 <= b < |s| && s[b] == z;
    assert a == b;
    assert x in sorted;
    var i :| 0 <= i < |sorted| && sorted[i] == x;
    if i < m {
      KeyIn(pre, i);
    }
  }

  /** The source's eviction: lowest `accessCount * (now - lastAccessed)`
      first. */
  function GarbageCollectAsWritten(s: seq<Slot>, now: int): (r: seq<Slot>)
    requires DistinctKeys(s)
    ensures |r| == |s| - |s| / 5
    ensures forall x :: x in r ==> x in s
    ensures forall x, z :: x in r && z in s && z !in r ==>
              z.entry.accessCount * (now - z.entry.lastAccessed)
              <= x.entry.accessCount * (now - x.entry.lastAccessed)
  {
    CollectSpec(s, ByScore(now));
    Collect(s, ByScore(now))
  }

  /** Eviction of the least recently accessed fifth. */
  function GarbageCollect(s: seq<Slot>): (r: seq<Slot>)
    requires DistinctKeys(s)
    ensures |r| == |s| - |s| / 5
    ensures DistinctKeys(r)
    ensures forall x :: x in r ==> x in s
    ensures forall x, z :: x in r && z in s && z !in r ==>
              z.entry.lastAccessed <= x.entry.lastAccessed
  {
    CollectSpec(s, ByLastAccess);
    Collect(s, ByLastAccess)
  }

  lemma PrefixKeys(t: seq<Slot>, m: nat)
    requires m <= |t|
    ensures KeysOf(t[..m]) <= KeysOf(t)
  {
    forall z | z in KeysOf(t[..m]) ensures z in KeysOf(t) {
      var i := KeyWitness(t[..m], z);
      KeyIn(t, i);
    }
  }

  /** Sorting a store whose last slot has the largest key leaves that slot
      last. */
  lemma SortAppendMax(s: seq<Slot>, x: Slot, o: Order)
    requires forall i :: 0 <= i < |s| ==> SortKey(o, s[i].entry) <= SortKey(o, x.entry)
    ensures Sort(s + [x], o) == Sort(s, o) + [x]
  {
    var t := s + [x];
    assert t[..|t| - 1] == s;
    var ss := Sort(s, o);
    if |ss| > 0 {
      assert ss[|ss| - 1] in s;
    }
  }

  /** A slot appended last whose key is not below any other survives
      eviction. */
  lemma LastMaximumSurvives(s: seq<Slot>, x: Slot, o: Order)
    requires DistinctKeys(s + [x])
    requires forall i :: 0 <= i < |s| ==> SortKey(o, s[i].entry) <= SortKey(o, x.entry)
    ensures x in Collect(s + [x], o)
  {
    var t := s + [x];
    var ss := Sort(s, o);
    SortAppendMax(s, x, o);
    var m := EvictCount(|t|);
    assert Sort(t, o)[..m] == ss[..m];
    SortSpec(s, o);
    PrefixKeys(ss, m);
    assert x.key !in KeysOf(s) by {
      DistinctIffCount(t);
      KeysOfAppend(s, x);
      DistinctIffCount(s);
    }
  }

  /** A slot whose key is below every other slot's comes first once sorted. */
  lemma UniqueMinimumFirst(t: seq<Slot>, x: Slot, o: Order)
    requires x in t
    requires forall i :: 0 <= i < |t| && t[i] != x ==> SortKey(o, x.entry) < SortKey(o, t[i].entry)
    ensures |Sort(t, o)| > 0 && Sort(t, o)[0] == x
  {
    var sorted := Sort(t, o);
    SortSpec(t, o);
    assert x in sorted;
    var i :| 0 <= i < |sorted| && sorted[i] == x;
    assert sorted[0] in t;
  }

  /** As written, eviction drops the freshest entry: when every other entry
      has been read at some earlier time, a newly cached entry scores 0, the
      unique lowest score, and is the first to go. */
  lemma FreshEntryEvictedAsWritten(s: seq<Slot>, x: Slot, now: int)
    requires x.entry.accessCount == 0
    requires forall i :: 0 <= i < |s| ==> s[i].entry.accessCount * (now - s[i].entry.lastAccessed) > 0
    requires |s| + 1 >= 5
    ensures x !in Collect(s + [x], ByScore(now))
  {
    var t := s + [x];
    var o := ByScore(now);
    forall i | 0 <= i < |t| && t[i] != x ensures SortKey(o, x.entry) < SortKey(o, t[i].entry) {
      assert i < |s|;
    }
    UniqueMinimumFirst(t, x, o);
    var m := EvictCount(|t|);
    KeyIn(Sort(t, o)[..m], 0);
  }

  // ---------------------------------------------------------------------
  // The manager
  // ---------------------------------------------------------------------

  datatype Config = Config(
    maxCacheSize: int,
    preloadRadius: int,
    maxHistoryEntries: nat,
    gcThreshold: real,
    compressionEnabled: bool)

  const DefaultConfig := Config(1000, 2, 100, 0.8, true)

  /** One recorded parameter change. */
  datatype Change = Change(oldValue: Value, newValue: Value, source: string, timestamp: int, faceIndex: int)

  /** What a face transition leaves behind; `snapshotFace` is the current
      face when the snapshot was captured. */
  datatype Transition = Transition(timestamp: int, kind: string, preserveContext: bool, snapshotFace: int)

  datatype Manager = Manager(
    config: Config,
    cache: seq<Slot>,
    history: map<string, seq<Change>>,
    transitions: map<string, Transition>,
    preloaded: set<int>,
    currentFace: int,
    previousFace: Option<int>,
    transitionInProgress: bool,
    lastInteractionTime: int,
    cacheHits: nat,
    cacheMisses: nat)

  function Initial(now: int): Manager
  {
    Manager(DefaultConfig, [], map[], map[], {}, 0, None, false, now, 0, 0)
  }

  function Threshold(c: Config): real
  {
    c.maxCacheSize as real * c.gcThreshold
  }

  function StoredEntry(c: Config, p: Params, now: int): Entry
  {
    Entry(if c.compressionEnabled then Compress(p) else p, now, 0, now, c.compressionEnabled)
  }

  /** The Map invariant: a key is held at most once. */
  predicate ValidStore(m: Manager)
  {
    DistinctKeys(m.cache)
  }

  /** `cacheParameters` as written: store the (rounded) entry with a zero
      access count, then evict by access count times age when the store has
      grown past `maxCacheSize * gcThreshold`. */
  function CacheParametersAsWritten(m: Manager, face: int, section: string, role: string, p: Params, now: int): (r: Manager)
    requires ValidStore(m)
    ensures var stored := Store(m.cache, CacheKey(face, section, role), StoredEntry(m.config, p, now));
      && (|stored| as real <= Threshold(m.config) ==> r.cache == stored)
      && (|stored| as real > Threshold(m.config) ==> |r.cache| == |stored| - |stored| / 5)
    ensures r.(cache := m.cache) == m
  {
    var k := CacheKey(face, section, role);
    var stored := Store(m.cache, k, StoredEntry(m.config, p, now));
    StoreSpec(m.cache, k, StoredEntry(m.config, p, now));
    m.(cache := if |stored| as real > Threshold(m.config) then GarbageCollectAsWritten(stored, now) else stored)
  }

  /** `cacheParameters` with least-recently-accessed eviction. Without
      eviction the key reads the new entry and every other key is untouched;
      with it, a fifth of the grown store goes. */
  function CacheParameters(m: Manager, face: int, section: string, role: string, p: Params, now: int): (r: Manager)
    requires ValidStore(m)
    ensures ValidStore(r)
    ensures var k := CacheKey(face, section, role);
      var stored := Store(m.cache, k, StoredEntry(m.config, p, now));
      && (|stored| as real <= Threshold(m.config) ==>
            && Lookup(r.cache, k) == Some(StoredEntry(m.config, p, now))
            && (forall k' :: k' != k ==> Lookup(r.cache, k') == Lookup(m.cache, k')))
      && (|stored| as real > Threshold(m.config) ==>
            |r.cache| == |stored| - |stored| / 5 && forall x :: x in r.cache ==> x in stored)
      && |stored| == |m.cache| + (if k in KeysOf(m.cache) then 0 else 1)
    ensures r.(cache := m.cache) == m
  {
    var k := CacheKey(face, section, role);
    var stored := Store(m.cache, k, StoredEntry(m.config, p, now));
    StoreSpec(m.cache, k, StoredEntry(m.config, p, now));
    m.(cache := if |stored| as real > Threshold(m.config) then GarbageCollect(stored) else stored)
  }

  /** The hit branch of `getCachedParameters`: count the hit and bump the
      entry's access count and time in place. */
  function RecordHit(m: Manager, k: string, e: Entry, now: int): (r: Manager)
    requires Lookup(m.cache, k) == Some(e)
    ensures r.cacheHits == m.cacheHits + 1
    ensures Lookup(r.cache, k) == Some(e.(accessCount := e.accessCount + 1, lastAccessed := now))
    ensures forall k' :: k' != k ==> Lookup(r.cache, k') == Lookup(m.cache, k')
    ensures |r.cache| == |m.cache|
    ensures forall i :: 0 <= i < |m.cache| ==> r.cache[i].key == m.cache[i].key
    ensures r.(cache := m.cache, cacheHits := m.cacheHits) == m
    ensures ValidStore(m) ==> ValidStore(r)
  {
    var e' := e.(accessCount := e.accessCount + 1, lastAccessed := now);
    LookupIffKey(m.cache, k);
    StoreSpec(m.cache, k, e');
    m.(cache := Store(m.cache, k, e'), cacheHits := m.cacheHits + 1)
  }

  /** `getCachedParameters`: a hit counts, bumps the entry's access count and
      time and returns its parameters (decompression is the identity); a miss
      counts and returns nothing. */
  function GetCachedParameters(m: Manager, face: int, section: string, role: string, now: int): (r: (Manager, Option<Params>))
    ensures var k := CacheKey(face, section, role);
      match Lookup(m.cache, k)
      case Some(e) =>
        && r.1 == Some(e.params)
        && r.0.cacheHits == m.cacheHits + 1 && r.0.cacheMisses == m.cacheMisses
        && Lookup(r.0.cache, k) == Some(e.(accessCount := e.accessCount + 1, lastAccessed := now))
        && (forall k' :: k' != k ==> Lookup(r.0.cache, k') == Lookup(m.cache, k'))
        && |r.0.cache| == |m.cache|
        && (forall i :: 0 <= i < |m.cache| ==> r.0.cache[i].key == m.cache[i].key)
        && r.0.(cache := m.cache, cacheHits := m.cacheHits) == m
      case None =>
        && r.1.None?
        && r.0 == m.(cacheMisses := m.cacheMisses + 1)
    ensures r.0.config == m.config && r.0.history == m.history && r.0.currentFace == m.currentFace
    ensures ValidStore(m) ==> ValidStore(r.0)
  {
    var k := CacheKey(face, section, role);
    match Lookup(m.cache, k)
    case Some(e) => (RecordHit(m, k, e, now), Some(e.params))
    case None => (m.(cacheMisses := m.cacheMisses + 1), None)
  }

  /** Right after caching, the key holds the new entry, unless eviction ran
      on a store where the key was already present. */
  lemma CachedEntryPresent(m: Manager, face: int, section: string, role: string, p: Params, now: int)
    requires ValidStore(m)
    requires forall i :: 0 <= i < |m.cache| ==> m.cache[i].entry.lastAccessed <= now
    requires CacheKey(face, section, role) !in KeysOf(m.cache) || |m.cache| as real <= Threshold(m.config)
    ensures Lookup(CacheParameters(m, face, section, role, p, now).cache, CacheKey(face, section, role))
            == Some(StoredEntry(m.config, p, now))
  {
    var k := CacheKey(face, section, role);
    var e := StoredEntry(m.config, p, now);
    var stored := Store(m.cache, k, e);
    StoreSpec(m.cache, k, e);
    if |stored| as real > Threshold(m.config) {
      assert stored == m.cache + [Slot(k, e)];
      LastMaximumSurvives(m.cache, Slot(k, e), ByLastAccess);
      LookupFindsSlot(CacheParameters(m, face, section, role, p, now).cache, Slot(k, e));
    }
  }

  /** Reading back what was just cached (the key was new, or the store was
      not over its threshold) gives the rounded parameters, provided no entry
      claims to have been read later than `now`. */
  lemma GetAfterCache(m: Manager, face: int, section: string, role: string, p: Params, now: int, later: int)
    requires ValidStore(m)
    requires forall i :: 0 <= i < |m.cache| ==> m.cache[i].entry.lastAccessed <= now
    requires CacheKey(face, section, role) !in KeysOf(m.cache) || |m.cache| as real <= Threshold(m.config)
    ensures GetCachedParameters(CacheParameters(m, face, section, role, p, now), face, section, role, later).1
            == Some(if m.config.compressionEnabled then Compress(p) else p)
  {
    CachedEntryPresent(m, face, section, role, p, now);
  }

  /** As written, caching a new key into a full store whose other entries
      have all been read before loses it at once: the very next lookup
      misses. */
  lemma CacheThenMissAsWritten(m: Manager, face: int, section: string, role: string, p: Params, now: int)
    requires ValidStore(m)
    requires CacheKey(face, section, role) !in KeysOf(m.cache)
    requires (|m.cache| + 1) as real > Threshold(m.config) && |m.cache| + 1 >= 5
    requires forall i :: 0 <= i < |m.cache| ==>
               m.cache[i].entry.accessCount * (now - m.cache[i].entry.lastAccessed) > 0
    ensures Lookup(CacheParametersAsWritten(m, face, section, role, p, now).cache, CacheKey(face, section, role)).None?
  {
    var k := CacheKey(face, section, role);
    var e := StoredEntry(m.config, p, now);
    var x := Slot(k, e);
    StoreSpec(m.cache, k, e);
    var stored := m.cache + [x];
    FreshEntryEvictedAsWritten(m.cache, x, now);
    var r := GarbageCollectAsWritten(stored, now);
    forall j | 0 <= j < |m.cache| ensures m.cache[j].key != k {
      KeyIn(m.cache, j);
    }
  }

  /** Because of the `_` join, an entry cached for section `a_b` and role `c`
      is what a lookup for section `a` and role `b_c` returns. */
  lemma AliasedLookupHits(m: Manager, face: int, a: string, b: string, c: string, p: Params, now: int, later: int)
    requires ValidStore(m)
    requires forall i :: 0 <= i < |m.cache| ==> m.cache[i].entry.lastAccessed <= now
    requires CacheKey(face, a + "_" + b, c) !in KeysOf(m.cache) || |m.cache| as real <= Threshold(m.config)
    ensures GetCachedParameters(CacheParameters(m, face, a + "_" + b, c, p, now), face, a, b + "_" + c, later).1.Some?
  {
    KeysAlias(face, a, b, c);
    GetAfterCache(m, face, a + "_" + b, c, p, now, later);
  }

  /** `updateMetrics`' hit rate: hits over lookups, 0 before any lookup. */
  function HitRate(m: Manager): (r: real)
    ensures 0.0 <= r <= 1.0
    ensures m.cacheHits + m.cacheMisses == 0 ==> r == 0.0
    ensures m.cacheMisses == 0 && m.cacheHits > 0 ==> r == 1.0
  {
    var total := m.cacheHits + m.cacheMisses;
    if total > 0 then m.cacheHits as real / total as real else 0.0
  }

  // ---------------------------------------------------------------------
  // Face adjacency
  // ---------------------------------------------------------------------

  /** Bitwise exclusive or of two natural numbers, digit by binary digit. */
  function Xor(a: nat, b: nat): nat
    decreases a + b
  {
    if a == 0 && b == 0 then 0
    else 2 * Xor(a / 2, b / 2) + (if a % 2 == b % 2 then 0 else 1)
  }

  /** Number of 1 digits in the binary text of `n`. */
  function PopCount(n: nat): nat
  {
    if n == 0 then 0 else n % 2 + PopCount(n / 2)
  }

  /** The reference: in how many binary digit positions `a` and `b` differ. */
  function Hamming(a: nat, b: nat): nat
    decreases a + b
  {
    if a == 0 && b == 0 then 0
    else (if a % 2 == b % 2 then 0 else 1) + Hamming(a / 2, b / 2)
  }

  function Pow2(k: nat): (r: nat)
    ensures r >= 1
  {
    if k == 0 then 1 else 2 * Pow2(k - 1)
  }

  lemma {:induction false} Pow2Add(i: nat, j: nat)
    ensures Pow2(i + j) == Pow2(i) * Pow2(j)
  {
    if i > 0 {
      Pow2Add(i - 1, j);
    }
  }

  lemma Pow2Words()
    ensures Pow2(31) == Two31 && Pow2(32) == Two32
  {
    assert Pow2(1) == 2;
    Pow2Add(1, 1);
    assert Pow2(2) == 4;
    Pow2Add(2, 2);
    assert Pow2(4) == 16;
    Pow2Add(4, 4);
    assert Pow2(8) == 256;
    Pow2Add(8, 8);
    assert Pow2(16) == 0x1_0000;
    Pow2Add(16, 16);
    assert Pow2(32) == Two32;
    assert Pow2(32) == 2 * Pow2(31);
  }

  /** The exclusive or of two k-digit numbers has at most k digits. */
  lemma {:induction false} XorBelow(a: nat, b: nat, k: nat)
    requires a < Pow2(k) && b < Pow2(k)
    ensures Xor(a, b) < Pow2(k)
  {
    if !(a == 0 && b == 0) {
      XorBelow(a / 2, b / 2, k - 1);
    }
  }

  lemma {:induction false} XorZeroIffEqual(a: nat, b: nat)
    ensures Xor(a, b) == 0 <==> a == b
    decreases a + b
  {
    if !(a == 0 && b == 0) {
      XorZeroIffEqual(a / 2, b / 2);
    }
  }

  lemma {:induction false} XorCommutes(a: nat, b: nat)
    ensures Xor(a, b) == Xor(b, a)
    decreases a + b
  {
    if !(a == 0 && b == 0) {
      XorCommutes(a / 2, b / 2);
    }
  }

  lemma {:induction false} PopCountZero(n: nat)
    ensures PopCount(n) == 0 <==> n == 0
  {
    if n > 0 && n % 2 == 0 {
      PopCountZero(n / 2);
    }
  }

  /** The popcount of the exclusive or is the Hamming distance. */
  lemma {:induction false} PopCountXorIsHamming(a: nat, b: nat)
    ensures PopCount(Xor(a, b)) == Hamming(a, b)
    decreases a + b
  {
    if !(a == 0 && b == 0) {
      PopCountXorIsHamming(a / 2, b / 2);
      var x := Xor(a / 2, b / 2);
      var d := if a % 2 == b % 2 then 0 else 1;
      assert Xor(a, b) == 2 * x + d;
      assert (2 * x + d) % 2 == d && (2 * x + d) / 2 == x;
      if 2 * x + d == 0 {
        PopCountZero(x);
        XorZeroIffEqual(a / 2, b / 2);
      }
    }
  }

  /** The Hamming distance obeys the triangle inequality. */
  lemma {:induction false} HammingTriangle(a: nat, b: nat, c: nat)
    ensures Hamming(a, c) <= Hamming(a, b) + Hamming(b, c)
    decreases a + b + c
  {
    if !(a == 0 && b == 0 && c == 0) {
      HammingTriangle(a / 2, b / 2, c / 2);
    }
  }

  /** The int32 result of `face1 ^ face2`. */
  function Int32Xor(a: int, b: int): (r: int)
    ensures -Two31 <= r < Two31
  {
    Pow2Words();
    XorBelow(ToUint32(a), ToUint32(b), 32);
    var u := Xor(ToUint32(a), ToUint32(b));
    if u >= Two31 then u - Two32 else u
  }

  /** `calculateFaceDistance`: the number of `1` digits in the binary text
      of `face1 ^ face2` (a negative result prints as `-` and the digits of
      its magnitude). */
  function FaceDistance(a: int, b: int): nat
  {
    var x := Int32Xor(a, b);
    PopCount(if x < 0 then -x else x)
  }

  /** Face distance is symmetric, is zero exactly for the same face (as an
      int32), and for faces below 2^31 is the Hamming distance. */
  lemma FaceDistanceSpec(a: int, b: int)
    ensures FaceDistance(a, b) == FaceDistance(b, a)
    ensures FaceDistance(a, b) == 0 <==> ToUint32(a) == ToUint32(b)
    ensures 0 <= a < Two31 && 0 <= b < Two31 ==> FaceDistance(a, b) == Hamming(a, b)
  {
    XorCommutes(ToUint32(a), ToUint32(b));
    assert Int32Xor(a, b) == Int32Xor(b, a);
    FaceDistanceZero(a, b);
    if 0 <= a < Two31 && 0 <= b < Two31 {
      FaceDistanceHamming(a, b);
    }
  }

  /** Distance zero exactly for the same face read as an int32. */
  lemma FaceDistanceZero(a: int, b: int)
    ensures FaceDistance(a, b) == 0 <==> ToUint32(a) == ToUint32(b)
  {
    var ua, ub := ToUint32(a), ToUint32(b);
    var u := Xor(ua, ub);
    Pow2Words();
    XorBelow(ua, ub, 32);
    XorZeroIffEqual(ua, ub);
    var x := Int32Xor(a, b);
    var v := if x < 0 then -x else x;
    assert v == 0 <==> u == 0;
    PopCountZero(v);
  }

  /** Below 2^31 the xor needs no sign, so its digit count is the Hamming distance. */
  lemma FaceDistanceHamming(a: int, b: int)
    requires 0 <= a < Two31 && 0 <= b < Two31
    ensures FaceDistance(a, b) == Hamming(a, b)
  {
    Pow2Words();
    XorBelow(a, b, 31);
    assert ToUint32(a) == a && ToUint32(b) == b;
    var u := Xor(a, b);
    assert u < Two31;
    assert Int32Xor(a, b) == u;
    assert FaceDistance(a, b) == PopCount(u);
    PopCountXorIsHamming(a, b);
  }

  /** The faces `i` in 0..7 with `lo <= i`, other than `c`, within `radius`,
      in ascending order. */
  function AdjacentFrom(c: int, radius: int, lo: int): (r: seq<int>)
    requires 0 <= lo <= 8
    ensures forall x :: x in r <==> lo <= x < 8 && x != c && FaceDistance(c, x) <= radius
    ensures forall i, j :: 0 <= i < j < |r| ==> r[i] < r[j]
    decreases 8 - lo
  {
    if lo == 8 then []
    else
      var rest := AdjacentFrom(c, radius, lo + 1);
      assert forall j :: 0 <= j < |rest| ==> rest[j] in rest;
      if lo != c && FaceDistance(c, lo) <= radius then [lo] + rest else rest
  }

  /** `getAdjacentFaces`. */
  function AdjacentFaces(c: int, radius: int): (r: seq<int>)
    ensures forall x :: x in r <==> 0 <= x < 8 && x != c && FaceDistance(c, x) <= radius
    ensures forall i, j :: 0 <= i < j < |r| ==> r[i] < r[j]
  {
    AdjacentFrom(c, radius, 0)
  }

  /** Adjacency within a radius is symmetric between the faces 0..7. */
  lemma AdjacencySymmetric(c: int, d: int, radius: int)
    requires 0 <= c < 8 && 0 <= d < 8
    ensures d in AdjacentFaces(c, radius) <==> c in AdjacentFaces(d, radius)
  {
    FaceDistanceSpec(c, d);
  }

  // ---------------------------------------------------------------------
  // Face transitions and parameter history
  // ---------------------------------------------------------------------

  function TransitionKey(from: int, to: int): string
  {
    IntText(from) + "_to_" + IntText(to)
  }

  /** `handleFaceTransition`: the faces move on, a snapshot (taken after the
      current face changed) is recorded under `from_to_to`, and the target
      face together with its neighbours within `preloadRadius` is marked
      preloaded (the preload of each neighbour runs synchronously up to its
      first `await`, which is after the mark). */
  function HandleFaceTransition(m: Manager, from: int, to: int, kind: string, preserve: bool, now: int): (r: Manager)
    ensures r.previousFace == Some(from) && r.currentFace == to && r.transitionInProgress
    ensures TransitionKey(from, to) in r.transitions
    ensures r.transitions[TransitionKey(from, to)] == Transition(now, kind, preserve, to)
    ensures forall t :: t != TransitionKey(from, to) && t in m.transitions ==>
              t in r.transitions && r.transitions[t] == m.transitions[t]
    ensures m.preloaded <= r.preloaded && to in r.preloaded
    ensures forall f :: f in r.preloaded && f !in m.preloaded ==>
              f == to || (0 <= f < 8 && FaceDistance(to, f) <= m.config.preloadRadius)
    ensures forall f :: 0 <= f < 8 && f != to && FaceDistance(to, f) <= m.config.preloadRadius ==> f in r.preloaded
    ensures r.cache == m.cache && r.history == m.history && r.config == m.config
  {
    var adjacent := AdjacentFaces(to, m.config.preloadRadius);
    m.(transitionInProgress := true,
       previousFace := Some(from),
       currentFace := to,
       transitions := m.transitions[TransitionKey(from, to) := Transition(now, kind, preserve, to)],
       preloaded := m.preloaded + (set f | f in adjacent) + {to})
  }

  /** The 100 ms timer at the end of a transition. */
  function EndTransition(m: Manager): (r: Manager)
    ensures !r.transitionInProgress
    ensures r.(transitionInProgress := m.transitionInProgress) == m
  {
    m.(transitionInProgress := false)
  }

  function HistoryKey(face: int, parameterId: string): string
  {
    IntText(face) + "_" + parameterId
  }

  /** Every history is within `maxHistoryEntries`. */
  predicate HistoryBounded(m: Manager)
  {
    forall k :: k in m.history ==> |m.history[k]| <= m.config.maxHistoryEntries
  }

  /** `handleParameterChange`: the change is appended to the current face's
      history of that parameter, dropping the oldest entry when the history
      is already full; a missing or zero timestamp falls back to `now`. */
  function HandleParameterChange(m: Manager, parameterId: string, oldValue: Value, newValue: Value,
                                 source: string, timestamp: Option<int>, now: int): (r: Manager)
    ensures var k := HistoryKey(m.currentFace, parameterId);
      var before := if k in m.history then m.history[k] else [];
      var c := Change(oldValue, newValue, source,
                      if timestamp.Some? && timestamp.value != 0 then timestamp.value else now, m.currentFace);
      && k in r.history
      && (|before| < m.config.maxHistoryEntries ==> r.history[k] == before + [c])
      && (|before| >= m.config.maxHistoryEntries ==> r.history[k] == (before + [c])[1..])
    ensures forall k' :: k' != HistoryKey(m.currentFace, parameterId) && k' in m.history ==>
              k' in r.history && r.history[k'] == m.history[k']
    ensures r.history.Keys == m.history.Keys + {HistoryKey(m.currentFace, parameterId)}
    ensures r.lastInteractionTime == now
    ensures r.(history := m.history, lastInteractionTime := m.lastInteractionTime) == m
  {
    var ts := if timestamp.Some? && timestamp.value != 0 then timestamp.value else now;
    RecordChange(m, HistoryKey(m.currentFace, parameterId), Change(oldValue, newValue, source, ts, m.currentFace), now)
  }

  /** Records `c` under the history key `k` at time `now`. */
  function RecordChange(m: Manager, k: string, c: Change, now: int): (r: Manager)
    ensures var before := if k in m.history then m.history[k] else [];
      && k in r.history
      && (|before| < m.config.maxHistoryEntries ==> r.history[k] == before + [c])
      && (|before| >= m.config.maxHistoryEntries ==> r.history[k] == (before + [c])[1..])
    ensures forall k' :: k' != k && k' in m.history ==> k' in r.history && r.history[k'] == m.history[k']
    ensures r.history.Keys == m.history.Keys + {k}
    ensures r.lastInteractionTime == now
    ensures r.(history := m.history, lastInteractionTime := m.lastInteractionTime) == m
  {
    m.(history := PushHistory(m.history, k, c, m.config.maxHistoryEntries), lastInteractionTime := now)
  }

  /** Appends `c` to the history under `k`, keeping at most `n` entries;
      every other history is left as it was. */
  function PushHistory(hs: map<string, seq<Change>>, k: string, c: Change, n: nat): (r: map<string, seq<Change>>)
    ensures r.Keys == hs.Keys + {k}
    ensures forall k' :: k' != k && k' in hs ==> k' in r && r[k'] == hs[k']
    ensures r[k] == PushBounded(if k in hs then hs[k] else [], c, n)
  {
    hs[k := PushBounded(if k in hs then hs[k] else [], c, n)]
  }

  /** Recording changes keeps every history within the limit. */
  lemma ParameterChangeKeepsBound(m: Manager, parameterId: string, oldValue: Value, newValue: Value,
                                  source: string, timestamp: Option<int>, now: int)
    requires HistoryBounded(m)
    ensures HistoryBounded(HandleParameterChange(m, parameterId, oldValue, newValue, source, timestamp, now))
  {
    var ts := if timestamp.Some? && timestamp.value != 0 then timestamp.value else now;
    RecordKeepsBound(m, HistoryKey(m.currentFace, parameterId), Change(oldValue, newValue, source, ts, m.currentFace), now);
  }

  lemma RecordKeepsBound(m: Manager, k: string, c: Change, now: int)
    requires HistoryBounded(m)
    ensures HistoryBounded(RecordChange(m, k, c, now))
  {
    var n := m.config.maxHistoryEntries;
    var h := PushHistory(m.history, k, c, n);
    forall k' | k' in h
      ensures |h[k']| <= n
    {
      if k' != k {
        assert h[k'] == m.history[k'];
      }
    }
    assert RecordChange(m, k, c, now) == m.(history := h, lastInteractionTime := now);
  }

  const DayMillis: int := 24 * 60 * 60 * 1000

  /** Changes newer than `cutoff`. */
  function After(cutoff: int): Change -> bool
  {
    (c: Change) => c.timestamp > cutoff
  }

  /** The history `filter`: the changes newer than the cutoff, in order. */
  function Recent(h: seq<Change>, cutoff: int): (r: seq<Change>)
    ensures |r| <= |h|
    ensures forall c :: c in r <==> c in h && c.timestamp > cutoff
  {
    FilterMembers(h, After(cutoff));
    Filter(h, After(cutoff))
  }

  /** `Recent` is the order-preserving `filter`: it distributes over
      concatenation and keeps a single change iff it is newer than the
      cutoff, which together fix it on every history. */
  lemma RecentIsFilter(a: seq<Change>, b: seq<Change>, cutoff: int)
    ensures Recent(a + b, cutoff) == Recent(a, cutoff) + Recent(b, cutoff)
    ensures |a| == 1 ==> Recent(a, cutoff) == if a[0].timestamp > cutoff then a else []
  {
    FilterAppend(a, b, After(cutoff));
  }

  /** `cleanupHistory`: entries older than a day are dropped; each history
      is filtered in place, keeping the order of what remains. */
  function CleanupHistory(m: Manager, now: int): (r: Manager)
    ensures r.history.Keys == m.history.Keys
    ensures forall k :: k in r.history ==> r.history[k] == Recent(m.history[k], now - DayMillis)
    ensures forall k :: k in r.history ==>
              |r.history[k]| <= |m.history[k]| &&
              forall c :: c in r.history[k] <==> c in m.history[k] && c.timestamp > now - DayMillis
    ensures HistoryBounded(m) ==> HistoryBounded(r)
    ensures r.(history := m.history) == m
  {
    m.(history := map k | k in m.history :: Recent(m.history[k], now - DayMillis))
  }

  // ---------------------------------------------------------------------
  // Cache metadata
  // ---------------------------------------------------------------------

  datatype Metadata = Metadata(cacheSize: nat, optimalCacheSize: int, timestamp: int)

  /** `generateCacheMetadata`. */
  function GenerateCacheMetadata(m: Manager, now: int): (r: Metadata)
    ensures r.cacheSize == |m.cache|
    ensures r.optimalCacheSize >= m.config.maxCacheSize && r.optimalCacheSize >= |m.cache|
    ensures r.optimalCacheSize == m.config.maxCacheSize || r.optimalCacheSize == |m.cache|
  {
    Metadata(|m.cache|, MaxInt(m.config.maxCacheSize, |m.cache|), now)
  }

  /** `applyCacheMetadata`: a truthy optimal size replaces the limit. */
  function ApplyCacheMetadata(m: Manager, md: Metadata): (r: Manager)
    ensures md.optimalCacheSize != 0 ==> r.config.maxCacheSize == md.optimalCacheSize
    ensures md.optimalCacheSize == 0 ==> r == m
    ensures r.(config := m.config) == m
    ensures r.config.(maxCacheSize := m.config.maxCacheSize) == m.config
  {
    if md.optimalCacheSize != 0 then m.(config := m.config.(maxCacheSize := md.optimalCacheSize)) else m
  }

  /** Saving and restoring the metadata never shrinks the cache limit, and
      raises it to the current size when the store has outgrown it. */
  lemma MetadataRoundTrip(m: Manager, now: int)
    ensures ApplyCacheMetadata(m, GenerateCacheMetadata(m, now)).config.maxCacheSize >= m.config.maxCacheSize
    ensures m.config.maxCacheSize > 0 || |m.cache| > 0 ==>
              ApplyCacheMetadata(m, GenerateCacheMetadata(m, now)).config.maxCacheSize
              == MaxInt(m.config.maxCacheSize, |m.cache|)
  {
  }
}

=== FILE: home_master.dfy ===
/** The single source of truth for every visualizer: the master dials, the
    section and role modifier tables, the three-layer parameter derivation,
    interaction ingestion, the per-frame decay step and the configurable
    interaction effects with their timed reverts (core/VIB3HomeMaster.js). */
module HomeMaster {
  import opened Common

  // ---------------------------------------------------------------------------
  // Static tables
  // ---------------------------------------------------------------------------

  datatype RGB = RGB(r: real, g: real, b: real)

  /** One row of the section table: master dial × modifier gives the section
      value; geometry and colour are the section's own. */
  datatype SectionModifier = SectionModifier(
    intensityMod: real, speedMod: real, densityMod: real, complexityMod: real,
    geometry: real, geometryThemeName: string, baseColor: RGB, name: string)

  /** The section keys the table defines. */
  predicate IsSection(key: int)
  {
    0 <= key <= 5
  }

  /** The section table. */
  function Section(key: int): SectionModifier
    requires IsSection(key)
  {
    if key == 0 then SectionModifier(1.0, 1.0, 1.0, 1.0, 0.0, "hypercube", RGB(1.0, 0.0, 1.0), "HOME")
    else if key == 1 then SectionModifier(0.8, 0.6, 0.7, 0.4, 1.0, "tetrahedron", RGB(0.0, 1.0, 1.0), "TECH")
    else if key == 2 then SectionModifier(1.3, 1.4, 1.2, 1.1, 2.0, "sphere", RGB(1.0, 1.0, 0.0), "MEDIA")
    else if key == 3 then SectionModifier(0.9, 1.1, 0.8, 0.9, 3.0, "torus", RGB(0.0, 1.0, 0.0), "AUDIO")
    else if key == 4 then SectionModifier(1.5, 1.2, 1.4, 1.3, 6.0, "wave", RGB(1.0, 0.0, 0.5), "QUANTUM")
    else SectionModifier(0.9, 0.7, 1.1, 0.6, 7.0, "crystal", RGB(0.0, 0.7, 1.0), "CONTEXT")
  }

  /** The colour transform a role applies to its section's base colour. */
  datatype ColorMod = Base | Darken | Brighten | Complement

  /** One row of the role table, applied on top of a section's parameters. */
  datatype RoleModifier = RoleModifier(
    gridScale: real, morphScale: real, rotationScale: real,
    dimensionBoost: real, interactionSensitivity: real, color: ColorMod)

  /** The five layer roles of a visualizer stack. */
  datatype RoleName = Background | Shadow | Content | Highlight | Accent

  /** The name a role goes by in the configuration and the DOM. */
  function RoleLabel(rn: RoleName): string
  {
    match rn
    case Background => "background"
    case Shadow => "shadow"
    case Content => "content"
    case Highlight => "highlight"
    case Accent => "accent"
  }

  /** Reads a role name; None for any name outside the table. */
  function ParseRole(s: string): (r: Option<RoleName>)
    ensures r.Some? ==> RoleLabel(r.value) == s
  {
    if s == "background" then Some(Background)
    else if s == "shadow" then Some(Shadow)
    else if s == "content" then Some(Content)
    else if s == "highlight" then Some(Highlight)
    else if s == "accent" then Some(Accent)
    else None
  }

  /** Every role's label reads back as that role. */
  lemma ParseRoleLabel(rn: RoleName)
    ensures ParseRole(RoleLabel(rn)) == Some(rn)
  {
  }

  /** The role table. */
  function Role(rn: RoleName): RoleModifier
  {
    match rn
    case Background => RoleModifier(0.4, 0.2, 0.3, -0.2, 0.3, Base)
    case Shadow => RoleModifier(0.8, 0.3, 0.5, -0.1, 0.5, Darken)
    case Content => RoleModifier(1.0, 1.0, 1.0, 0.0, 1.0, Base)
    case Highlight => RoleModifier(1.5, 0.8, 1.2, 0.1, 1.2, Brighten)
    case Accent => RoleModifier(0.6, 0.4, 0.4, 0.2, 1.5, Complement)
  }

  const MouseDecay: real := 0.95
  const ClickDecay: real := 0.92
  const ScrollDecay: real := 0.96
  /** Milliseconds between two decay steps of the update loop. */
  const UpdateInterval: real := 16.0

  // ---------------------------------------------------------------------------
  // Master state
  // ---------------------------------------------------------------------------

  /** A pending timed revert of one dial, registered by an interaction effect
      that has a duration: the operation, the value it applied and the
      baseline a 'set' reverts to, as the source's timer captures them, and
      the dial's value just before the effect, which only the corrected
      revert reads. */
  datatype Revert = Revert(operation: string, value: real, original: real, before: real)

  /** The master state. `extra` holds dials that `overrideParameters` added
      beyond the built-in ones; `timers` holds the pending timed reverts. */
  datatype MasterState = MasterState(
    intensity: real, speed: real, density: real, dimension: real,
    complexity: real, coherence: real,
    mouseIntensity: real, clickPulse: real, scrollChaos: real,
    activeSection: int, transitionProgress: real,
    editorOverrides: map<string, real>,
    currentDragTension: real, isPortalling: real,
    timers: map<string, Revert>,
    extra: map<string, real>)

  const Initial: MasterState :=
    MasterState(0.8, 1.0, 1.0, 3.5, 0.5, 1.0, 0.0, 0.0, 0.0, 0, 1.0,
                map[], 0.0, 0.0, map[], map[])

  /** The numeric dials addressable by name. */
  const DialNames: set<string> := {
    "intensity", "speed", "density", "dimension", "complexity", "coherence",
    "mouseIntensity", "clickPulse", "scrollChaos", "transitionProgress",
    "currentDragTension", "isPortalling"}

  /** The value of a dial by name, None when the state has no such property. */
  function GetDial(ms: MasterState, name: string): (r: Option<real>)
    ensures name in DialNames ==> r.Some?
    ensures name !in DialNames ==> r == Get(ms.extra, name)
  {
    if name == "intensity" then Some(ms.intensity)
    else if name == "speed" then Some(ms.speed)
    else if name == "density" then Some(ms.density)
    else if name == "dimension" then Some(ms.dimension)
    else if name == "complexity" then Some(ms.complexity)
    else if name == "coherence" then Some(ms.coherence)
    else if name == "mouseIntensity" then Some(ms.mouseIntensity)
    else if name == "clickPulse" then Some(ms.clickPulse)
    else if name == "scrollChaos" then Some(ms.scrollChaos)
    else if name == "transitionProgress" then Some(ms.transitionProgress)
    else if name == "currentDragTension" then Some(ms.currentDragTension)
    else if name == "isPortalling" then Some(ms.isPortalling)
    else Get(ms.extra, name)
  }

  /** Assigns a dial by name, adding it when it is not a built-in one. */
  function SetDial(ms: MasterState, name: string, v: real): (r: MasterState)
    ensures GetDial(r, name) == Some(v)
    ensures forall n :: n != name ==> GetDial(r, n) == GetDial(ms, n)
    ensures r.activeSection == ms.activeSection
    ensures r.editorOverrides == ms.editorOverrides && r.timers == ms.timers
  {
    if name == "intensity" then ms.(intensity := v)
    else if name == "speed" then ms.(speed := v)
    else if name == "density" then ms.(density := v)
    else if name == "dimension" then ms.(dimension := v)
    else if name == "complexity" then ms.(complexity := v)
    else if name == "coherence" then ms.(coherence := v)
    else if name == "mouseIntensity" then ms.(mouseIntensity := v)
    else if name == "clickPulse" then ms.(clickPulse := v)
    else if name == "scrollChaos" then ms.(scrollChaos := v)
    else if name == "transitionProgress" then ms.(transitionProgress := v)
    else if name == "currentDragTension" then ms.(currentDragTension := v)
    else if name == "isPortalling" then ms.(isPortalling := v)
    else ms.(extra := ms.extra[name := v])
  }

  // ---------------------------------------------------------------------------
  // Editor configuration (the JSON document, already parsed)
  // ---------------------------------------------------------------------------

  datatype PageModifiers = PageModifiers(
    intensityModifier: Option<real>, speedModifier: Option<real>,
    gridModifier: Option<real>, complexityModifier: Option<real>)

  datatype PageRelation = PageRelation(modifiers: Option<PageModifiers>, colorBase: Option<RGB>)

  /** Each present control carries its `default` value. */
  datatype MasterControls = MasterControls(
    visualIntensity: Option<real>, animationSpeed: Option<real>, gridComplexity: Option<real>)

  /** How an interaction effect changes one dial. */
  datatype StateChange = StateChange(
    parameter: string, valueFromIntensity: bool, value: real,
    operation: string, duration: Option<real>)

  datatype Effect = Effect(enabled: bool, affectsState: Option<StateChange>, secondaryEffect: Option<Effect>)

  /** A preset that is switched on or off and carries one numeric default. */
  datatype Toggle = Toggle(enabled: bool, amount: Option<real>)

  datatype InteractionPresets = InteractionPresets(
    cubeNavigation: Option<Toggle>, tensionBuild: Option<Effect>,
    cubeTension: Option<Effect>, portalTransitionEffect: Option<Effect>,
    hoverEffects: Option<Toggle>, contentGravity: Option<Toggle>)

  datatype EditorConfig = EditorConfig(
    masterControls: Option<MasterControls>,
    pageRelations: map<string, PageRelation>,
    interactionPresets: Option<InteractionPresets>)

  /** Applies the `default` of every master control present in the config. */
  function ApplyMasterControls(ms: MasterState, mc: Option<MasterControls>): (r: MasterState)
    ensures mc.None? ==> r == ms
    ensures mc.Some? && mc.value.visualIntensity.Some? ==> r.intensity == mc.value.visualIntensity.value
    ensures mc.Some? && mc.value.animationSpeed.Some? ==> r.speed == mc.value.animationSpeed.value
    ensures mc.Some? && mc.value.gridComplexity.Some? ==> r.density * 3.0 == mc.value.gridComplexity.value
    ensures mc.Some? && mc.value.visualIntensity.None? ==> r.intensity == ms.intensity
    ensures mc.Some? && mc.value.animationSpeed.None? ==> r.speed == ms.speed
    ensures mc.Some? && mc.value.gridComplexity.None? ==> r.density == ms.density
    ensures r == ms.(intensity := r.intensity, speed := r.speed, density := r.density)
  {
    if mc.None? then ms
    else
      var c := mc.value;
      var ms1 := if c.visualIntensity.Some? then ms.(intensity := c.visualIntensity.value) else ms;
      var ms2 := if c.animationSpeed.Some? then ms1.(speed := c.animationSpeed.value) else ms1;
      if c.gridComplexity.Some? then ms2.(density := c.gridComplexity.value / 3.0) else ms2
  }

  // ---------------------------------------------------------------------------
  // Parameter derivation: master state -> section -> role
  // ---------------------------------------------------------------------------

  /** The name under which a section's page relation is looked up; every key
      outside 0..4 (section 5 included) reads as 'home'. */
  function SectionName(key: int): (n: string)
    ensures (key < 0 || key > 4) ==> n == "home"
    ensures n in {"home", "tech", "media", "audio", "quantum"}
    ensures 0 <= key <= 4 ==> n == ["home", "tech", "media", "audio", "quantum"][key]
  {
    var names := ["home", "tech", "media", "audio", "quantum"];
    if 0 <= key < |names| then names[key] else "home"
  }

  function PageRelationFor(cfg: Option<EditorConfig>, key: int): Option<PageRelation>
  {
    if cfg.Some? then Get(cfg.value.pageRelations, SectionName(key)) else None
  }

  function PageModifiersFor(cfg: Option<EditorConfig>, key: int): Option<PageModifiers>
  {
    var rel := PageRelationFor(cfg, key);
    if rel.Some? then rel.value.modifiers else None
  }

  function IntensityOverride(m: Option<PageModifiers>): Option<real> { if m.Some? then m.value.intensityModifier else None }
  function SpeedOverride(m: Option<PageModifiers>): Option<real> { if m.Some? then m.value.speedModifier else None }
  function GridOverride(m: Option<PageModifiers>): Option<real> { if m.Some? then m.value.gridModifier else None }
  function ComplexityOverride(m: Option<PageModifiers>): Option<real> { if m.Some? then m.value.complexityModifier else None }

  /** The section whose row a key actually reads: unknown keys fall back to
      section 0. */
  function EffectiveSection(key: int): (k: int)
    ensures IsSection(k)
    ensures IsSection(key) ==> k == key
    ensures !IsSection(key) ==> k == 0
  {
    if IsSection(key) then key else 0
  }

  datatype SectionParams = SectionParams(
    geometry: real, intensity: real, speed: real, density: real,
    dimension: real, complexity: real, baseColor: RGB,
    mouseIntensity: real, clickPulse: real, scrollChaos: real,
    coherence: real, colorVibrancy: Option<real>)

  /** Section-level parameters: each scaling dial times the section modifier
      (a truthy page-relation modifier from the config replaces the table's),
      the other dials passed through. An unknown key is derived as section 0. */
  function ParametersForSection(ms: MasterState, cfg: Option<EditorConfig>, key: int): (p: SectionParams)
    ensures !IsSection(key) ==> p == SectionLayer(ms, cfg, 0)
    ensures p.geometry == Section(EffectiveSection(key)).geometry
    ensures p.dimension == ms.dimension && p.coherence == ms.coherence
    ensures p.mouseIntensity == ms.mouseIntensity && p.clickPulse == ms.clickPulse
    ensures p.scrollChaos == ms.scrollChaos
    ensures PageRelationFor(cfg, EffectiveSection(key)).None? ==>
      var m := Section(EffectiveSection(key));
      && p.intensity == ms.intensity * m.intensityMod
      && p.speed == ms.speed * m.speedMod
      && p.density == ms.density * m.densityMod
      && p.complexity == ms.complexity * m.complexityMod
      && p.baseColor == m.baseColor
    ensures p.colorVibrancy.Some? <==> "colorVibrancy" in ms.editorOverrides && ms.editorOverrides["colorVibrancy"] != 0.0
  {
    SectionLayer(ms, cfg, EffectiveSection(key))
  }

  /** The section layer of a known section: every scaling dial is the master
      dial times the effective modifier, where a truthy page-relation
      modifier wins over the table's. */
  function SectionLayer(ms: MasterState, cfg: Option<EditorConfig>, key: int): (p: SectionParams)
    requires IsSection(key)
    ensures p.geometry == Section(key).geometry
    ensures p.intensity == ms.intensity * Or(IntensityOverride(PageModifiersFor(cfg, key)), Section(key).intensityMod)
    ensures p.speed == ms.speed * Or(SpeedOverride(PageModifiersFor(cfg, key)), Section(key).speedMod)
    ensures p.density == ms.density * Or(GridOverride(PageModifiersFor(cfg, key)), Section(key).densityMod)
    ensures p.complexity == ms.complexity * Or(ComplexityOverride(PageModifiersFor(cfg, key)), Section(key).complexityMod)
    ensures PageRelationFor(cfg, key).None? ==> p.baseColor == Section(key).baseColor
    ensures p.dimension == ms.dimension && p.coherence == ms.coherence
    ensures p.mouseIntensity == ms.mouseIntensity && p.clickPulse == ms.clickPulse
    ensures p.scrollChaos == ms.scrollChaos
    ensures p.colorVibrancy.Some? <==> "colorVibrancy" in ms.editorOverrides && ms.editorOverrides["colorVibrancy"] != 0.0
  {
    var m := Section(key);
    var rel := PageRelationFor(cfg, key);
    var mods := PageModifiersFor(cfg, key);
    SectionParams(
      geometry := m.geometry,
      intensity := ms.intensity * Or(IntensityOverride(mods), m.intensityMod),
      speed := ms.speed * Or(SpeedOverride(mods), m.speedMod),
      density := ms.density * Or(GridOverride(mods), m.densityMod),
      dimension := ms.dimension,
      complexity := ms.complexity * Or(ComplexityOverride(mods), m.complexityMod),
      baseColor := if rel.Some? && rel.value.colorBase.Some? then rel.value.colorBase.value else m.baseColor,
      mouseIntensity := ms.mouseIntensity,
      clickPulse := ms.clickPulse,
      scrollChaos := ms.scrollChaos,
      coherence := ms.coherence,
      colorVibrancy :=
        if "colorVibrancy" in ms.editorOverrides && ms.editorOverrides["colorVibrancy"] != 0.0
        then Some(ms.editorOverrides["colorVibrancy"]) else None)
  }

  /** A page-relation modifier of 0 is falsy and is ignored: the table's
      modifier applies. */
  lemma ZeroPageModifierIgnored(ms: MasterState, cfg: Option<EditorConfig>, key: int)
    requires IsSection(key)
    requires IntensityOverride(PageModifiersFor(cfg, key)) == Some(0.0)
    ensures ParametersForSection(ms, cfg, key).intensity == ms.intensity * Section(key).intensityMod
  {
    var mods := PageModifiersFor(cfg, key);
    var m := Section(key).intensityMod;
    assert ParametersForSection(ms, cfg, key) == SectionLayer(ms, cfg, key);
    assert Or(IntensityOverride(mods), m) == m;
  }

  /** Any other configured page-relation modifier replaces the table's. */
  lemma PageModifierOverrides(ms: MasterState, cfg: Option<EditorConfig>, key: int)
    requires IsSection(key)
    requires IntensityOverride(PageModifiersFor(cfg, key)).Some?
    requires IntensityOverride(PageModifiersFor(cfg, key)).value != 0.0
    ensures ParametersForSection(ms, cfg, key).intensity
         == ms.intensity * IntensityOverride(PageModifiersFor(cfg, key)).value
  {
    var mods := PageModifiersFor(cfg, key);
    var m := Section(key).intensityMod;
    assert ParametersForSection(ms, cfg, key) == SectionLayer(ms, cfg, key);
    assert Or(IntensityOverride(mods), m) == IntensityOverride(mods).value;
  }

  /** Applies a role's colour transform: darken scales by 0.7, brighten scales
      by 1.3 capped at 1, complement is 1 - c, and the base colour is copied. */
  function ApplyColorModification(c: RGB, mod: ColorMod): (r: RGB)
    ensures mod == Base ==> r == c
    ensures mod == Brighten ==> r.r <= 1.0 && r.g <= 1.0 && r.b <= 1.0
    ensures mod == Brighten && 0.0 <= c.r <= 1.0 ==> c.r <= r.r
    ensures mod == Brighten && 0.0 <= c.g <= 1.0 ==> c.g <= r.g
    ensures mod == Brighten && 0.0 <= c.b <= 1.0 ==> c.b <= r.b
    ensures mod == Darken && 0.0 <= c.r ==> 0.0 <= r.r <= c.r
    ensures mod == Darken && 0.0 <= c.g ==> 0.0 <= r.g <= c.g
    ensures mod == Darken && 0.0 <= c.b ==> 0.0 <= r.b <= c.b
    ensures mod == Complement ==> r.r + c.r == 1.0 && r.g + c.g == 1.0 && r.b + c.b == 1.0
  {
    match mod
    case Darken => RGB(c.r * 0.7, c.g * 0.7, c.b * 0.7)
    case Brighten => RGB(Min(1.0, c.r * 1.3), Min(1.0, c.g * 1.3), Min(1.0, c.b * 1.3))
    case Complement => RGB(1.0 - c.r, 1.0 - c.g, 1.0 - c.b)
    case Base => c
  }

  /** The complement transform is an involution. */
  lemma ComplementInvolution(c: RGB)
    ensures ApplyColorModification(ApplyColorModification(c, Complement), Complement) == c
  {
  }

  datatype InstanceParams = InstanceParams(
    geometry: real, gridDensity: real, rotationSpeed: real, morphFactor: real,
    dimension: real, intensity: real, baseColor: RGB,
    mouseIntensity: real, clickPulse: real, scrollChaos: real, coherence: real)

  /** What `getInstanceParameters` returns: the bare section bag for an
      unknown role, the role-adjusted bag otherwise. */
  datatype Bag = SectionBag(section: SectionParams) | InstanceBag(instance: InstanceParams)

  /** The role layer on top of a section's parameters: structural values are
      scaled, the dimension shifted, interaction scalars weighted by the
      role's sensitivity; geometry, intensity and coherence pass through. */
  function RoleLayer(s: SectionParams, rc: RoleModifier): (p: InstanceParams)
    ensures p.geometry == s.geometry && p.intensity == s.intensity && p.coherence == s.coherence
    ensures p.dimension - s.dimension == rc.dimensionBoost
    ensures rc.gridScale == 1.0 ==> p.gridDensity == s.density
    ensures rc.rotationScale == 1.0 ==> p.rotationSpeed == s.speed
    ensures rc.morphScale == 1.0 ==> p.morphFactor == s.complexity
    ensures rc.interactionSensitivity == 1.0 ==>
      p.mouseIntensity == s.mouseIntensity && p.clickPulse == s.clickPulse && p.scrollChaos == s.scrollChaos
    ensures 0.0 <= rc.gridScale <= 1.0 && 0.0 <= s.density ==> p.gridDensity <= s.density
  {
    ScaleAtMost(s.density, rc.gridScale);
    InstanceParams(
      geometry := s.geometry,
      gridDensity := s.density * rc.gridScale,
      rotationSpeed := s.speed * rc.rotationScale,
      morphFactor := s.complexity * rc.morphScale,
      dimension := s.dimension + rc.dimensionBoost,
      intensity := s.intensity,
      baseColor := ApplyColorModification(s.baseColor, rc.color),
      mouseIntensity := s.mouseIntensity * rc.interactionSensitivity,
      clickPulse := s.clickPulse * rc.interactionSensitivity,
      scrollChaos := s.scrollChaos * rc.interactionSensitivity,
      coherence := s.coherence)
  }

  /** Scaling a non-negative value by a factor in [0, 1] never grows it. */
  lemma ScaleAtMost(x: real, k: real)
    ensures 0.0 <= k <= 1.0 && 0.0 <= x ==> x * k <= x
  {
    if 0.0 <= k <= 1.0 && 0.0 <= x {
      assert x - x * k == x * (1.0 - k);
      assert 0.0 <= x * (1.0 - k);
    }
  }

  /** Role-level parameters for a visualizer of the given role in a section. */
  function InstanceParameters(ms: MasterState, cfg: Option<EditorConfig>, key: int, role: string): (b: Bag)
    ensures b.SectionBag? <==> ParseRole(role).None?
    ensures b.SectionBag? ==> b.section == ParametersForSection(ms, cfg, key)
    ensures b.InstanceBag? ==> b.instance == RoleLayer(ParametersForSection(ms, cfg, key), Role(ParseRole(role).value))
  {
    var s := ParametersForSection(ms, cfg, key);
    match ParseRole(role)
    case None => SectionBag(s)
    case Some(rn) => InstanceBag(RoleLayer(s, Role(rn)))
  }

  /** The three layers compose: with no page-relation config, a role's grid
      density, rotation speed and morph factor are the master dial times the
      section modifier times the role scale, and the interaction scalars are
      the master ones times the role's sensitivity. */
  lemma DerivationComposes(ms: MasterState, key: int, rc: RoleModifier)
    requires IsSection(key)
    ensures var p := RoleLayer(ParametersForSection(ms, None, key), rc);
      && p.gridDensity == ms.density * Section(key).densityMod * rc.gridScale
      && p.rotationSpeed == ms.speed * Section(key).speedMod * rc.rotationScale
      && p.morphFactor == ms.complexity * Section(key).complexityMod * rc.morphScale
  {
  }

  /** The interaction scalars skip the section layer: they are the master
      ones weighted by the role's sensitivity, and the dimension is the
      master one shifted by the role's boost. */
  lemma InteractionScalarsSkipSection(ms: MasterState, cfg: Option<EditorConfig>, key: int, rn: RoleName)
    ensures var p := RoleLayer(ParametersForSection(ms, cfg, key), Role(rn));
      && p.dimension == ms.dimension + Role(rn).dimensionBoost
      && p.mouseIntensity == ms.mouseIntensity * Role(rn).interactionSensitivity
      && p.clickPulse == ms.clickPulse * Role(rn).interactionSensitivity
      && p.scrollChaos == ms.scrollChaos * Role(rn).interactionSensitivity
  {
    var s := ParametersForSection(ms, cfg, key);
    assert s.dimension == ms.dimension && s.mouseIntensity == ms.mouseIntensity;
    assert s.clickPulse == ms.clickPulse && s.scrollChaos == ms.scrollChaos;
    var p := RoleLayer(s, Role(rn));
    assert p.mouseIntensity == s.mouseIntensity * Role(rn).interactionSensitivity;
  }

  /** The 'content' role is the identity layer: it reproduces the section
      values unchanged. The background role only thins the grid. */
  lemma ContentRoleIsIdentity(s: SectionParams)
    ensures var p := RoleLayer(s, Role(Content));
      && p.gridDensity == s.density && p.rotationSpeed == s.speed
      && p.morphFactor == s.complexity && p.dimension == s.dimension
      && p.baseColor == s.baseColor
      && p.mouseIntensity == s.mouseIntensity && p.clickPulse == s.clickPulse
      && p.scrollChaos == s.scrollChaos
    ensures 0.0 <= s.density ==> RoleLayer(s, Role(Background)).gridDensity <= s.density
  {
  }

  // ---------------------------------------------------------------------------
  // Interaction ingestion and section transitions
  // ---------------------------------------------------------------------------

  datatype Interaction =
    | MouseInput(intensity: real)
    | ClickInput
    | ScrollInput(velocity: real, chaos: real)
    | SectionInput(section: int)
    | OtherInput(kind: string)

  /** The transition logs both the current and the new section's name, so both
      must be table keys unless the call is a no-op. */
  predicate CanTransition(ms: MasterState, s: int)
  {
    s == ms.activeSection || (IsSection(ms.activeSection) && IsSection(s))
  }

  /** Switches to another section: progress restarts at 0 and coherence is
      boosted to 1.5; switching to the current section changes nothing. */
  function TransitionToSection(ms: MasterState, s: int): (r: MasterState)
    requires CanTransition(ms, s)
    ensures s == ms.activeSection ==> r == ms
    ensures s != ms.activeSection ==>
      && r.activeSection == s && r.transitionProgress == 0.0 && r.coherence == 1.5
      && r == ms.(activeSection := s, transitionProgress := 0.0, coherence := 1.5)
    ensures IsSection(r.activeSection) || r.activeSection == ms.activeSection
  {
    if s == ms.activeSection then ms
    else ms.(activeSection := s, transitionProgress := 0.0, coherence := 1.5)
  }

  /** Ingests one interaction into the transient scalars, clamping each at 1. */
  function UpdateInteraction(ms: MasterState, i: Interaction): (r: MasterState)
    requires i.SectionInput? ==> CanTransition(ms, i.section)
    ensures i.MouseInput? ==>
      && r.mouseIntensity <= 1.0
      && (i.intensity <= 1.0 ==> r.mouseIntensity == i.intensity)
      && (i.intensity > 1.0 ==> r.mouseIntensity == 1.0)
      && r == ms.(mouseIntensity := r.mouseIntensity)
    ensures i.ClickInput? ==>
      && r.clickPulse <= 1.0
      && (0.0 <= ms.clickPulse <= 1.0 ==> r.clickPulse >= ms.clickPulse)
      && (ms.clickPulse <= 0.2 ==> r.clickPulse == ms.clickPulse + 0.8)
      && (ms.clickPulse > 0.2 ==> r.clickPulse == 1.0)
      && r == ms.(clickPulse := r.clickPulse)
    ensures i.ScrollInput? ==>
      && 0.0 <= r.scrollChaos <= 1.0
      && (Abs(i.chaos) <= 1.0 ==> r.scrollChaos == Abs(i.chaos))
      && (Abs(i.chaos) > 1.0 ==> r.scrollChaos == 1.0)
      && (ms.intensity + Abs(i.velocity) * 0.1 <= 1.0 ==> r.intensity == ms.intensity + Abs(i.velocity) * 0.1)
      && (ms.intensity + Abs(i.velocity) * 0.1 > 1.0 ==> r.intensity == 1.0)
      && (ms.intensity <= 1.0 ==> ms.intensity <= r.intensity <= 1.0)
      && r == ms.(scrollChaos := r.scrollChaos, intensity := r.intensity)
    ensures i.SectionInput? ==> r == TransitionToSection(ms, i.section)
    ensures i.OtherInput? ==> r == ms
  {
    match i
    case MouseInput(x) => ms.(mouseIntensity := Min(1.0, x))
    case ClickInput => ms.(clickPulse := Min(1.0, ms.clickPulse + 0.8))
    case ScrollInput(v, c) =>
      ms.(scrollChaos := Min(1.0, Abs(c)),
          intensity := Min(1.0, ms.intensity + Abs(v) * 0.1))
    case SectionInput(s) => TransitionToSection(ms, s)
    case OtherInput(_) => ms
  }

  /** A second click always saturates the pulse: the first leaves it above
      0.2, so the second clamps it at 1. */
  lemma ClickTwiceSaturates(ms: MasterState)
    requires ms.clickPulse >= 0.0
    ensures UpdateInteraction(UpdateInteraction(ms, ClickInput), ClickInput).clickPulse == 1.0
  {
    var m1 := UpdateInteraction(ms, ClickInput);
    assert m1.clickPulse > 0.2;
  }

  // ---------------------------------------------------------------------------
  // The update loop's decay step
  // ---------------------------------------------------------------------------

  /** All three transient scalars have decayed below the idle threshold. */
  predicate Idle(ms: MasterState)
  {
    ms.mouseIntensity < 0.01 && ms.clickPulse < 0.01 && ms.scrollChaos < 0.01
  }

  /** The body of one update-loop step. */
  function Tick(ms: MasterState): (r: MasterState)
    ensures 0.0 <= ms.mouseIntensity ==> 0.0 <= r.mouseIntensity <= ms.mouseIntensity
    ensures 0.0 <= ms.clickPulse ==> 0.0 <= r.clickPulse <= ms.clickPulse
    ensures 0.0 <= ms.scrollChaos ==> 0.0 <= r.scrollChaos <= ms.scrollChaos
    ensures ms.mouseIntensity > 0.0 ==> r.mouseIntensity < ms.mouseIntensity
    ensures ms.transitionProgress < 1.0 ==>
      ms.transitionProgress < r.transitionProgress <= 1.0
      && (r.transitionProgress == 1.0 || r.transitionProgress == ms.transitionProgress + 0.02)
    ensures ms.transitionProgress + 0.02 <= 1.0 ==> r.transitionProgress == ms.transitionProgress + 0.02
    ensures ms.transitionProgress < 1.0 < ms.transitionProgress + 0.02 ==> r.transitionProgress == 1.0
    ensures ms.transitionProgress >= 1.0 ==> r.transitionProgress == ms.transitionProgress
    ensures ms.coherence > 1.0 ==> r.coherence == ms.coherence * 0.98 && 0.98 < r.coherence < ms.coherence
    ensures ms.coherence <= 1.0 ==> r.coherence == ms.coherence
    ensures Idle(r) ==> r.intensity == Max(0.3, ms.intensity * 0.99)
    ensures Idle(r) ==> r.intensity >= 0.3 && (ms.intensity >= 0.3 / 0.99 ==> r.intensity < ms.intensity || ms.intensity <= 0.0)
    ensures Idle(r) && ms.intensity <= 0.3 ==> r.intensity == 0.3
    ensures !Idle(r) ==> r.intensity == ms.intensity
    ensures r == ms.(mouseIntensity := r.mouseIntensity, clickPulse := r.clickPulse,
                     scrollChaos := r.scrollChaos, transitionProgress := r.transitionProgress,
                     coherence := r.coherence, intensity := r.intensity)
  {
    var m := ms.mouseIntensity * MouseDecay;
    var c := ms.clickPulse * ClickDecay;
    var s := ms.scrollChaos * ScrollDecay;
    var tp := if ms.transitionProgress < 1.0 then Min(1.0, ms.transitionProgress + 0.02) else ms.transitionProgress;
    var coh := if ms.coherence > 1.0 then ms.coherence * 0.98 else ms.coherence;
    var idle := m < 0.01 && c < 0.01 && s < 0.01;
    var inten := if idle then Max(0.3, ms.intensity * 0.99) else ms.intensity;
    ms.(mouseIntensity := m, clickPulse := c, scrollChaos := s,
        transitionProgress := tp, coherence := coh, intensity := inten)
  }

  /** One animation-frame callback: the decay step runs only when at least
      `UpdateInterval` ms have passed since the last one. Returns the new
      state and the new last-update time. */
  function Frame(ms: MasterState, lastUpdate: real, now: real): (r: (MasterState, real))
    ensures now - lastUpdate >= UpdateInterval ==> r == (Tick(ms), now)
    ensures now - lastUpdate < UpdateInterval ==> r == (ms, lastUpdate)
  {
    if now - lastUpdate >= UpdateInterval then (Tick(ms), now) else (ms, lastUpdate)
  }

  /** `n` consecutive decay steps. */
  function TickN(ms: MasterState, n: nat): MasterState
  {
    if n == 0 then ms else Tick(TickN(ms, n - 1))
  }

  /** `x` to the `n`th power. */
  function Power(x: real, n: nat): real
  {
    if n == 0 then 1.0 else Power(x, n - 1) * x
  }

  /** Over `n` steps each transient scalar is scaled by its decay rate to
      the `n`th power: 0.95 for the mouse, 0.92 for clicks, 0.96 for
      scrolling. */
  lemma {:induction false} DecayClosedForm(ms: MasterState, n: nat)
    ensures TickN(ms, n).mouseIntensity == ms.mouseIntensity * Power(0.95, n)
    ensures TickN(ms, n).clickPulse == ms.clickPulse * Power(0.92, n)
    ensures TickN(ms, n).scrollChaos == ms.scrollChaos * Power(0.96, n)
  {
    if n > 0 {
      DecayClosedForm(ms, n - 1);
      var p := TickN(ms, n - 1);
      assert TickN(ms, n) == Tick(p);
      MulAssoc(ms.mouseIntensity, Power(0.95, n - 1), 0.95);
      MulAssoc(ms.clickPulse, Power(0.92, n - 1), 0.92);
      MulAssoc(ms.scrollChaos, Power(0.96, n - 1), 0.96);
    }
  }

  lemma MulAssoc(a: real, b: real, c: real)
    ensures (a * b) * c == a * (b * c)
  {
  }

  predicate ScalarsInUnit(ms: MasterState)
  {
    && 0.0 <= ms.mouseIntensity <= 1.0
    && 0.0 <= ms.clickPulse <= 1.0
    && 0.0 <= ms.scrollChaos <= 1.0
  }

  /** Without new interactions the transient scalars stay in [0, 1] and never
      increase, however many steps run. */
  lemma {:induction false} DecayNeverIncreases(ms: MasterState, n: nat)
    requires ScalarsInUnit(ms)
    ensures ScalarsInUnit(TickN(ms, n))
    ensures TickN(ms, n).mouseIntensity <= ms.mouseIntensity
    ensures TickN(ms, n).clickPulse <= ms.clickPulse
    ensures TickN(ms, n).scrollChaos <= ms.scrollChaos
  {
    if n > 0 {
      DecayNeverIncreases(ms, n - 1);
    }
  }

  /** The dials a decay step leaves alone stay put over any number of steps. */
  lemma {:induction false} TicksKeepSection(ms: MasterState, n: nat)
    ensures TickN(ms, n).activeSection == ms.activeSection
    ensures TickN(ms, n).editorOverrides == ms.editorOverrides
    ensures TickN(ms, n).dimension == ms.dimension
  {
    if n > 0 {
      TicksKeepSection(ms, n - 1);
    }
  }

  /** After a section transition the progress climbs by 0.02 per step and
      reaches exactly 1 after 50 steps. */
  lemma {:induction false} TransitionProgressClimbs(ms: MasterState, n: nat)
    requires ms.transitionProgress == 0.0
    requires n <= 50
    ensures TickN(ms, n).transitionProgress == 0.02 * (n as real)
  {
    if n > 0 {
      TransitionProgressClimbs(ms, n - 1);
    }
  }

  lemma TransitionCompletesIn50Steps(ms: MasterState)
    requires ms.transitionProgress == 0.0
    ensures TickN(ms, 50).transitionProgress == 1.0
  {
    TransitionProgressClimbs(ms, 50);
  }

  /** Once at or above the 0.3 baseline, intensity never drops below it under
      decay steps alone. */
  lemma {:induction false} IntensityFloorHolds(ms: MasterState, n: nat)
    requires ms.intensity >= 0.3
    ensures TickN(ms, n).intensity >= 0.3
  {
    if n > 0 {
      IntensityFloorHolds(ms, n - 1);
    }
  }

  // ---------------------------------------------------------------------------
  // Interaction effects (registerInteraction / applyEffect) and timed reverts
  // ---------------------------------------------------------------------------

  /** The dial operation as the source writes it: a missing value counts as 0
      for 'add' and 1 for 'multiply' through `||`, so a dial that holds 0 is
      multiplied as if it held 1. None for an unknown operation. */
  function ApplyOperationAsWritten(cur: real, op: string, v: real): (r: Option<real>)
    ensures op != "set" && op != "add" && op != "multiply" <==> r.None?
    ensures op == "set" ==> r == Some(v)
    ensures op == "add" ==> r == Some(cur + v)
    ensures op == "multiply" && cur != 0.0 ==> r == Some(cur * v)
    ensures op == "multiply" && cur == 0.0 ==> r == Some(v)
  {
    if op == "set" then Some(v)
    else if op == "add" then Some(Or(Some(cur), 0.0) + v)
    else if op == "multiply" then Some(MultiplyAsWritten(cur, v))
    else None
  }

  /** `(current || 1) * value`: a dial holding 0 reads as 1. */
  function MultiplyAsWritten(cur: real, v: real): (r: real)
    ensures cur != 0.0 ==> r == cur * v
    ensures cur == 0.0 ==> r == v
  {
    Or(Some(cur), 1.0) * v
  }

  /** The timed revert as the source writes it: 'add' subtracts the applied
      value back, 'multiply' divides it back out, and 'set' restores the
      remembered baseline. */
  function RevertOperation(cur: real, rv: Revert): (r: real)
    requires rv.operation == "multiply" ==> rv.value != 0.0
    ensures rv.operation == "add" ==> r + rv.value == cur
    ensures rv.operation == "multiply" ==> r * rv.value == cur
    ensures rv.operation != "add" && rv.operation != "multiply" ==> r == rv.original
  {
    if rv.operation == "add" then cur - rv.value
    else if rv.operation == "multiply" then cur / rv.value
    else rv.original
  }

  /** As written, an 'add' followed by its revert always gives the dial back;
      a 'multiply' by a non-zero value does so exactly when the dial did not
      hold 0, because `(0 || 1) * v` divided by `v` is 1. */
  lemma RevertUndoesOperation(cur: real, op: string, v: real, baseline: real)
    requires op == "add" || (op == "multiply" && v != 0.0)
    ensures ApplyOperationAsWritten(cur, op, v).Some?
    ensures op == "add" ==>
      RevertOperation(ApplyOperationAsWritten(cur, op, v).value, Revert(op, v, baseline, cur)) == cur
    ensures op == "multiply" ==>
      (RevertOperation(ApplyOperationAsWritten(cur, op, v).value, Revert(op, v, baseline, cur)) == cur <==> cur != 0.0)
  {
    if op == "multiply" {
      var rv := Revert(op, v, baseline, cur);
      if cur == 0.0 {
        assert RevertOperation(v, rv) * v == v;
        assert RevertOperation(v, rv) == 1.0;
      } else {
        assert RevertOperation(cur * v, rv) * v == cur * v;
      }
    }
  }

  /** As written, a 'multiply' effect on a dial holding 0 followed by its
      revert leaves the dial at 1 instead of 0. */
  lemma MultiplyRevertAsWrittenLeavesOne()
    ensures ApplyOperationAsWritten(0.0, "multiply", 2.0) == Some(2.0)
    ensures RevertOperation(2.0, Revert("multiply", 2.0, 0.0, 0.0)) == 1.0
  {
  }

  /** The value a 'set' effect reverts to: the editor override (or the
      built-in baseline) for intensity and complexity, 0 for anything else. */
  function RevertBaseline(ms: MasterState, param: string): (r: real)
    ensures param == "intensity" ==> r == Or(Get(ms.editorOverrides, "intensity"), 0.8)
    ensures param == "complexity" ==> r == Or(Get(ms.editorOverrides, "complexity"), 0.5)
    ensures param != "intensity" && param != "complexity" ==> r == 0.0
  {
    if param == "intensity" then Or(Get(ms.editorOverrides, "intensity"), 0.8)
    else if param == "complexity" then Or(Get(ms.editorOverrides, "complexity"), 0.5)
    else 0.0
  }

  /** A duration is truthy when it is present and not 0. */
  predicate HasDuration(sc: StateChange)
  {
    sc.duration.Some? && sc.duration.value != 0.0
  }

  /** The value an effect applies: the interaction intensity or its fixed value. */
  function EffectValue(sc: StateChange, intensity: real): real
  {
    if sc.valueFromIntensity then intensity else sc.value
  }

  /** Applies one configured effect: nothing happens unless the effect is
      enabled, describes a state change, targets an existing dial and names a
      known operation; the operation is the source's, so a 'multiply' on a
      dial holding 0 stores the value itself. A truthy duration (re)arms the
      revert timer for that dial. */
  function ApplyEffect(ms: MasterState, e: Effect, intensity: real): (r: MasterState)
    ensures !e.enabled || e.affectsState.None? ==> r == ms
    ensures e.enabled && e.affectsState.Some? ==>
      var sc := e.affectsState.value;
      var v := EffectValue(sc, intensity);
      var cur := GetDial(ms, sc.parameter);
      && (cur.None? ==> r == ms)
      && (cur.Some? && ApplyOperationAsWritten(cur.value, sc.operation, v).None? ==> r == ms)
      && (cur.Some? && ApplyOperationAsWritten(cur.value, sc.operation, v).Some? ==>
            && GetDial(r, sc.parameter) == ApplyOperationAsWritten(cur.value, sc.operation, v)
            && (forall n :: n != sc.parameter ==> GetDial(r, n) == GetDial(ms, n))
            && r.editorOverrides == ms.editorOverrides
            && r.activeSection == ms.activeSection
            && (HasDuration(sc) ==>
                  r.timers == ms.timers[sc.parameter := Revert(sc.operation, v, RevertBaseline(ms, sc.parameter), cur.value)])
            && (!HasDuration(sc) ==> r.timers == ms.timers))
  {
    if !e.enabled || e.affectsState.None? then ms
    else
      var sc := e.affectsState.value;
      var v := EffectValue(sc, intensity);
      var cur := GetDial(ms, sc.parameter);
      if cur.None? then ms
      else
        var nv := ApplyOperationAsWritten(cur.value, sc.operation, v);
        if nv.None? then ms
        else
          var ms1 := SetDial(ms, sc.parameter, nv.value);
          if HasDuration(sc)
          then ms1.(timers := ms1.timers[sc.parameter := Revert(sc.operation, v, RevertBaseline(ms1, sc.parameter), cur.value)])
          else ms1
  }

  /** A pending revert may be fired: a 'multiply' revert divides, so its
      value must not be 0. */
  predicate RevertFirable(ms: MasterState, param: string)
  {
    param in ms.timers && (ms.timers[param].operation == "multiply" ==> ms.timers[param].value != 0.0)
  }

  /** The revert timer of one dial fires: the dial is reverted and the timer
      entry removed. A dial without a pending timer is left alone. */
  function FireRevert(ms: MasterState, param: string): (r: MasterState)
    requires param in ms.timers ==> RevertFirable(ms, param)
    ensures param !in ms.timers ==> r == ms
    ensures param in ms.timers ==> param !in r.timers && r.timers == ms.timers - {param}
    ensures param in ms.timers && GetDial(ms, param).Some? ==>
      GetDial(r, param) == Some(RevertOperation(GetDial(ms, param).value, ms.timers[param]))
    ensures forall n :: n != param ==> GetDial(r, n) == GetDial(ms, n)
  {
    if param !in ms.timers then ms
    else
      var rv := ms.timers[param];
      var cur := GetDial(ms, param);
      var ms1 := if cur.Some? then SetDial(ms, param, RevertOperation(cur.value, rv)) else ms;
      ms1.(timers := ms1.timers - {param})
  }

  /** As written, an 'add' effect with a duration followed by its timer gives
      the dial back its value from before the effect; a 'multiply' by a
      non-zero value does so exactly when that value was not 0. */
  lemma EffectThenRevertAsWritten(ms: MasterState, e: Effect, intensity: real)
    requires e.enabled && e.affectsState.Some?
    requires var sc := e.affectsState.value;
      && HasDuration(sc) && GetDial(ms, sc.parameter).Some?
      && (sc.operation == "add" || (sc.operation == "multiply" && EffectValue(sc, intensity) != 0.0))
    ensures var sc := e.affectsState.value;
      var r := ApplyEffect(ms, e, intensity);
      && RevertFirable(r, sc.parameter)
      && (GetDial(FireRevert(r, sc.parameter), sc.parameter) == GetDial(ms, sc.parameter)
          <==> sc.operation == "add" || GetDial(ms, sc.parameter).value != 0.0)
  {
    var sc := e.affectsState.value;
    RevertUndoesOperation(GetDial(ms, sc.parameter).value, sc.operation, EffectValue(sc, intensity),
                          RevertBaseline(ms, sc.parameter));
  }

  /** A timed multiply by 2 of the initial 'isPortalling' dial (0): as written,
      the effect stores 2 and the revert leaves 1. */
  lemma PortallingRevertAsWrittenLeavesOne()
    ensures var e := Effect(true, Some(StateChange("isPortalling", false, 2.0, "multiply", Some(500.0))), None);
      var r := ApplyEffect(Initial, e, 0.0);
      && r.isPortalling == 2.0
      && FireRevert(r, "isPortalling").isPortalling == 1.0
  {
    var e := Effect(true, Some(StateChange("isPortalling", false, 2.0, "multiply", Some(500.0))), None);
    var r := ApplyEffect(Initial, e, 0.0);
    assert GetDial(r, "isPortalling") == Some(2.0);
    assert r.timers["isPortalling"] == Revert("multiply", 2.0, 0.0, 0.0);
    assert GetDial(FireRevert(r, "isPortalling"), "isPortalling") == Some(1.0);
  }

  /** The revert as intended: an 'add' or 'multiply' timer puts back the
      value the dial held before the effect, with no division involved, and
      a 'set' timer restores the baseline as the source does. */
  function RestoreValue(rv: Revert): (r: real)
    ensures rv.operation == "add" || rv.operation == "multiply" ==> r == rv.before
    ensures rv.operation != "add" && rv.operation != "multiply" ==> r == rv.original
  {
    if rv.operation == "add" || rv.operation == "multiply" then rv.before else rv.original
  }

  /** The corrected timer: the dial takes its restore value and the timer
      entry is removed. A dial without a pending timer is left alone. */
  function FireRestore(ms: MasterState, param: string): (r: MasterState)
    ensures param !in ms.timers ==> r == ms
    ensures param in ms.timers ==> r.timers == ms.timers - {param}
    ensures param in ms.timers && GetDial(ms, param).Some? ==>
      GetDial(r, param) == Some(RestoreValue(ms.timers[param]))
    ensures forall n :: n != param ==> GetDial(r, n) == GetDial(ms, n)
  {
    if param !in ms.timers then ms
    else
      var rv := ms.timers[param];
      var ms1 := if GetDial(ms, param).Some? then SetDial(ms, param, RestoreValue(rv)) else ms;
      ms1.(timers := ms1.timers - {param})
  }

  /** With the corrected timer, an 'add' or 'multiply' effect with a duration
      followed by its timer gives the dial back its value from before the
      effect, for every operand, a dial holding 0 and a zero multiplier
      included; every other dial keeps the value the effect left. */
  lemma EffectThenRestoreRestores(ms: MasterState, e: Effect, intensity: real)
    requires e.enabled && e.affectsState.Some?
    requires var sc := e.affectsState.value;
      && HasDuration(sc) && GetDial(ms, sc.parameter).Some?
      && (sc.operation == "add" || sc.operation == "multiply")
    ensures var sc := e.affectsState.value;
      var r := ApplyEffect(ms, e, intensity);
      && GetDial(FireRestore(r, sc.parameter), sc.parameter) == GetDial(ms, sc.parameter)
      && (forall n :: n != sc.parameter ==> GetDial(FireRestore(r, sc.parameter), n) == GetDial(ms, n))
  {
    var sc := e.affectsState.value;
    var r := ApplyEffect(ms, e, intensity);
    var cur := GetDial(ms, sc.parameter).value;
    assert sc.parameter in r.timers;
    assert r.timers[sc.parameter].before == cur;
    assert GetDial(r, sc.parameter).Some?;
  }

  /** An effect and, when present, its secondary effect, in that order. */
  function ApplyEffectPair(ms: MasterState, e: Effect, intensity: real): (r: MasterState)
    ensures !e.enabled ==> r == ms
  {
    var ms1 := ApplyEffect(ms, e, intensity);
    if e.secondaryEffect.Some? && e.enabled then ApplyEffect(ms1, e.secondaryEffect.value, intensity) else ms1
  }

  /** Routes an interaction to its configured response. Without a loaded
      config, or for an unhandled interaction type, nothing changes. */
  function RegisterInteraction(ms: MasterState, cfg: Option<EditorConfig>, kind: string, intensity: real): (r: MasterState)
    ensures cfg.None? || cfg.value.interactionPresets.None? ==> r == ms
    ensures kind !in {"cubeRotation", "tensionBuild", "cubeTension", "portalTransitionEffect", "hover", "contentGravity"} ==> r == ms
    ensures kind == "cubeRotation" || kind == "hover" ==> r.mouseIntensity <= 1.0 || r == ms
    ensures kind == "cubeRotation" || kind == "hover" ==> r == ms.(mouseIntensity := r.mouseIntensity)
    ensures kind == "contentGravity" ==> r == ms.(editorOverrides := r.editorOverrides)
    ensures kind == "contentGravity" && r != ms ==> Get(r.editorOverrides, "contentGravity").Some?
    ensures cfg.Some? && cfg.value.interactionPresets.Some? ==>
      var p := cfg.value.interactionPresets.value;
      && (kind == "cubeRotation" ==>
            if p.cubeNavigation.Some? && p.cubeNavigation.value.enabled
            then r.mouseIntensity == Min(1.0, intensity * Or(p.cubeNavigation.value.amount, 0.02))
            else r == ms)
      && (kind == "hover" ==>
            if p.hoverEffects.Some? && p.hoverEffects.value.enabled
            then r.mouseIntensity == Min(1.0, intensity * Or(p.hoverEffects.value.amount, 0.6))
            else r == ms)
      && (kind == "contentGravity" ==>
            if p.contentGravity.Some? && p.contentGravity.value.enabled
            then r.editorOverrides == ms.editorOverrides["contentGravity" := Or(p.contentGravity.value.amount, 0.3)]
            else r == ms)
      && (kind == "tensionBuild" ==>
            r == (if p.tensionBuild.Some? then ApplyEffectPair(ms, p.tensionBuild.value, intensity) else ms))
      && (kind == "cubeTension" ==>
            r == (if p.cubeTension.Some? then ApplyEffectPair(ms, p.cubeTension.value, intensity) else ms))
      && (kind == "portalTransitionEffect" ==>
            r == (if p.portalTransitionEffect.Some? then ApplyEffectPair(ms, p.portalTransitionEffect.value, intensity) else ms))
  {
    if cfg.None? || cfg.value.interactionPresets.None? then ms
    else
      var p := cfg.value.interactionPresets.value;
      if kind == "cubeRotation" then
        if p.cubeNavigation.Some? && p.cubeNavigation.value.enabled
        then UpdateInteraction(ms, MouseInput(intensity * Or(p.cubeNavigation.value.amount, 0.02)))
        else ms
      else if kind == "tensionBuild" then
        if p.tensionBuild.Some? then ApplyEffectPair(ms, p.tensionBuild.value, intensity) else ms
      else if kind == "cubeTension" then
        if p.cubeTension.Some? then ApplyEffectPair(ms, p.cubeTension.value, intensity) else ms
      else if kind == "portalTransitionEffect" then
        if p.portalTransitionEffect.Some? then ApplyEffectPair(ms, p.portalTransitionEffect.value, intensity) else ms
      else if kind == "hover" then
        if p.hoverEffects.Some? && p.hoverEffects.value.enabled
        then UpdateInteraction(ms, MouseInput(intensity * Or(p.hoverEffects.value.amount, 0.6)))
        else ms
      else if kind == "contentGravity" then
        if p.contentGravity.Some? && p.contentGravity.value.enabled
        then ms.(editorOverrides := ms.editorOverrides["contentGravity" := Or(p.contentGravity.value.amount, 0.3)])
        else ms
      else ms
  }

  // ---------------------------------------------------------------------------
  // Editor updates and manual overrides
  // ---------------------------------------------------------------------------

  /** A dashboard control changes a dial and records the raw control value as
      an editor override; grid complexity is normalised by 3 for the dial but
      stored raw. */
  function UpdateFromEditor(ms: MasterState, parameter: string, value: real): (r: MasterState)
    ensures parameter == "visualIntensity" ==>
      r.intensity == value && r.editorOverrides == ms.editorOverrides["intensity" := value]
    ensures parameter == "animationSpeed" ==>
      r.speed == value && r.editorOverrides == ms.editorOverrides["speed" := value]
    ensures parameter == "gridComplexity" ==>
      r.density * 3.0 == value && r.editorOverrides == ms.editorOverrides["density" := value]
    ensures parameter == "colorVibrancy" ==>
      r == ms.(editorOverrides := ms.editorOverrides["colorVibrancy" := value])
    ensures parameter !in {"visualIntensity", "animationSpeed", "gridComplexity", "colorVibrancy"} ==> r == ms
    ensures r == ms.(intensity := r.intensity, speed := r.speed, density := r.density, editorOverrides := r.editorOverrides)
  {
    if parameter == "visualIntensity" then
      ms.(intensity := value, editorOverrides := ms.editorOverrides["intensity" := value])
    else if parameter == "animationSpeed" then
      ms.(speed := value, editorOverrides := ms.editorOverrides["speed" := value])
    else if parameter == "gridComplexity" then
      ms.(density := value / 3.0, editorOverrides := ms.editorOverrides["density" := value])
    else if parameter == "colorVibrancy" then
      ms.(editorOverrides := ms.editorOverrides["colorVibrancy" := value])
    else ms
  }

  /** The last value written for a key among `entries`, if any. */
  function LastWritten(entries: seq<(string, real)>, k: string): Option<real>
    decreases |entries|
  {
    if |entries| == 0 then None
    else if entries[|entries| - 1].0 == k then Some(entries[|entries| - 1].1)
    else LastWritten(entries[..|entries| - 1], k)
  }

  /** The map an `Object.assign` of these entries produces, one entry at a
      time in order. */
  function AssignAll(m: map<string, real>, entries: seq<(string, real)>): (r: map<string, real>)
    ensures m.Keys <= r.Keys
    ensures forall i :: 0 <= i < |entries| ==> entries[i].0 in r
    decreases |entries|
  {
    if |entries| == 0 then m
    else
      var front := entries[..|entries| - 1];
      var last := entries[|entries| - 1];
      var r0 := AssignAll(m, front);
      assert forall i :: 0 <= i < |front| ==> front[i] == entries[i];
      r0[last.0 := last.1]
  }

  /** Every entry written into the dials, one at a time in order. */
  function SetDials(ms: MasterState, entries: seq<(string, real)>): (r: MasterState)
    ensures r.activeSection == ms.activeSection && r.timers == ms.timers
    ensures r.editorOverrides == ms.editorOverrides
    decreases |entries|
  {
    if |entries| == 0 then ms
    else
      var last := entries[|entries| - 1];
      SetDial(SetDials(ms, entries[..|entries| - 1]), last.0, last.1)
  }

  /** `overrideParameters`: every entry is written both into the master
      dials and into the editor overrides, later entries winning. */
  function OverrideParameters(ms: MasterState, entries: seq<(string, real)>): (r: MasterState)
    ensures r.activeSection == ms.activeSection && r.timers == ms.timers
    ensures forall i :: 0 <= i < |entries| ==> entries[i].0 in r.editorOverrides
  {
    SetDials(ms, entries).(editorOverrides := AssignAll(ms.editorOverrides, entries))
  }

  /** The dials are read without looking at the editor overrides. */
  lemma GetDialIgnoresOverrides(ms: MasterState, eo: map<string, real>, n: string)
    ensures GetDial(ms.(editorOverrides := eo), n) == GetDial(ms, n)
  {
  }

  /** After `overrideParameters`, an overridden key reads back the last value
      written for it, both as a dial and as an editor override; every other
      key reads what it read before. */
  lemma {:induction false} OverrideReadsBack(ms: MasterState, entries: seq<(string, real)>, k: string)
    ensures LastWritten(entries, k).Some? ==>
      && GetDial(OverrideParameters(ms, entries), k) == LastWritten(entries, k)
      && Get(OverrideParameters(ms, entries).editorOverrides, k) == LastWritten(entries, k)
    ensures LastWritten(entries, k).None? ==>
      && GetDial(OverrideParameters(ms, entries), k) == GetDial(ms, k)
      && Get(OverrideParameters(ms, entries).editorOverrides, k) == Get(ms.editorOverrides, k)
  {
    DialsReadBack(ms, entries, k);
    AssignReadsBack(ms.editorOverrides, entries, k);
    GetDialIgnoresOverrides(SetDials(ms, entries), AssignAll(ms.editorOverrides, entries), k);
  }

  lemma {:induction false} DialsReadBack(ms: MasterState, entries: seq<(string, real)>, k: string)
    ensures LastWritten(entries, k).Some? ==> GetDial(SetDials(ms, entries), k) == LastWritten(entries, k)
    ensures LastWritten(entries, k).None? ==> GetDial(SetDials(ms, entries), k) == GetDial(ms, k)
    decreases |entries|
  {
    if |entries| > 0 {
      DialsReadBack(ms, entries[..|entries| - 1], k);
    }
  }

  lemma {:induction false} AssignReadsBack(m: map<string, real>, entries: seq<(string, real)>, k: string)
    ensures LastWritten(entries, k).Some? ==> Get(AssignAll(m, entries), k) == LastWritten(entries, k)
    ensures LastWritten(entries, k).None? ==> Get(AssignAll(m, entries), k) == Get(m, k)
    decreases |entries|
  {
    if |entries| > 0 {
      AssignReadsBack(m, entries[..|entries| - 1], k);
    }
  }
}

=== FILE: progressive.dfy ===
/** The progressive enhancement controller: a small state machine over the
    visualizer count, an index into the quality steps, a user-interaction
    score and a short frame-rate history. At every evaluation it degrades
    when the frame rate is poor and enhances, by adding visualizers or
    raising the quality step, when it is good.

    `Math.random()` and `Date.now()` become parameters; creating, removing
    and re-qualifying the visualizers themselves is a placeholder in the
    source and is not modelled. */
module Progressive {
  import opened Common

  /** The options as given by the caller; None is an absent key. */
  datatype OptionsInput = OptionsInput(
    initialVisualizerCount: Option<int>,
    maxVisualizerCount: Option<int>,
    performanceThreshold: Option<real>,
    qualitySteps: Option<seq<real>>,
    enhancementInterval: Option<int>,
    degradationThreshold: Option<real>)

  datatype Options = Options(
    initialVisualizerCount: int,
    maxVisualizerCount: int,
    performanceThreshold: real,
    qualitySteps: seq<real>,
    enhancementInterval: int,
    degradationThreshold: real)

  const DefaultQualitySteps: seq<real> := [0.1, 0.3, 0.5, 0.8, 1.0]

  /** The constructor's option object: each default is written as
      `options.x || d`, but `...options` is spread after the defaults, so a
      key the caller gave wins even when it is falsy; only an absent key takes
      the default. */
  function MakeOptions(o: OptionsInput): (r: Options)
    ensures o.maxVisualizerCount == Some(0) ==> r.maxVisualizerCount == 0
    ensures o.maxVisualizerCount.None? ==> r.maxVisualizerCount == 33
    ensures o.qualitySteps.None? ==> r.qualitySteps == DefaultQualitySteps
    ensures o.performanceThreshold.None? ==> r.performanceThreshold == 45.0
    ensures o.degradationThreshold.None? ==> r.degradationThreshold == 30.0
  {
    Options(
      OrDefault(o.initialVisualizerCount, 4),
      OrDefault(o.maxVisualizerCount, 33),
      OrDefault(o.performanceThreshold, 45.0),
      OrDefault(o.qualitySteps, DefaultQualitySteps),
      OrDefault(o.enhancementInterval, 3000),
      OrDefault(o.degradationThreshold, 30.0))
  }

  const DefaultOptions := MakeOptions(OptionsInput(None, None, None, None, None, None))

  /** One performance sample. */
  datatype Perf = Perf(fps: real, memoryUsage: real, visualizerCount: int, timestamp: int)

  datatype Enhancer = Enhancer(
    opts: Options,
    count: int,            // currentVisualizerCount
    quality: int,          // currentQualityLevel, an index into qualitySteps
    isEnhancing: bool,
    history: seq<Perf>,
    score: real,           // userInteractionScore
    lastInteraction: int)

  const HistoryLimit: nat := 10
  const InteractionWindow: int := 10000

  function Initial(opts: Options, now: int): Enhancer
  {
    Enhancer(opts, 0, 0, false, [], 0.0, now)
  }

  /** The highest quality index. */
  function TopQuality(e: Enhancer): int
  {
    |e.opts.qualitySteps| - 1
  }

  /** The bounds every reachable state keeps: a non-negative count and a
      quality index inside the steps (or 0 when there are none). */
  predicate Valid(e: Enhancer)
  {
    && e.count >= 0
    && 0 <= e.quality
    && (e.quality == 0 || e.quality <= TopQuality(e))
    && e.score >= 0.0
    && |e.history| <= HistoryLimit
    && e.opts.initialVisualizerCount >= 0
  }

  /** `recordPerformance`: append, keeping the ten most recent samples. */
  function RecordPerformance(e: Enhancer, p: Perf): (r: Enhancer)
    ensures |e.history| <= HistoryLimit ==> |r.history| <= HistoryLimit
    ensures |r.history| > 0 && r.history[|r.history| - 1] == p
    ensures |e.history| < HistoryLimit ==> r.history == e.history + [p]
    ensures |e.history| >= HistoryLimit ==> r.history == (e.history + [p])[1..]
    ensures r.(history := e.history) == e
  {
    e.(history := PushBounded(e.history, p, HistoryLimit))
  }

  /** Mean frame rate of the last three samples. */
  function RecentMean(h: seq<Perf>): real
    requires |h| >= 3
  {
    (h[|h| - 3].fps + h[|h| - 2].fps + h[|h| - 1].fps) / 3.0
  }

  /** `shouldDegrade`: the frame rate is below the degradation threshold, or
      the mean of the last three samples is below the performance
      threshold. */
  function ShouldDegrade(e: Enhancer, p: Perf): bool
  {
    p.fps < e.opts.degradationThreshold ||
    (|e.history| >= 3 && RecentMean(e.history) < e.opts.performanceThreshold)
  }

  /** Three consecutive poor samples force a degradation; a sample above the
      degradation threshold after three good samples does not. */
  lemma DegradeDecision(e: Enhancer, p: Perf)
    ensures |e.history| >= 3 &&
            (forall i :: |e.history| - 3 <= i < |e.history| ==> e.history[i].fps < e.opts.performanceThreshold)
            ==> ShouldDegrade(e, p)
    ensures p.fps >= e.opts.degradationThreshold &&
            (forall i :: |e.history| - 3 <= i < |e.history| && 0 <= i ==> e.history[i].fps >= e.opts.performanceThreshold)
            ==> !ShouldDegrade(e, p)
    ensures p.fps < e.opts.degradationThreshold ==> ShouldDegrade(e, p)
  {
    if |e.history| >= 3 {
      var n := |e.history|;
      assert n - 3 <= n - 3 < n && n - 3 <= n - 2 < n && n - 3 <= n - 1 < n;
    }
  }

  /** Both caps reached: nothing more to add or improve. */
  predicate AtMaximum(e: Enhancer)
  {
    e.count >= e.opts.maxVisualizerCount && e.quality >= TopQuality(e)
  }

  /** `shouldEnhance`. */
  function ShouldEnhance(e: Enhancer, p: Perf, now: int): bool
  {
    if AtMaximum(e) then false
    else if p.fps > e.opts.performanceThreshold + 10.0 then true
    else if now - e.lastInteraction < InteractionWindow && e.score > 5.0 then p.fps > e.opts.performanceThreshold
    else false
  }

  /** Enhancement is never chosen at the caps or at or below the performance
      threshold; above the threshold by more than ten frames it always is
      (below the caps); in between it needs a recent, lively interaction. */
  lemma EnhanceDecision(e: Enhancer, p: Perf, now: int)
    ensures AtMaximum(e) ==> !ShouldEnhance(e, p, now)
    ensures p.fps <= e.opts.performanceThreshold ==> !ShouldEnhance(e, p, now)
    ensures !AtMaximum(e) && p.fps > e.opts.performanceThreshold + 10.0 ==> ShouldEnhance(e, p, now)
    ensures ShouldEnhance(e, p, now) && p.fps <= e.opts.performanceThreshold + 10.0 ==>
              now - e.lastInteraction < InteractionWindow && e.score > 5.0
  {
  }

  datatype Strategy = AddVisualizers | ImproveQuality | Both | NoStrategy

  predicate CanAdd(e: Enhancer) { e.count < e.opts.maxVisualizerCount }
  predicate CanImprove(e: Enhancer) { e.quality < TopQuality(e) }

  /** `determineEnhancementStrategy`. */
  function DetermineStrategy(e: Enhancer): (r: Strategy)
    ensures r == NoStrategy <==> !CanAdd(e) && !CanImprove(e)
    ensures r == Both <==> CanAdd(e) && CanImprove(e) && e.score > 8.0
    ensures r == AddVisualizers ==> CanAdd(e)
    ensures r == ImproveQuality ==> CanImprove(e)
    ensures CanAdd(e) && !CanImprove(e) ==> r == AddVisualizers
    ensures !CanAdd(e) && CanImprove(e) ==> r == ImproveQuality
    ensures CanAdd(e) && CanImprove(e) && e.score <= 8.0 ==> (r == AddVisualizers <==> e.count < 8)
  {
    if CanAdd(e) && CanImprove(e) then
      if e.score > 8.0 then Both
      else if e.count < 8 then AddVisualizers
      else ImproveQuality
    else if CanAdd(e) then AddVisualizers
    else if CanImprove(e) then ImproveQuality
    else NoStrategy
  }

  /** `calculateVisualizerIncrement`, at the frame rate read when it runs. */
  function VisualizerIncrement(e: Enhancer, fps: real): (r: int)
    ensures r <= 4
    ensures fps <= 50.0 ==> r == 1
    ensures fps > 50.0 ==> r <= e.opts.maxVisualizerCount - e.count
    ensures fps > 50.0 && CanAdd(e) ==> r >= 1
    ensures fps > 55.0 ==> r == MinInt(4, e.opts.maxVisualizerCount - e.count)
    ensures 50.0 < fps <= 55.0 ==> r == MinInt(2, e.opts.maxVisualizerCount - e.count)
  {
    if fps > 55.0 then MinInt(4, e.opts.maxVisualizerCount - e.count)
    else if fps > 50.0 then MinInt(2, e.opts.maxVisualizerCount - e.count)
    else 1
  }

  /** `addVisualizers`: grow by the increment, capped at the maximum; never
      shrinks. */
  function AddVisualizersStep(e: Enhancer, fps: real): (r: Enhancer)
    ensures r.count >= e.count
    ensures r.count <= MaxInt(e.count, e.opts.maxVisualizerCount)
    ensures r.count - e.count <= 4
    ensures CanAdd(e) && fps <= 50.0 ==> r.count == e.count + 1
    ensures CanAdd(e) && fps > 55.0 ==> r.count == MinInt(e.count + 4, e.opts.maxVisualizerCount)
    ensures CanAdd(e) && 50.0 < fps <= 55.0 ==> r.count == MinInt(e.count + 2, e.opts.maxVisualizerCount)
    ensures CanAdd(e) ==> r.count == MinInt(e.count + VisualizerIncrement(e, fps), e.opts.maxVisualizerCount)
    ensures !CanAdd(e) ==> r == e
    ensures CanAdd(e) ==> r.count > e.count
    ensures r.(count := e.count) == e
  {
    var newCount := MinInt(e.count + VisualizerIncrement(e, fps), e.opts.maxVisualizerCount);
    if newCount > e.count then e.(count := newCount) else e
  }

  /** JavaScript `Math.ceil`. */
  function Ceil(x: real): (r: int)
    ensures x <= r as real < x + 1.0
  {
    -((-x).Floor)
  }

  /** `removeVisualizers`: drop a quarter (rounded up), keeping at least one. */
  function RemoveVisualizersStep(e: Enhancer): (r: Enhancer)
    ensures r.count >= 1
    ensures e.count > 1 ==> r.count < e.count
    ensures e.count >= 1 ==> e.count - r.count <= Ceil(e.count as real * 0.25)
    ensures e.count - Ceil(e.count as real * 0.25) >= 1 ==> r.count == e.count - Ceil(e.count as real * 0.25)
    ensures r.(count := e.count) == e
  {
    e.(count := MaxInt(1, e.count - Ceil(e.count as real * 0.25)))
  }

  /** `improveQuality`: one step up, if there is one. */
  function ImproveQualityStep(e: Enhancer): (r: Enhancer)
    ensures CanImprove(e) ==> r.quality == e.quality + 1
    ensures !CanImprove(e) ==> r == e
    ensures r.(quality := e.quality) == e
  {
    if CanImprove(e) then e.(quality := e.quality + 1) else e
  }

  /** `reduceQuality`: one step down, if there is one. */
  function ReduceQualityStep(e: Enhancer): (r: Enhancer)
    ensures e.quality > 0 ==> r.quality == e.quality - 1
    ensures e.quality <= 0 ==> r == e
    ensures r.(quality := e.quality) == e
  {
    if e.quality > 0 then e.(quality := e.quality - 1) else e
  }

  /** `enhance`. `coin` is `Math.random() > 0.5`, which picks between adding
      and improving when both are chosen; `fps` is the frame rate read by the
      increment. The flag is cleared on the way out. */
  function Enhance(e: Enhancer, fps: real, coin: bool): (r: Enhancer)
    ensures r.count >= e.count && r.quality >= e.quality
    ensures r.count > e.count || r.quality > e.quality <==> CanAdd(e) || CanImprove(e)
    ensures !(r.count > e.count && r.quality > e.quality)
    ensures !r.isEnhancing
    ensures DetermineStrategy(e) == AddVisualizers || (DetermineStrategy(e) == Both && coin) ==>
              r.quality == e.quality && r.count > e.count &&
              r == AddVisualizersStep(e, fps).(isEnhancing := false)
    ensures DetermineStrategy(e) == ImproveQuality || (DetermineStrategy(e) == Both && !coin) ==>
              r.count == e.count && r.quality == e.quality + 1
    ensures DetermineStrategy(e) == NoStrategy ==> r == e.(isEnhancing := false)
    ensures r.(count := e.count, quality := e.quality, isEnhancing := e.isEnhancing) == e
  {
    var e1 := e.(isEnhancing := false);
    match DetermineStrategy(e)
    case AddVisualizers => AddVisualizersStep(e1, fps)
    case ImproveQuality => ImproveQualityStep(e1)
    case Both => if coin then AddVisualizersStep(e1, fps) else ImproveQualityStep(e1)
    case NoStrategy => e1
  }

  /** `degrade`: lower the quality first; only at the lowest quality remove
      visualizers, and only when there is more than one. */
  function Degrade(e: Enhancer): (r: Enhancer)
    ensures r.count <= e.count && r.quality <= e.quality
    ensures e.quality > 0 ==> r.quality == e.quality - 1 && r.count == e.count
    ensures e.quality <= 0 && e.count > 1 ==> r.quality == e.quality && 1 <= r.count < e.count
    ensures e.quality <= 0 && e.count <= 1 ==> r.count == e.count && r.quality == e.quality
    ensures !r.isEnhancing
  {
    var e1 := e.(isEnhancing := false);
    if e.quality > 0 then ReduceQualityStep(e1)
    else if e.count > 1 then RemoveVisualizersStep(e1)
    else e1
  }

  /** The decision `evaluateAndEnhance` takes once the sample `p` is
      recorded in `e1`: degrade if it should, else enhance if it may. */
  function Respond(e1: Enhancer, p: Perf, now: int, fps: real, coin: bool): (r: Enhancer)
    ensures r.history == e1.history
    ensures ShouldDegrade(e1, p) ==> r.count <= e1.count && r.quality <= e1.quality
    ensures ShouldDegrade(e1, p) && (e1.quality > 0 || e1.count > 1) ==>
              r.count < e1.count || r.quality < e1.quality
    ensures !ShouldDegrade(e1, p) ==> r.count >= e1.count && r.quality >= e1.quality
    ensures !ShouldDegrade(e1, p) && ShouldEnhance(e1, p, now) ==>
              (r.count > e1.count || r.quality > e1.quality <==> CanAdd(e1) || CanImprove(e1))
    ensures !ShouldDegrade(e1, p) && !ShouldEnhance(e1, p, now) ==> r == e1
  {
    if ShouldDegrade(e1, p) then Degrade(e1)
    else if ShouldEnhance(e1, p, now) then Enhance(e1, fps, coin)
    else e1
  }

  /** `evaluateAndEnhance`: skipped while an enhancement is running;
      otherwise the sample is recorded, then the controller degrades if it
      should and else enhances if it may. */
  function EvaluateAndEnhance(e: Enhancer, p: Perf, now: int, fps: real, coin: bool): (r: Enhancer)
    ensures e.isEnhancing ==> r == e
    ensures !e.isEnhancing ==> r.history == RecordPerformance(e, p).history
    ensures !e.isEnhancing && ShouldDegrade(RecordPerformance(e, p), p) ==>
              r.count <= e.count && r.quality <= e.quality
    ensures !e.isEnhancing && !ShouldDegrade(RecordPerformance(e, p), p) ==>
              r.count >= e.count && r.quality >= e.quality
    ensures !e.isEnhancing && ShouldDegrade(RecordPerformance(e, p), p) && (e.quality > 0 || e.count > 1) ==>
              r.count < e.count || r.quality < e.quality
    ensures !e.isEnhancing && !ShouldDegrade(RecordPerformance(e, p), p) && ShouldEnhance(RecordPerformance(e, p), p, now) ==>
              (r.count > e.count || r.quality > e.quality <==> CanAdd(e) || CanImprove(e))
    ensures !e.isEnhancing && !ShouldDegrade(RecordPerformance(e, p), p) && !ShouldEnhance(RecordPerformance(e, p), p, now) ==>
              r == RecordPerformance(e, p)
  {
    if e.isEnhancing then e
    else
      var e1 := RecordPerformance(e, p);
      assert e1.count == e.count && e1.quality == e.quality && e1.opts == e.opts;
      Respond(e1, p, now, fps, coin)
  }

  /** `recordUserInteraction`: add the score, then decay by ten percent,
      never below zero. */
  function RecordUserInteraction(e: Enhancer, s: real, now: int): (r: Enhancer)
    ensures r.score >= 0.0
    ensures e.score + s >= 0.0 ==> r.score == 0.9 * (e.score + s)
    ensures e.score + s < 0.0 ==> r.score == 0.0
    ensures e.score >= 0.0 && s <= 0.0 ==> r.score <= e.score
    ensures r.lastInteraction == now
    ensures r.(score := e.score, lastInteraction := e.lastInteraction) == e
  {
    e.(score := Max(0.0, (e.score + s) * (1.0 - 0.1)), lastInteraction := now)
  }

  /** `startMinimalConfiguration`. */
  function StartMinimal(e: Enhancer): (r: Enhancer)
    ensures r.count == e.opts.initialVisualizerCount && r.quality == 0
  {
    e.(count := e.opts.initialVisualizerCount, quality := 0)
  }

  /** `resetToMinimal`. */
  function ResetToMinimal(e: Enhancer): (r: Enhancer)
    ensures r.count == e.opts.initialVisualizerCount && r.quality == 0
    ensures r.score == 0.0 && r.history == []
  {
    StartMinimal(e.(score := 0.0, history := []))
  }

  /** The inputs the controller reacts to. */
  datatype Input =
    | Evaluate(p: Perf, now: int, fps: real, coin: bool)
    | Interaction(s: real, now: int)
    | ForceEnhance(fps: real, coin: bool)
    | ForceDegrade
    | Reset

  function Step(e: Enhancer, i: Input): Enhancer
  {
    match i
    case Evaluate(p, now, fps, coin) => EvaluateAndEnhance(e, p, now, fps, coin)
    case Interaction(s, now) => RecordUserInteraction(e, s, now)
    case ForceEnhance(fps, coin) => Enhance(e, fps, coin)
    case ForceDegrade => Degrade(e)
    case Reset => ResetToMinimal(e)
  }

  lemma EnhanceKeepsValid(e: Enhancer, fps: real, coin: bool)
    requires Valid(e)
    ensures Valid(Enhance(e, fps, coin))
  {
  }

  lemma DegradeKeepsValid(e: Enhancer)
    requires Valid(e)
    ensures Valid(Degrade(e))
  {
  }

  lemma EvaluateKeepsValid(e: Enhancer, p: Perf, now: int, fps: real, coin: bool)
    requires Valid(e)
    ensures Valid(EvaluateAndEnhance(e, p, now, fps, coin))
  {
    if !e.isEnhancing {
      var e1 := RecordPerformance(e, p);
      assert Valid(e1);
      EnhanceKeepsValid(e1, fps, coin);
      DegradeKeepsValid(e1);
    }
  }

  /** Every single input keeps the bounds. */
  lemma StepKeepsValid(e: Enhancer, i: Input)
    requires Valid(e)
    ensures Valid(Step(e, i))
  {
    match i
    case Evaluate(p, now, fps, coin) => EvaluateKeepsValid(e, p, now, fps, coin);
    case Interaction(s, now) =>
    case ForceEnhance(fps, coin) => EnhanceKeepsValid(e, fps, coin);
    case ForceDegrade => DegradeKeepsValid(e);
    case Reset =>
  }

  function Run(e: Enhancer, inputs: seq<Input>): Enhancer
    decreases |inputs|
  {
    if |inputs| == 0 then e else Run(Step(e, inputs[0]), inputs[1..])
  }

  /** Starting from the initial state, any sequence of inputs keeps the
      count non-negative, the quality index inside the steps, the
      interaction score non-negative and the history within ten samples. */
  lemma {:induction false} RunKeepsValid(e: Enhancer, inputs: seq<Input>)
    requires Valid(e)
    ensures Valid(Run(e, inputs))
    decreases |inputs|
  {
    if |inputs| > 0 {
      StepKeepsValid(e, inputs[0]);
      RunKeepsValid(Step(e, inputs[0]), inputs[1..]);
    }
  }

  lemma InitialValid(opts: Options, now: int)
    requires opts.initialVisualizerCount >= 0
    ensures Valid(Initial(opts, now)) && Valid(StartMinimal(Initial(opts, now)))
  {
  }

  /** One input keeps the options and, with the initial count within the
      maximum, keeps the count within it too. */
  lemma StepKeepsCap(e: Enhancer, i: Input)
    requires e.count <= e.opts.maxVisualizerCount
    requires e.opts.initialVisualizerCount <= e.opts.maxVisualizerCount
    ensures Step(e, i).opts == e.opts
    ensures Step(e, i).count <= e.opts.maxVisualizerCount
  {
    match i
    case Evaluate(p, now, fps, coin) =>
      if !e.isEnhancing {
        var e1 := RecordPerformance(e, p);
        EnhanceKeepsCap(e1, fps, coin);
      }
    case Interaction(s, now) =>
    case ForceEnhance(fps, coin) => EnhanceKeepsCap(e, fps, coin);
    case ForceDegrade =>
    case Reset =>
  }

  lemma EnhanceKeepsCap(e: Enhancer, fps: real, coin: bool)
    requires e.count <= e.opts.maxVisualizerCount
    ensures Enhance(e, fps, coin).opts == e.opts
    ensures Enhance(e, fps, coin).count <= e.opts.maxVisualizerCount
  {
  }

  /** With no more than the maximum to start with, the count never passes
      the maximum. */
  lemma {:induction false} RunKeepsCap(e: Enhancer, inputs: seq<Input>)
    requires e.count <= e.opts.maxVisualizerCount
    requires e.opts.initialVisualizerCount <= e.opts.maxVisualizerCount
    ensures Run(e, inputs).count <= e.opts.maxVisualizerCount
    decreases |inputs|
  {
    if |inputs| > 0 {
      StepKeepsCap(e, inputs[0]);
      RunKeepsCap(Step(e, inputs[0]), inputs[1..]);
    }
  }
}

=== FILE: reactivity_bridge.dfy ===
/** The reactivity bridge between input events, CSS custom properties and the
    visualizers' parameter bags (core/UnifiedReactivityBridge.js): a bounded
    FIFO event queue drained in per-frame batches, the normalisation rules
    for mouse, scroll, click and cube-navigation input, the frame-time tiering
    of the batch size, the card-effect CSS variable naming rule and the
    precedence merge that builds each visualizer's parameter bag. */
module Bridge {
  import opened Common
  import HomeMaster

  // ---------------------------------------------------------------------------
  // CSS custom properties
  // ---------------------------------------------------------------------------

  /** A CSS custom-property value. Numbers are kept as numbers (the exact
      digits `toFixed` or `toString` would print are not modelled);
      `CDim` is a number followed by a unit, `CText` any other text. */
  datatype CssValue = CNum(x: real) | CInt(i: int) | CDim(d: real, unit: string) | CText(s: string)

  /** `parseFloat` of a property value: the leading number, if any. */
  function NumberOf(v: CssValue): (r: Option<real>)
    ensures v.CText? <==> r.None?
  {
    match v
    case CNum(x) => Some(x)
    case CInt(i) => Some(i as real)
    case CDim(d, _) => Some(d)
    case CText(_) => None
  }

  type Css = map<string, CssValue>

  /** The property table the bridge starts with. */
  const InitialCss: Css := map[
    "--global-intensity" := CNum(0.0),
    "--chaos-intensity" := CNum(0.0),
    "--micro-interaction-scale" := CNum(1.0),
    "--scroll-progress" := CNum(0.0),
    "--mouse-influence" := CNum(0.0),
    "--system-coherence" := CNum(1.0),
    "--dimensional-depth" := CNum(3.5),
    "--portal-energy" := CNum(0.0),
    "--master-intensity" := CNum(0.8),
    "--grid-layers" := CNum(3.0),
    "--crystal-accents-enabled" := CText("1"),
    "--color-saturation" := CNum(0.9),
    "--animation-speed" := CNum(1.0),
    "--drag-threshold" := CNum(80.0),
    "--tension-buildup" := CNum(0.02),
    "--snap-strength" := CNum(1.0),
    "--content-gravity-strength" := CNum(0.3),
    "--content-gravity-radius" := CDim(150.0, "px"),
    "--hover-scale-factor" := CNum(1.15),
    "--hover-glow-intensity" := CNum(0.6)
  ]

  /** Records a property value; the table afterwards reads back exactly that
      value for that property and is unchanged elsewhere. */
  function UpdateCssProperty(css: Css, p: string, v: CssValue): (r: Css)
    ensures p in r && r[p] == v
    ensures r.Keys == css.Keys + {p}
    ensures forall q :: q in css && q != p ==> r[q] == css[q]
  {
    css[p := v]
  }

  /** The three cube-navigation settings read with `parseFloat` are numbers.
      No bridge operation writes them, so this holds from the start on. */
  predicate NavNumeric(css: Css)
  {
    && "--drag-threshold" in css && NumberOf(css["--drag-threshold"]).Some?
    && "--tension-buildup" in css && NumberOf(css["--tension-buildup"]).Some?
    && "--snap-strength" in css && NumberOf(css["--snap-strength"]).Some?
  }

  lemma InitialCssNavNumeric()
    ensures NavNumeric(InitialCss)
  {
  }

  // ---------------------------------------------------------------------------
  // Events and the bridge state
  // ---------------------------------------------------------------------------

  /** A queued event with the payload fields its handler reads. */
  datatype Event =
    | MouseEvent(mx: real, my: real, velocity: real)
    | ScrollEvent(scrollVelocity: real, accumulated: real, position: real)
    | ClickEvent(cx: real, cy: real)
    | EditorUpdateEvent(parameter: string, value: real)
    | CubeNavigationEvent(direction: string, tension: real)
    | VisualizerInteractionEvent
    | PresetEvent(preset: string)
    | OtherEvent(kind: string)

  /** Everything an event handler reads or writes: the property table, the
      master state and the loaded config, and the page height the scroll
      handler reads from the document. */
  datatype World = World(css: Css, home: HomeMaster.MasterState,
                         cfg: Option<HomeMaster.EditorConfig>, pageHeight: real)

  datatype Profile = Minimal | Standard | Premium

  datatype BridgeState = BridgeState(
    queue: seq<Event>, processing: bool, maxEventsPerFrame: nat,
    profile: Profile, frameTime: real, lastFrameTime: real, world: World)

  /** A freshly constructed bridge; `now` is the clock reading at construction. */
  function InitialBridge(home: HomeMaster.MasterState, cfg: Option<HomeMaster.EditorConfig>,
                         pageHeight: real, now: real): (b: BridgeState)
    ensures b.queue == [] && !b.processing && b.maxEventsPerFrame == 3
    ensures NavNumeric(b.world.css)
  {
    InitialCssNavNumeric();
    BridgeState([], false, 3, Standard, 0.0, now, World(InitialCss, home, cfg, pageHeight))
  }

  const QueueLimit: nat := 50
  const QueueKeep: nat := 30

  /** Appends an event; on overflow past 50 only the 30 most recent are kept. */
  function QueueEvent(q: seq<Event>, e: Event): (r: seq<Event>)
    ensures |r| <= QueueLimit
    ensures |q| < QueueLimit ==> r == q + [e]
    ensures |q| >= QueueLimit ==> |r| == QueueKeep && r[QueueKeep - 1] == e
    ensures |q| >= QueueLimit ==> forall i :: 0 <= i < QueueKeep - 1 ==> r[i] == q[|q| - (QueueKeep - 1) + i]
  {
    var t := q + [e];
    if |t| > QueueLimit then t[|t| - QueueKeep..] else t
  }

  // ---------------------------------------------------------------------------
  // Input normalisation
  // ---------------------------------------------------------------------------

  /** Mouse influence from pointer speed, capped at 1. */
  function MouseIntensity(velocity: real): (r: real)
    ensures r <= 1.0
    ensures 0.0 <= velocity ==> 0.0 <= r
    ensures velocity <= 40.0 ==> r * 40.0 == velocity
  {
    Min(1.0, velocity / 40.0)
  }

  /** Hover scale of micro-interactive elements. */
  function MicroScale(intensity: real): (r: real)
    ensures 0.0 <= intensity <= 1.0 ==> 1.0 <= r <= 1.05
  {
    1.0 + intensity * 0.05
  }

  function ScrollVelocity(v: real): (r: real)
    ensures r <= 1.0 && (0.0 <= v ==> 0.0 <= r)
    ensures v <= 100.0 ==> r * 100.0 == v
  {
    Min(1.0, v / 100.0)
  }

  function ScrollChaos(accumulated: real): (r: real)
    ensures r <= 1.0 && (0.0 <= accumulated ==> 0.0 <= r)
    ensures accumulated <= 500.0 ==> r * 500.0 == accumulated
  {
    Min(1.0, accumulated / 500.0)
  }

  /** A scroll faster than 1500 triggers a portal burst. */
  predicate PortalBurstFires(v: real)
  {
    v > 1500.0
  }

  /** The portal energy of a burst, capped at 2. */
  function PortalEnergy(v: real): (r: real)
    ensures r <= 2.0
    ensures PortalBurstFires(v) ==> 1.5 < r
    ensures v <= 2000.0 ==> r * 1000.0 == v
  {
    Min(2.0, v / 1000.0)
  }

  /** Scroll progress: position over page height. A zero page height gives
      the text of an IEEE infinity or NaN. */
  function ScrollProgress(position: real, pageHeight: real): (r: CssValue)
    ensures pageHeight != 0.0 ==> r == CNum(position / pageHeight)
    ensures pageHeight == 0.0 ==> r.CText?
  {
    if pageHeight != 0.0 then CNum(position / pageHeight)
    else if position > 0.0 then CText("Infinity")
    else if position < 0.0 then CText("-Infinity")
    else CText("NaN")
  }

  /** The wheel handler's accumulator: each wheel delta adds its magnitude,
      and the event carries the delta's magnitude and the running total. */
  function WheelInput(acc: real, deltaY: real, position: real): (r: (real, Event))
    ensures r.0 == acc + Abs(deltaY)
    ensures r.1 == ScrollEvent(Abs(deltaY), r.0, position)
  {
    var acc1 := acc + Abs(deltaY);
    (acc1, ScrollEvent(Abs(deltaY), acc1, position))
  }

  /** The accumulator's decay timer: ×0.9, snapping to 0 below 1. */
  function DecayAccumulator(acc: real): (r: real)
    ensures 0.0 <= acc ==> 0.0 <= r <= acc
    ensures r == 0.0 || r >= 1.0
    ensures acc * 0.9 >= 1.0 ==> r == acc * 0.9
  {
    var a := acc * 0.9;
    if a < 1.0 then 0.0 else a
  }

  // ---------------------------------------------------------------------------
  // Event handlers
  // ---------------------------------------------------------------------------

  function ProcessMouse(w: World, velocity: real): (r: World)
    ensures r.css == w.css["--mouse-influence" := CNum(MouseIntensity(velocity))]
                          ["--micro-interaction-scale" := CNum(MicroScale(MouseIntensity(velocity)))]
    ensures r.home == HomeMaster.UpdateInteraction(w.home, HomeMaster.MouseInput(MouseIntensity(velocity)))
    ensures r.cfg == w.cfg && r.pageHeight == w.pageHeight
    ensures NavNumeric(w.css) ==> NavNumeric(r.css)
  {
    var i := MouseIntensity(velocity);
    var css := UpdateCssProperty(w.css, "--mouse-influence", CNum(i));
    var css1 := UpdateCssProperty(css, "--micro-interaction-scale", CNum(MicroScale(i)));
    w.(css := css1, home := HomeMaster.UpdateInteraction(w.home, HomeMaster.MouseInput(i)))
  }

  /** A portal burst: energy from the velocity, chaos forced to 1. */
  function TriggerPortalBurst(css: Css, velocity: real): (r: Css)
    ensures "--portal-energy" in r && r["--portal-energy"] == CNum(PortalEnergy(velocity))
    ensures "--chaos-intensity" in r && r["--chaos-intensity"] == CNum(1.0)
    ensures forall q :: q in css && q != "--portal-energy" && q != "--chaos-intensity" ==> q in r && r[q] == css[q]
  {
    UpdateCssProperty(UpdateCssProperty(css, "--portal-energy", CNum(PortalEnergy(velocity))),
                      "--chaos-intensity", CNum(1.0))
  }

  function ProcessScroll(w: World, velocity: real, accumulated: real, position: real): (r: World)
    ensures "--global-intensity" in r.css && r.css["--global-intensity"] == CNum(ScrollVelocity(velocity))
    ensures "--scroll-progress" in r.css && r.css["--scroll-progress"] == ScrollProgress(position, w.pageHeight)
    ensures "--chaos-intensity" in r.css
    ensures PortalBurstFires(velocity) ==>
      r.css["--chaos-intensity"] == CNum(1.0)
      && "--portal-energy" in r.css && r.css["--portal-energy"] == CNum(PortalEnergy(velocity))
    ensures !PortalBurstFires(velocity) ==>
      r.css["--chaos-intensity"] == CNum(ScrollChaos(accumulated))
      && r.css.Keys == w.css.Keys + {"--global-intensity", "--chaos-intensity", "--scroll-progress"}
    ensures r.home == HomeMaster.UpdateInteraction(w.home, HomeMaster.ScrollInput(ScrollVelocity(velocity), ScrollChaos(accumulated)))
    ensures r.cfg == w.cfg && r.pageHeight == w.pageHeight
  {
    var nv := ScrollVelocity(velocity);
    var chaos := ScrollChaos(accumulated);
    var css := UpdateCssProperty(w.css, "--global-intensity", CNum(nv));
    var css1 := UpdateCssProperty(css, "--chaos-intensity", CNum(chaos));
    var css2 := UpdateCssProperty(css1, "--scroll-progress", ScrollProgress(position, w.pageHeight));
    var css3 := if PortalBurstFires(velocity) then TriggerPortalBurst(css2, velocity) else css2;
    w.(css := css3, home := HomeMaster.UpdateInteraction(w.home, HomeMaster.ScrollInput(nv, chaos)))
  }

  /** Scrolling writes none of the cube-navigation settings. */
  lemma ScrollKeepsNav(w: World, velocity: real, accumulated: real, position: real)
    requires NavNumeric(w.css)
    ensures NavNumeric(ProcessScroll(w, velocity, accumulated, position).css)
  {
    var css := UpdateCssProperty(w.css, "--global-intensity", CNum(ScrollVelocity(velocity)));
    var css1 := UpdateCssProperty(css, "--chaos-intensity", CNum(ScrollChaos(accumulated)));
    var css2 := UpdateCssProperty(css1, "--scroll-progress", ScrollProgress(position, w.pageHeight));
    assert NavNumeric(css2);
  }

  function ProcessClick(w: World): (r: World)
    ensures r.css == w.css["--global-intensity" := CNum(1.0)]
    ensures r.home == HomeMaster.UpdateInteraction(w.home, HomeMaster.ClickInput)
    ensures r.cfg == w.cfg && r.pageHeight == w.pageHeight
    ensures NavNumeric(w.css) ==> NavNumeric(r.css)
  {
    w.(css := UpdateCssProperty(w.css, "--global-intensity", CNum(1.0)),
       home := HomeMaster.UpdateInteraction(w.home, HomeMaster.ClickInput))
  }

  /** The CSS property a dashboard control is mirrored to, if any. */
  function EditorProperty(parameter: string): Option<string>
  {
    if parameter == "visualIntensity" then Some("--master-intensity")
    else if parameter == "gridComplexity" then Some("--grid-layers")
    else if parameter == "crystallineAccents" then Some("--crystal-accents-enabled")
    else if parameter == "colorVibrancy" then Some("--color-saturation")
    else if parameter == "animationSpeed" then Some("--animation-speed")
    else None
  }

  /** A dashboard control changes: its property is mirrored (the accents flag
      as the text '1' or '0'), then the master state takes the update. */
  function ProcessEditorUpdate(w: World, parameter: string, value: real): (r: World)
    ensures EditorProperty(parameter).None? ==> r.css == w.css
    ensures EditorProperty(parameter).Some? && parameter != "crystallineAccents" ==>
      r.css == w.css[EditorProperty(parameter).value := CNum(value)]
    ensures parameter == "crystallineAccents" ==>
      r.css == w.css["--crystal-accents-enabled" := CText(if value != 0.0 then "1" else "0")]
    ensures r.home == HomeMaster.UpdateFromEditor(w.home, parameter, value)
    ensures r.cfg == w.cfg && r.pageHeight == w.pageHeight
    ensures NavNumeric(w.css) ==> NavNumeric(r.css)
  {
    var prop := EditorProperty(parameter);
    var css :=
      if prop.None? then w.css
      else if parameter == "crystallineAccents"
      then UpdateCssProperty(w.css, prop.value, CText(if value != 0.0 then "1" else "0"))
      else UpdateCssProperty(w.css, prop.value, CNum(value));
    w.(css := css, home := HomeMaster.UpdateFromEditor(w.home, parameter, value))
  }

  /** `parseFloat` of one of the cube-navigation settings. */
  function NavSetting(css: Css, name: string): real
    requires name in css && NumberOf(css[name]).Some?
  {
    NumberOf(css[name]).value
  }

  /** Cube navigation: below the drag threshold only the tension feedback is
      written; at or above it the snap energy is written and a cube rotation
      is registered with the master state. */
  function ProcessCubeNavigation(w: World, tension: real): (r: World)
    requires NavNumeric(w.css)
    ensures tension * 100.0 < NavSetting(w.css, "--drag-threshold") ==>
      && r.css == UpdateCssProperty(w.css, "--cube-tension", CNum(tension * NavSetting(w.css, "--tension-buildup")))
      && r.home == w.home
    ensures tension * 100.0 >= NavSetting(w.css, "--drag-threshold") ==>
      && r.css == UpdateCssProperty(w.css, "--portal-energy", CNum(NavSetting(w.css, "--snap-strength")))
      && r.home == HomeMaster.RegisterInteraction(w.home, w.cfg, "cubeRotation", tension * NavSetting(w.css, "--snap-strength"))
    ensures r.cfg == w.cfg && r.pageHeight == w.pageHeight
    ensures NavNumeric(r.css)
  {
    if tension * 100.0 < NavSetting(w.css, "--drag-threshold") then
      w.(css := UpdateCssProperty(w.css, "--cube-tension", CNum(tension * NavSetting(w.css, "--tension-buildup"))))
    else
      var snap := NavSetting(w.css, "--snap-strength");
      w.(css := UpdateCssProperty(w.css, "--portal-energy", CNum(snap)),
         home := HomeMaster.RegisterInteraction(w.home, w.cfg, "cubeRotation", tension * snap))
  }

  /** Dispatches one event by type. Visualizer interactions have no handler
      on the master state and presets, like any unknown type, have no case:
      both are dropped with a warning. */
  function ProcessEvent(w: World, e: Event): (r: World)
    requires NavNumeric(w.css)
    ensures NavNumeric(r.css)
    ensures r.cfg == w.cfg && r.pageHeight == w.pageHeight
    ensures e.VisualizerInteractionEvent? || e.PresetEvent? || e.OtherEvent? ==> r == w
    ensures e.MouseEvent? ==> r == ProcessMouse(w, e.velocity)
    ensures e.ScrollEvent? ==> r == ProcessScroll(w, e.scrollVelocity, e.accumulated, e.position)
    ensures e.ClickEvent? ==> r == ProcessClick(w)
    ensures e.EditorUpdateEvent? ==> r == ProcessEditorUpdate(w, e.parameter, e.value)
    ensures e.CubeNavigationEvent? ==> r == ProcessCubeNavigation(w, e.tension)
  {
    match e
    case MouseEvent(_, _, v) => ProcessMouse(w, v)
    case ScrollEvent(v, acc, pos) => ScrollKeepsNav(w, v, acc, pos); ProcessScroll(w, v, acc, pos)
    case ClickEvent(_, _) => ProcessClick(w)
    case EditorUpdateEvent(p, v) => ProcessEditorUpdate(w, p, v)
    case CubeNavigationEvent(_, t) => ProcessCubeNavigation(w, t)
    case VisualizerInteractionEvent => w
    case PresetEvent(_) => w
    case OtherEvent(_) => w
  }

  /** The events handled one after another, in order. */
  function ProcessAll(w: World, events: seq<Event>): (r: World)
    requires NavNumeric(w.css)
    ensures NavNumeric(r.css)
    decreases |events|
  {
    if |events| == 0 then w else ProcessAll(ProcessEvent(w, events[0]), events[1..])
  }

  /** `k` rounds of "shift the oldest event and handle it". */
  function Drain(b: BridgeState, k: nat): (r: BridgeState)
    requires k <= |b.queue| && NavNumeric(b.world.css)
    ensures NavNumeric(r.world.css)
    ensures r.queue == b.queue[k..]
    ensures r == b.(queue := r.queue, world := r.world)
    decreases k
  {
    if k == 0 then b
    else Drain(b.(queue := b.queue[1..], world := ProcessEvent(b.world, b.queue[0])), k - 1)
  }

  /** Draining `k` events removes exactly the `k` oldest and handles exactly
      those, oldest first. */
  lemma {:induction false} DrainIsFifo(b: BridgeState, k: nat)
    requires k <= |b.queue| && NavNumeric(b.world.css)
    ensures Drain(b, k).queue == b.queue[k..]
    ensures Drain(b, k).world == ProcessAll(b.world, b.queue[..k])
    ensures Drain(b, k) == b.(queue := b.queue[k..], world := Drain(b, k).world)
    decreases k
  {
    if k > 0 {
      var b1 := b.(queue := b.queue[1..], world := ProcessEvent(b.world, b.queue[0]));
      DrainIsFifo(b1, k - 1);
      assert b.queue[..k][1..] == b.queue[1..][..k - 1];
      assert b.queue[..k][0] == b.queue[0];
    }
  }

  /** The batch a frame handles: at most `maxEventsPerFrame` events. */
  function BatchSize(b: BridgeState): (n: nat)
    ensures n <= |b.queue| && n <= b.maxEventsPerFrame
    ensures n == |b.queue| || n == b.maxEventsPerFrame
  {
    MinInt(b.maxEventsPerFrame, |b.queue|)
  }

  /** Handles the frame's batch of queued events; a no-op when the queue is
      empty or a batch is already being handled. */
  function ProcessEventQueue(b: BridgeState): (r: BridgeState)
    requires NavNumeric(b.world.css)
    ensures NavNumeric(r.world.css)
    ensures b.processing || |b.queue| == 0 ==> r == b
    ensures !b.processing && |b.queue| > 0 ==>
      && r.queue == b.queue[BatchSize(b)..]
      && r.world == ProcessAll(b.world, b.queue[..BatchSize(b)])
      && r == b.(queue := r.queue, world := r.world)
  {
    if b.processing || |b.queue| == 0 then b
    else
      var n := BatchSize(b);
      DrainIsFifo(b.(processing := true), n);
      Drain(b.(processing := true), n).(processing := false)
  }

  /** The same batch, handled by a loop that shifts one event at a time. */
  method ProcessEventQueueLoop(b: BridgeState) returns (r: BridgeState)
    requires NavNumeric(b.world.css)
    ensures r == ProcessEventQueue(b)
  {
    if b.processing || |b.queue| == 0 {
      return b;
    }
    var n := BatchSize(b);
    var q := b.queue;
    var w := b.world;
    var i := 0;
    while i < n
      invariant 0 <= i <= n
      invariant q == b.queue[i..]
      invariant w == ProcessAll(b.world, b.queue[..i])
    {
      ProcessPrefixStep(b.world, b.queue, i);
      w := ProcessEvent(w, q[0]);
      q := q[1..];
      i := i + 1;
    }
    r := b.(queue := q, world := w);
  }

  /** Handling the events up to index `i` inclusive handles those before
      `i`, then event `i`. */
  lemma ProcessPrefixStep(w: World, events: seq<Event>, i: nat)
    requires NavNumeric(w.css) && i < |events|
    ensures NavNumeric(ProcessAll(w, events[..i]).css)
    ensures ProcessAll(w, events[..i + 1]) == ProcessEvent(ProcessAll(w, events[..i]), events[i])
  {
    PrefixSnoc(events, i);
    ProcessAllSnoc(w, events[..i], events[i]);
  }

  /** Handling one more event after a run of events extends the run. */
  lemma {:induction false} ProcessAllSnoc(w: World, events: seq<Event>, e: Event)
    requires NavNumeric(w.css)
    ensures NavNumeric(ProcessAll(w, events).css)
    ensures ProcessAll(w, events + [e]) == ProcessEvent(ProcessAll(w, events), e)
    decreases |events|
  {
    if |events| > 0 {
      ProcessAllSnoc(ProcessEvent(w, events[0]), events[1..], e);
      assert (events + [e])[1..] == events[1..] + [e];
    }
  }

  /** The tier a measured frame time selects. */
  function Tier(frameTime: real): (r: (nat, Profile))
    ensures 1 <= r.0 <= 3
    ensures r.0 == 1 <==> frameTime > 32.0
    ensures r.0 == 3 <==> frameTime <= 20.0
    ensures r.1 == (if r.0 == 1 then Minimal else if r.0 == 2 then Standard else Premium)
  {
    if frameTime > 32.0 then (1, Minimal)
    else if frameTime > 20.0 then (2, Standard)
    else (3, Premium)
  }

  /** The once-a-second performance check at clock reading `now`. */
  function PerformanceTick(b: BridgeState, now: real): (r: BridgeState)
    ensures r.frameTime == now - b.lastFrameTime && r.lastFrameTime == now
    ensures (r.maxEventsPerFrame, r.profile) == Tier(now - b.lastFrameTime)
    ensures r.queue == b.queue && r.world == b.world
  {
    var ft := now - b.lastFrameTime;
    var (n, p) := Tier(ft);
    b.(frameTime := ft, lastFrameTime := now, maxEventsPerFrame := n, profile := p)
  }

  /** After any performance check, a frame handles between one and three
      events of a non-empty queue. */
  lemma BatchBounds(b: BridgeState, now: real)
    requires |b.queue| > 0
    ensures 1 <= BatchSize(PerformanceTick(b, now)) <= 3
  {
  }

  /** A bridge timer that fires some time after its handler ran. */
  datatype Timer = ClickPulseEnds | PortalBurstEnds | MouseInfluenceEnds | AccumulatorDecays

  /** The CSS write a timer does when it fires. */
  function FireTimer(css: Css, t: Timer): (r: Css)
    ensures t == ClickPulseEnds ==> r == css["--global-intensity" := CNum(0.0)]
    ensures t == PortalBurstEnds ==> r == css["--portal-energy" := CNum(0.0)]
    ensures t == MouseInfluenceEnds ==> r == css["--mouse-influence" := CNum(0.0)]
    ensures t == AccumulatorDecays ==> r == css
  {
    match t
    case ClickPulseEnds => UpdateCssProperty(css, "--global-intensity", CNum(0.0))
    case PortalBurstEnds => UpdateCssProperty(css, "--portal-energy", CNum(0.0))
    case MouseInfluenceEnds => UpdateCssProperty(css, "--mouse-influence", CNum(0.0))
    case AccumulatorDecays => css
  }

  /** The one frame the live update loop runs: the queued batch, then the
      coherence mirror. The frame then stops at the focus-mode block, which
      reads an undeclared variable, so no further frame is scheduled. */
  function BridgeFrame(b: BridgeState): (r: BridgeState)
    requires NavNumeric(b.world.css)
    ensures NavNumeric(r.world.css)
    ensures "--system-coherence" in r.world.css
    ensures r.world.css["--system-coherence"] == CNum(ProcessEventQueue(b).world.home.coherence)
    ensures r.queue == ProcessEventQueue(b).queue
  {
    var b1 := ProcessEventQueue(b);
    b1.(world := b1.world.(css := UpdateCssProperty(b1.world.css, "--system-coherence", CNum(b1.world.home.coherence))))
  }

  // ---------------------------------------------------------------------------
  // Card effect CSS variables
  // ---------------------------------------------------------------------------

  predicate EndsWith(s: string, suffix: string)
  {
    |suffix| <= |s| && s[|s| - |suffix|..] == suffix
  }

  /** `pat` occurs in `s` at position `j`. */
  predicate MatchAt(s: string, pat: string, j: nat)
  {
    j + |pat| <= |s| && s[j..j + |pat|] == pat
  }

  /** The position of the first occurrence of `pat` at or after `from`. */
  function IndexFrom(s: string, pat: string, from: nat): (r: Option<nat>)
    requires |pat| > 0
    ensures r.Some? ==> from <= r.value && MatchAt(s, pat, r.value)
    ensures r.Some? ==> forall j :: from <= j < r.value ==> !MatchAt(s, pat, j)
    ensures r.None? ==> forall j :: from <= j ==> !MatchAt(s, pat, j)
    decreases |s| - from
  {
    if from + |pat| > |s| then None
    else if s[from..from + |pat|] == pat then Some(from)
    else IndexFrom(s, pat, from + 1)
  }

  /** String `replace` with a string pattern: only the first occurrence. */
  function ReplaceFirst(s: string, pat: string, rep: string): (r: string)
    requires |pat| > 0
    ensures (forall j :: 0 <= j ==> !MatchAt(s, pat, j)) ==> r == s
  {
    match IndexFrom(s, pat, 0)
    case None => s
    case Some(i) => s[..i] + rep + s[i + |pat|..]
  }

  /** A string without underscores holds no occurrence of a pattern that
      starts with one. */
  lemma NoUnderscoreNoMatch(s: string, pat: string)
    requires |pat| > 0 && pat[0] == '_'
    requires forall k :: 0 <= k < |s| ==> s[k] != '_'
    ensures forall j :: 0 <= j ==> !MatchAt(s, pat, j)
  {
    forall j | 0 <= j
      ensures !MatchAt(s, pat, j)
    {
      if j + |pat| <= |s| {
        assert s[j..j + |pat|][0] == s[j];
      }
    }
  }

  /** Replacing the first occurrence of an underscore-led suffix in
      `base + suffix`, when `base` has no underscore, strips the suffix. */
  lemma StripSuffix(base: string, suffix: string)
    requires |suffix| > 0 && suffix[0] == '_'
    requires forall k :: 0 <= k < |base| ==> base[k] != '_'
    ensures ReplaceFirst(base + suffix, suffix, "") == base
  {
    var s := base + suffix;
    assert MatchAt(s, suffix, |base|) by {
      assert s[|base|..|base| + |suffix|] == suffix;
    }
    forall j | 0 <= j < |base|
      ensures !MatchAt(s, suffix, j)
    {
      if j + |suffix| <= |s| {
        assert s[j..j + |suffix|][0] == s[j] == base[j];
      }
    }
    var i := IndexFrom(s, suffix, 0);
    assert i == Some(|base|);
    assert s[..|base|] == base;
  }

  /** An animated card property: present only when it has a current value. */
  datatype CardValue = CardNum(n: real) | CardText(t: string)

  /** The unit a card effect's name selects. */
  function CardUnit(name: string): (u: string)
    ensures EndsWith(name, "_px") ==> u == "px"
    ensures !EndsWith(name, "_px") && EndsWith(name, "_percent") ==> u == "%"
    ensures !EndsWith(name, "_px") && !EndsWith(name, "_percent") ==> u == ""
  {
    if EndsWith(name, "_px") then "px" else if EndsWith(name, "_percent") then "%" else ""
  }

  function CardVarName(name: string): string
  {
    "--self-" + ReplaceFirst(ReplaceFirst(name, "_px", ""), "_percent", "")
  }

  /** A number written with a unit; an empty unit leaves the plain number. */
  function WithUnit(x: real, unit: string): CssValue
  {
    if unit == "" then CNum(x) else CDim(x, unit)
  }

  /** The CSS write for one animated card property, if it has a current value:
      `zIndex` rounded without a unit, `borderColor` as is, anything else as
      value and unit. */
  function CardEffectWrite(name: string, current: Option<CardValue>): (r: Option<(string, CssValue)>)
    ensures current.None? <==> r.None?
    ensures r.Some? ==> r.value.0 == CardVarName(name)
    ensures name == "zIndex" && current.Some? && current.value.CardNum? ==> r.value.1 == CInt(JsRound(current.value.n))
    ensures name != "zIndex" && name != "borderColor" && current.Some? && current.value.CardNum? ==>
      NumberOf(r.value.1) == Some(current.value.n)
  {
    match current
    case None => None
    case Some(v) =>
      var unit := CardUnit(name);
      var value :=
        if name == "zIndex" then
          (match v case CardNum(n) => CInt(JsRound(n)) case CardText(t) => CText("NaN"))
        else if name == "borderColor" then
          (match v case CardNum(n) => CNum(n) case CardText(t) => CText(t))
        else
          (match v case CardNum(n) => WithUnit(n, unit) case CardText(t) => CText(t + unit));
      Some((CardVarName(name), value))
  }

  /** The naming rule on the common case: `<base>_px` becomes
      `--self-<base>` with unit px, for a base without underscores. */
  lemma CardPxRule(base: string, x: real)
    requires forall k :: 0 <= k < |base| ==> base[k] != '_'
    ensures CardEffectWrite(base + "_px", Some(CardNum(x))) == Some(("--self-" + base, CDim(x, "px")))
  {
    var n := base + "_px";
    StripSuffix(base, "_px");
    NoUnderscoreNoMatch(base, "_percent");
    assert n[|n| - 3..] == "_px";
    assert !EndsWith("zIndex", "_px") && !EndsWith("borderColor", "_px");
  }

  /** `<base>_percent` becomes `--self-<base>` with unit %, for a base
      without underscores: its only underscore starts `_percent`, so the
      `_px` replacement finds nothing. */
  lemma CardPercentRule(base: string, x: real)
    requires forall k :: 0 <= k < |base| ==> base[k] != '_'
    ensures CardEffectWrite(base + "_percent", Some(CardNum(x))) == Some(("--self-" + base, CDim(x, "%")))
  {
    var n := base + "_percent";
    StripSuffix(base, "_percent");
    assert n[|n| - 8..] == "_percent";
    assert n[|n| - 3..] == "ent";
    forall j | 0 <= j
      ensures !MatchAt(n, "_px", j)
    {
      if j + 3 <= |n| {
        if j < |base| {
          assert n[j..j + 3][0] == base[j];
        } else if j == |base| {
          assert n[j..j + 3][2] == "_percent"[2];
        } else {
          assert n[j..j + 3][0] == "_percent"[j - |base|];
        }
      }
    }
    assert ReplaceFirst(n, "_px", "") == n;
    assert !EndsWith("zIndex", "_percent") && !EndsWith("borderColor", "_percent");
  }

  /** The writes for one card: none when the card element is absent,
      otherwise one per property that has a current value, in order. */
  function CardEffectWrites(cardExists: bool, effects: seq<(string, Option<CardValue>)>): (r: seq<(string, CssValue)>)
    ensures !cardExists ==> r == []
    ensures |r| <= |effects|
    ensures cardExists && (forall i :: 0 <= i < |effects| ==> effects[i].1.Some?) ==> |r| == |effects|
    decreases |effects|
  {
    if !cardExists || |effects| == 0 then []
    else
      var w := CardEffectWrite(effects[0].0, effects[0].1);
      (if w.Some? then [w.value] else []) + CardEffectWrites(cardExists, effects[1..])
  }

  // ---------------------------------------------------------------------------
  // The per-visualizer parameter bag
  // ---------------------------------------------------------------------------

  datatype BagValue = BNum(n: real) | BColor(c: HomeMaster.RGB) | BBool(b: bool) | BUndefined

  type Bag = map<string, BagValue>

  /** A per-visualizer animated parameter: its own `current` and `target`
      properties when present. */
  datatype AnimTarget = AnimTarget(current: Option<real>, target: Option<real>)

  datatype HoverInfo = HoverInfo(id: Option<string>, x: real, y: real)
  datatype GravityTarget = GravityTarget(x: Option<real>, y: Option<real>)

  /** Master-state properties the bag reads that no modelled operation sets
      (they are written by interaction code outside this model). */
  datatype VisualState = VisualState(
    hovered: Option<HoverInfo>, activeHoverVisualizerId: Option<string>,
    contentGravityTarget: Option<GravityTarget>, contentGravityActive: bool,
    focusedTextElement: bool,
    visualizerParameterTargets: Option<map<string, map<string, AnimTarget>>>)

  /** The value an animated parameter contributes: current, else target,
      else 1. */
  function TargetValue(t: AnimTarget): (r: real)
    ensures t.current.Some? ==> r == t.current.value
    ensures t.current.None? && t.target.Some? ==> r == t.target.value
    ensures t.current.None? && t.target.None? ==> r == 1.0
  {
    if t.current.Some? then t.current.value
    else if t.target.Some? then t.target.value
    else 1.0
  }

  /** The fields the bag literal lists before the spread of the editor
      overrides, given the active section's parameters `sp`. */
  function BaseBag(ms: HomeMaster.MasterState, sp: HomeMaster.SectionParams, vs: VisualState): Bag
  {
    var eo := ms.editorOverrides;
    var gx := if vs.contentGravityTarget.Some? then vs.contentGravityTarget.value.x else None;
    var gy := if vs.contentGravityTarget.Some? then vs.contentGravityTarget.value.y else None;
    map[
      "intensity" := BNum(if "intensity" in eo then eo["intensity"] else sp.intensity),
      "speed" := BNum(if "speed" in eo then eo["speed"] else sp.speed),
      "density" := BNum(if "density" in eo then eo["density"] / 3.0 else sp.density),
      "baseColor" := BColor(sp.baseColor),
      "geometry" := BNum(sp.geometry),
      "geometryThemeName" := BUndefined,
      "dimension" := BNum(sp.dimension),
      "morphFactor" := BNum(sp.complexity),
      "chaosIntensity" := BNum(ms.scrollChaos),
      "gridVibrance" := BNum(Or(Get(eo, "colorVibrancy"), 1.0)),
      "sectionFocus" := BNum(if vs.activeHoverVisualizerId.Some? then 1.0 else 0.0),
      "portalIntensity" := BNum(Or(Some(ms.isPortalling), ms.currentDragTension)),
      "microChaos" := BNum(ms.currentDragTension * 0.5),
      "inverseFlow" := BNum(if ms.currentDragTension > 0.5 then 0.3 else 0.0),
      "contentGravityX" := BNum(Or(gx, 0.5)),
      "contentGravityY" := BNum(Or(gy, 0.5)),
      "contentFlowStrength" := BNum(if vs.contentGravityActive then 0.8 else 0.0),
      "textProximity" := BNum(if vs.focusedTextElement then 1.0 else 0.0)
    ]
  }

  /** The spread of the editor overrides: every override key, raw. */
  function OverrideBag(eo: map<string, real>): (r: Bag)
    ensures r.Keys == eo.Keys
    ensures forall k :: k in eo ==> r[k] == BNum(eo[k])
  {
    map k | k in eo :: BNum(eo[k])
  }

  function HoverBag(hovered: bool, h: Option<HoverInfo>): (r: Bag)
    requires hovered ==> h.Some?
    ensures "isCurrentlyHovered" in r && r["isCurrentlyHovered"] == BBool(hovered)
    ensures "normalizedMouseXOnViz" in r && "normalizedMouseYOnViz" in r
    ensures forall k :: k in r ==> k == "isCurrentlyHovered" || k == "normalizedMouseXOnViz" || k == "normalizedMouseYOnViz"
  {
    map[
      "isCurrentlyHovered" := BBool(hovered),
      "normalizedMouseXOnViz" := BNum(if hovered then h.value.x else 0.5),
      "normalizedMouseYOnViz" := BNum(if hovered then h.value.y else 0.5)
    ]
  }

  /** The visualizer's animated targets, looked up by its id (an absent id
      looks up the key 'undefined'). */
  function VizTargets(vs: VisualState, vizId: Option<string>): Option<map<string, AnimTarget>>
  {
    var key := if vizId.Some? then vizId.value else "undefined";
    if vs.visualizerParameterTargets.Some? && key in vs.visualizerParameterTargets.value
    then Some(vs.visualizerParameterTargets.value[key]) else None
  }

  function TargetBag(t: map<string, AnimTarget>): (r: Bag)
    ensures r.Keys == t.Keys
    ensures forall k :: k in t ==> r[k] == BNum(TargetValue(t[k]))
  {
    map k | k in t :: BNum(TargetValue(t[k]))
  }

  /** The last step: the animated targets, or, for a visualizer without
      targets, a default density multiplier of 1 when none is set yet. */
  function FinishBag(b: Bag, targets: Option<map<string, AnimTarget>>): (r: Bag)
    ensures forall k :: k in b ==> k in r
    ensures targets.None? ==> forall k :: k in b && k != "densityMultiplier" ==> r[k] == b[k]
    ensures targets.Some? ==> forall k :: k in targets.value ==> k in r && r[k] == BNum(TargetValue(targets.value[k]))
    ensures targets.Some? ==> forall k :: k in b && k !in targets.value ==> r[k] == b[k]
    ensures targets.None? && "densityMultiplier" in b && b["densityMultiplier"] != BUndefined ==> r == b
    ensures targets.None? && "densityMultiplier" !in b ==> "densityMultiplier" in r && r["densityMultiplier"] == BNum(1.0)
    ensures r.Keys == b.Keys + (if targets.Some? then targets.value.Keys else {})
                             + (if targets.None? then {"densityMultiplier"} else {})
  {
    if targets.Some? then b + TargetBag(targets.value)
    else if "densityMultiplier" in b && b["densityMultiplier"] != BUndefined then b
    else b["densityMultiplier" := BNum(1.0)]
  }

  /** The parameter bag as the source builds it. The hover test compares the
      hover record's id with the visualizer's id through optional chaining,
      so with no hover record and no visualizer id both sides are undefined,
      the test passes, and reading the missing record's `x` throws: None. */
  function WebGLParametersAsWritten(ms: HomeMaster.MasterState, cfg: Option<HomeMaster.EditorConfig>,
                                    vs: VisualState, vizId: Option<string>): (r: Option<Bag>)
    ensures vs.hovered.None? && vizId.None? <==> r.None?
  {
    var hoveredId := if vs.hovered.Some? then vs.hovered.value.id else None;
    var hovered := hoveredId == vizId;
    if hovered && vs.hovered.None? then None
    else
      var sp := HomeMaster.ParametersForSection(ms, cfg, ms.activeSection);
      var b := BaseBag(ms, sp, vs) + OverrideBag(ms.editorOverrides) + HoverBag(hovered, vs.hovered);
      Some(FinishBag(b, VizTargets(vs, vizId)))
  }

  /** The hover state as intended: a visualizer is hovered only when a hover
      record exists and carries its id. */
  predicate IsHovered(vs: VisualState, vizId: Option<string>)
  {
    vs.hovered.Some? && vs.hovered.value.id == vizId
  }

  /** The parameter bag with the corrected hover test. */
  function WebGLParameters(ms: HomeMaster.MasterState, cfg: Option<HomeMaster.EditorConfig>,
                           vs: VisualState, vizId: Option<string>): (b: Bag)
    ensures "isCurrentlyHovered" in b && "normalizedMouseXOnViz" in b
    ensures var t := VizTargets(vs, vizId);
      t.None? || "isCurrentlyHovered" !in t.value ==> b["isCurrentlyHovered"] == BBool(IsHovered(vs, vizId))
    ensures var t := VizTargets(vs, vizId);
      && (forall k :: k in ms.editorOverrides ==> k in b)
      && (t.Some? ==> forall k :: k in t.value ==> k in b && b[k] == BNum(TargetValue(t.value[k])))
      && (t.None? ==> "densityMultiplier" in b)
  {
    FinishBag(SpreadBag(ms, cfg, vs, vizId), VizTargets(vs, vizId))
  }

  /** The corrected bag before the per-visualizer targets: the literal, the
      overrides spread over it, then the hover entries. */
  function SpreadBag(ms: HomeMaster.MasterState, cfg: Option<HomeMaster.EditorConfig>,
                     vs: VisualState, vizId: Option<string>): Bag
  {
    var sp := HomeMaster.ParametersForSection(ms, cfg, ms.activeSection);
    BaseBag(ms, sp, vs) + OverrideBag(ms.editorOverrides) + HoverBag(IsHovered(vs, vizId), vs.hovered)
  }

  /** The two agree wherever the source does not throw. */
  lemma AsWrittenAgreesWhenDefined(ms: HomeMaster.MasterState, cfg: Option<HomeMaster.EditorConfig>,
                                   vs: VisualState, vizId: Option<string>)
    requires vs.hovered.Some? || vizId.Some?
    ensures WebGLParametersAsWritten(ms, cfg, vs, vizId) == Some(WebGLParameters(ms, cfg, vs, vizId))
  {
  }

  /** The summary call without a visualizer, on a master state without a
      hover record, throws as written. */
  lemma SummaryCallThrowsAsWritten(ms: HomeMaster.MasterState, cfg: Option<HomeMaster.EditorConfig>, vs: VisualState)
    requires vs.hovered.None?
    ensures WebGLParametersAsWritten(ms, cfg, vs, None).None?
  {
  }

  /** An editor override, spread after the literal, wins over the section
      value; for density that means the raw dashboard value, not the value
      divided by 3 the literal computes. Animated targets win over both. */
  lemma OverridePrecedence(ms: HomeMaster.MasterState, cfg: Option<HomeMaster.EditorConfig>,
                           vs: VisualState, vizId: Option<string>, k: string)
    requires k in ms.editorOverrides
    requires k != "isCurrentlyHovered" && k != "normalizedMouseXOnViz" && k != "normalizedMouseYOnViz"
    ensures var b := WebGLParameters(ms, cfg, vs, vizId);
      var t := VizTargets(vs, vizId);
      && k in b
      && (t.Some? && k in t.value ==> b[k] == BNum(TargetValue(t.value[k])))
      && (t.None? || k !in t.value ==> b[k] == BNum(ms.editorOverrides[k]))
  {
    var sp := HomeMaster.ParametersForSection(ms, cfg, ms.activeSection);
    OverrideSurvivesHover(BaseBag(ms, sp, vs), ms.editorOverrides, HoverBag(IsHovered(vs, vizId), vs.hovered), k);
    FinishKeeps(SpreadBag(ms, cfg, vs, vizId), VizTargets(vs, vizId), k, ms.editorOverrides[k]);
  }

  /** A numeric entry survives the last step unless an animated target
      for the same key replaces it. */
  lemma FinishKeeps(b: Bag, t: Option<map<string, AnimTarget>>, k: string, v: real)
    requires k in b && b[k] == BNum(v)
    ensures var r := FinishBag(b, t);
      && k in r
      && (t.Some? && k in t.value ==> r[k] == BNum(TargetValue(t.value[k])))
      && (t.None? || k !in t.value ==> r[k] == BNum(v))
  {
  }

  /** An override key outside the hover bag keeps its raw value through the
      spreads that follow it. */
  lemma OverrideSurvivesHover(base: Bag, eo: map<string, real>, hb: Bag, k: string)
    requires k in eo && k !in hb
    ensures var b := base + OverrideBag(eo) + hb;
      k in b && b[k] == BNum(eo[k])
  {
  }

  /** The literal's own intensity, speed and density entries, and no
      density multiplier. */
  lemma BaseBagReads(ms: HomeMaster.MasterState, sp: HomeMaster.SectionParams, vs: VisualState)
    requires ms.editorOverrides == map[]
    ensures var bb := BaseBag(ms, sp, vs);
      && "intensity" in bb && bb["intensity"] == BNum(sp.intensity)
      && "speed" in bb && bb["speed"] == BNum(sp.speed)
      && "density" in bb && bb["density"] == BNum(sp.density)
      && "densityMultiplier" !in bb
  {
  }

  /** Without overrides or targets, intensity, speed and density come from
      the section parameters of the active section, and a visualizer without
      targets gets a density multiplier of 1. */
  lemma SectionValuesByDefault(ms: HomeMaster.MasterState, cfg: Option<HomeMaster.EditorConfig>,
                               vs: VisualState, vizId: Option<string>)
    requires ms.editorOverrides == map[]
    requires VizTargets(vs, vizId).None?
    ensures var b := WebGLParameters(ms, cfg, vs, vizId);
      var sp := HomeMaster.ParametersForSection(ms, cfg, ms.activeSection);
      && "intensity" in b && b["intensity"] == BNum(sp.intensity)
      && "speed" in b && b["speed"] == BNum(sp.speed)
      && "density" in b && b["density"] == BNum(sp.density)
      && "densityMultiplier" in b && b["densityMultiplier"] == BNum(1.0)
  {
    var sp := HomeMaster.ParametersForSection(ms, cfg, ms.activeSection);
    var hovered := IsHovered(vs, vizId);
    var bb := BaseBag(ms, sp, vs);
    var hb := HoverBag(hovered, vs.hovered);
    assert OverrideBag(ms.editorOverrides) == map[];
    assert bb + map[] == bb;
    assert WebGLParameters(ms, cfg, vs, vizId) == FinishBag(bb + hb, None);
    DefaultBagReads(ms, sp, vs, hovered);
  }

  /** Without overrides or targets, the finished bag reads the section's
      values and the default density multiplier. */
  lemma DefaultBagReads(ms: HomeMaster.MasterState, sp: HomeMaster.SectionParams, vs: VisualState, hovered: bool)
    requires ms.editorOverrides == map[]
    requires hovered ==> vs.hovered.Some?
    ensures var b := FinishBag(BaseBag(ms, sp, vs) + HoverBag(hovered, vs.hovered), None);
      && "intensity" in b && b["intensity"] == BNum(sp.intensity)
      && "speed" in b && b["speed"] == BNum(sp.speed)
      && "density" in b && b["density"] == BNum(sp.density)
      && "densityMultiplier" in b && b["densityMultiplier"] == BNum(1.0)
  {
    BaseBagReads(ms, sp, vs);
    var bb := BaseBag(ms, sp, vs);
    var hb := HoverBag(hovered, vs.hovered);
    assert "intensity" !in hb && "speed" !in hb && "density" !in hb && "densityMultiplier" !in hb;
    var b := bb + hb;
    assert b["intensity"] == bb["intensity"] && b["speed"] == bb["speed"] && b["density"] == bb["density"];
    assert "densityMultiplier" !in b;
  }

  /** The id `syncAllLayers` gives a visualizer: its instance id when that
      is a non-empty string, else its role. */
  function VisualizerId(instanceId: Option<string>, role: Option<string>): (r: Option<string>)
    ensures instanceId.Some? && instanceId.value != "" ==> r == instanceId
    ensures (instanceId.None? || instanceId.value == "") && role.Some? && role.value != "" ==> r == role
    ensures instanceId.None? && role.None? ==> r.None?
  {
    if instanceId.Some? && instanceId.value != "" then instanceId else role
  }

  /** A visualizer as `syncAllLayers` sees it. */
  datatype Visualizer = Visualizer(instanceId: Option<string>, role: Option<string>)

  /** The bag one visualizer receives from `syncAllLayers`, as written:
      `getWebGLParameters({id: viz.instanceId || viz.role})`. */
  function LayerBagAsWritten(ms: HomeMaster.MasterState, cfg: Option<HomeMaster.EditorConfig>,
                             vs: VisualState, v: Visualizer): (r: Option<Bag>)
    ensures r.None? <==> vs.hovered.None? && VisualizerId(v.instanceId, v.role).None?
  {
    WebGLParametersAsWritten(ms, cfg, vs, VisualizerId(v.instanceId, v.role))
  }

  /** The bags `syncAllLayers` hands its visualizers, in order, as written:
      None when one of its `getWebGLParameters` calls throws, which ends the
      sync. */
  function SyncAllLayersAsWritten(ms: HomeMaster.MasterState, cfg: Option<HomeMaster.EditorConfig>,
                                  vs: VisualState, vizs: seq<Visualizer>): (r: Option<seq<Bag>>)
    ensures r.Some? ==> |r.value| == |vizs|
    ensures r.Some? ==> forall i :: 0 <= i < |vizs| ==> Some(r.value[i]) == LayerBagAsWritten(ms, cfg, vs, vizs[i])
    ensures r.None? <==> exists i :: 0 <= i < |vizs| && LayerBagAsWritten(ms, cfg, vs, vizs[i]).None?
  {
    var bags := seq(|vizs|, i requires 0 <= i < |vizs| => LayerBagAsWritten(ms, cfg, vs, vizs[i]));
    AllSomeSpec(bags);
    AllSome(bags)
  }

  /** As written, an editor update's closing sync throws when nothing is
      hovered and some visualizer has neither an instance id nor a role. */
  lemma SyncThrowsAsWritten(ms: HomeMaster.MasterState, cfg: Option<HomeMaster.EditorConfig>,
                            vs: VisualState, vizs: seq<Visualizer>, k: int)
    requires vs.hovered.None? && 0 <= k < |vizs|
    requires vizs[k].instanceId.None? && vizs[k].role.None?
    ensures SyncAllLayersAsWritten(ms, cfg, vs, vizs).None?
  {
    assert LayerBagAsWritten(ms, cfg, vs, vizs[k]).None?;
  }
}

=== FILE: webgl_perf.dfy ===
/** Bookkeeping of the WebGL performance system: the pool of rendering
    contexts, the shader and program cache with its 32-bit string hash and
    hit accounting, the frame-rate and render-time monitor, and adaptive
    per-visualizer quality scaling.

    Every `gl.*` call is opaque: creating a context, compiling a shader and
    linking a program become parameters saying whether the browser succeeded
    and which handle it returned. Wall-clock reads become `now`. */
module WebGlPerf {
  import opened Common

  // ---------------------------------------------------------------------
  // Options
  // ---------------------------------------------------------------------

  /** The options as given by the caller; None is an absent key. */
  datatype OptionsInput = OptionsInput(
    maxContexts: Option<int>,
    adaptiveQualityScaling: Option<bool>,
    memoryThresholdMB: Option<real>,
    performanceTarget: Option<real>)

  datatype Options = Options(
    maxContexts: int,
    adaptiveQualityScaling: bool,
    memoryThresholdMB: real,
    performanceTarget: real)

  /** The system's option object: `options.x || d` for every key, then
      `...options` spread over it, so any key the caller gave wins, `false`
      and `0` included, and only an absent key takes the default. In
      particular adaptive scaling is on unless explicitly turned off. */
  function MakeOptions(o: OptionsInput): (r: Options)
    ensures !r.adaptiveQualityScaling <==> o.adaptiveQualityScaling == Some(false)
    ensures o.maxContexts.None? ==> r.maxContexts == 16
    ensures o.performanceTarget.None? ==> r.performanceTarget == 60.0
    ensures o.performanceTarget.Some? ==> r.performanceTarget == o.performanceTarget.value
  {
    Options(
      OrDefault(o.maxContexts, 16),
      OrDefault(o.adaptiveQualityScaling, true),
      OrDefault(o.memoryThresholdMB, 256.0),
      OrDefault(o.performanceTarget, 60.0))
  }

  /** The pool reads `options.maxContexts || 16` again, so an explicit 0
      becomes 16 there. */
  function PoolMax(o: Options): (r: int)
    ensures r != 0
    ensures o.maxContexts != 0 ==> r == o.maxContexts
    ensures o.maxContexts == 0 ==> r == 16
  {
    if o.maxContexts != 0 then o.maxContexts else 16
  }

  /** The monitor reads `options.performanceTarget || 60`. */
  function MonitorTarget(o: Options): (r: real)
    ensures r != 0.0
    ensures o.performanceTarget != 0.0 ==> r == o.performanceTarget
    ensures o.performanceTarget == 0.0 ==> r == 60.0
  {
    Or(Some(o.performanceTarget), 60.0)
  }

  // ---------------------------------------------------------------------
  // Context pool
  // ---------------------------------------------------------------------

  /** A pooled context object; `holder` is the canvas it renders for. */
  datatype Ctx = Ctx(isAvailable: bool, holder: Option<nat>, lastUsed: int)

  /** `availableContexts` is a stack of context ids; `activeContexts` is a
      Map keyed by id, so only its key set matters here. Context ids are
      `context-<n>` for a counter n. */
  datatype Pool = Pool(
    maxContexts: int,
    contexts: map<nat, Ctx>,
    available: seq<nat>,
    active: set<nat>,
    counter: nat)

  function NewPool(o: Options): Pool
  {
    Pool(PoolMax(o), map[], [], {}, 0)
  }

  /** `getAvailableCount`. */
  function AvailableCount(p: Pool): nat
  {
    |p.available|
  }

  /** `getTotalContextCount`: the free list's length plus the number of
      active entries. */
  function TotalCount(p: Pool): nat
  {
    |p.available| + |p.active|
  }

  predicate Distinct(s: seq<nat>)
  {
    forall i, j :: 0 <= i < j < |s| ==> s[i] != s[j]
  }

  predicate Idle(p: Pool, id: nat)
  {
    id in p.contexts && p.contexts[id].isAvailable && p.contexts[id].holder.None? && id !in p.active
  }

  predicate Busy(p: Pool, id: nat)
  {
    id in p.contexts && !p.contexts[id].isAvailable && p.contexts[id].holder.Some?
  }

  /** The pool's intended shape: every free context is idle and listed once,
      every active one is busy (so none is both free and active), ids come
      from the counter, and no more contexts exist than the limit allows. */
  predicate PoolInv(p: Pool)
  {
    && Distinct(p.available)
    && (forall i :: 0 <= i < |p.available| ==> Idle(p, p.available[i]))
    && (forall id :: id in p.active ==> Busy(p, id))
    && (forall id :: id in p.contexts ==> 0 < id <= p.counter)
    && TotalCount(p) <= MaxInt(p.maxContexts, 0)
  }

  /** `createPooledContext`: on success a fresh id is pushed on the free
      list and returned; when the browser gives no context, nothing
      changes. */
  function CreatePooled(p: Pool, glOk: bool, now: int): (r: (Pool, Option<nat>))
    ensures !glOk ==> r == (p, None)
    ensures glOk ==> r.1 == Some(p.counter + 1) && r.0.counter == p.counter + 1
    ensures glOk ==> r.0.available == p.available + [p.counter + 1] && r.0.active == p.active
    ensures glOk ==> r.0.contexts == p.contexts[p.counter + 1 := Ctx(true, None, now)]
    ensures r.0.maxContexts == p.maxContexts
  {
    if !glOk then (p, None)
    else
      var id := p.counter + 1;
      (p.(counter := id, contexts := p.contexts[id := Ctx(true, None, now)], available := p.available + [id]), Some(id))
  }

  lemma CreatePooledKeepsInv(p: Pool, glOk: bool, now: int)
    requires PoolInv(p)
    requires TotalCount(p) < p.maxContexts
    ensures PoolInv(CreatePooled(p, glOk, now).0)
  {
    if glOk {
      var q := CreatePooled(p, glOk, now).0;
      var id := p.counter + 1;
      assert id !in p.contexts;
      forall i | 0 <= i < |q.available|
        ensures Idle(q, q.available[i])
      {
        if i < |p.available| {
          assert Idle(p, p.available[i]);
        }
      }
    }
  }

  function CreateMany(p: Pool, k: nat, glOk: bool, now: int): (r: Pool)
    ensures r.maxContexts == p.maxContexts && r.active == p.active
    decreases k
  {
    if k == 0 then p else CreateMany(CreatePooled(p, glOk, now).0, k - 1, glOk, now)
  }

  /** `initialize`: pre-create min(4, maxContexts) contexts. */
  function Initialize(p: Pool, glOk: bool, now: int): Pool
  {
    CreateMany(p, MaxInt(0, MinInt(4, p.maxContexts)), glOk, now)
  }

  lemma {:induction false} CreateManySpec(p: Pool, k: nat, glOk: bool, now: int)
    requires PoolInv(p)
    requires k == 0 || TotalCount(p) + k <= p.maxContexts
    ensures PoolInv(CreateMany(p, k, glOk, now))
    ensures |CreateMany(p, k, glOk, now).available| == |p.available| + (if glOk then k else 0)
    decreases k
  {
    if k > 0 {
      CreatePooledKeepsInv(p, glOk, now);
      CreateManySpec(CreatePooled(p, glOk, now).0, k - 1, glOk, now);
    }
  }

  /** A new pool, once initialized, holds min(4, max) idle contexts when the
      browser supplies them, none otherwise, and nothing active. */
  lemma InitializeSpec(o: Options, glOk: bool, now: int)
    ensures PoolInv(Initialize(NewPool(o), glOk, now))
    ensures Initialize(NewPool(o), glOk, now).active == {}
    ensures AvailableCount(Initialize(NewPool(o), glOk, now)) ==
              (if glOk then MaxInt(0, MinInt(4, PoolMax(o))) else 0)
  {
    CreateManySpec(NewPool(o), MaxInt(0, MinInt(4, PoolMax(o))), glOk, now);
  }

  /** Marks a context as handed to `canvas` and records it as active. */
  function Assign(p: Pool, got: Option<nat>, canvas: nat, now: int): (Pool, Option<nat>)
  {
    if got.None? then (p, None)
    else
      var id := got.value;
      (p.(contexts := p.contexts[id := Ctx(false, Some(canvas), now)], active := p.active + {id}), got)
  }

  /** The first half of `acquireContext` as written: pop a free context, or
      create one when the total is below the limit. A created context is
      pushed on the free list by `createPooledContext` and stays there. */
  function TakeAsWritten(p: Pool, glOk: bool, now: int): (Pool, Option<nat>)
  {
    if |p.available| > 0 then
      (p.(available := p.available[..|p.available| - 1]), Some(p.available[|p.available| - 1]))
    else if TotalCount(p) < p.maxContexts then CreatePooled(p, glOk, now)
    else (p, None)
  }

  function AcquireAsWritten(p: Pool, canvas: nat, glOk: bool, now: int): (r: (Pool, Option<nat>))
    ensures r.1.Some? ==> r.1.value in r.0.active
  {
    var (p1, got) := TakeAsWritten(p, glOk, now);
    Assign(p1, got, canvas, now)
  }

  /** As written, a context created on demand is handed out and left on the
      free list at once: it is both free and active, and the total counts it
      twice. */
  lemma FreshContextStaysFreeAsWritten(p: Pool, canvas: nat, now: int)
    requires PoolInv(p) && |p.available| == 0 && TotalCount(p) < p.maxContexts
    ensures var (q, got) := AcquireAsWritten(p, canvas, true, now);
            got == Some(p.counter + 1) && got.value in q.available && got.value in q.active
    ensures TotalCount(AcquireAsWritten(p, canvas, true, now).0) == TotalCount(p) + 2
  {
  }

  /** As written, the next acquire pops that same context and hands it to a
      second canvas while the first still holds it. */
  lemma DoubleHandOutAsWritten(p: Pool, c1: nat, c2: nat, now: int)
    requires |p.available| == 0 && TotalCount(p) < p.maxContexts
    ensures var (q, got1) := AcquireAsWritten(p, c1, true, now);
            var (q2, got2) := AcquireAsWritten(q, c2, true, now);
            got1.Some? && got2 == got1 && got1.value in q.active &&
            q2.contexts[got1.value].holder == Some(c2)
  {
  }

  /** The corrected first half: a context created on demand is handed out
      instead of being left on the free list. */
  function Take(p: Pool, glOk: bool, now: int): (Pool, Option<nat>)
  {
    if |p.available| > 0 then
      (p.(available := p.available[..|p.available| - 1]), Some(p.available[|p.available| - 1]))
    else if TotalCount(p) < p.maxContexts then
      var (p1, got) := CreatePooled(p, glOk, now);
      (p1.(available := p.available), got)
    else (p, None)
  }

  /** `acquireContext`, corrected: pop a free context if there is one, else
      create one while below the limit, else give none. */
  function Acquire(p: Pool, canvas: nat, glOk: bool, now: int): (r: (Pool, Option<nat>))
    ensures r.1.None? <==> |p.available| == 0 && (TotalCount(p) >= p.maxContexts || !glOk)
    ensures r.1.None? ==> r.0 == p
    ensures |p.available| > 0 ==>
              r.1 == Some(p.available[|p.available| - 1]) && r.0.available == p.available[..|p.available| - 1]
    ensures |p.available| == 0 && r.1.Some? ==> r.1 == Some(p.counter + 1) && r.0.available == []
    ensures r.1.Some? ==> var id := r.1.value;
              r.0.active == p.active + {id} && id in r.0.contexts &&
              r.0.contexts[id] == Ctx(false, Some(canvas), now)
    ensures r.0.maxContexts == p.maxContexts
  {
    var (p1, got) := Take(p, glOk, now);
    Assign(p1, got, canvas, now)
  }

  /** The corrected acquire keeps the pool's shape, never hands out a
      context that is already active, and grows the total only by a
      creation. */
  lemma AcquireKeepsInv(p: Pool, canvas: nat, glOk: bool, now: int)
    requires PoolInv(p)
    ensures PoolInv(Acquire(p, canvas, glOk, now).0)
    ensures var (q, got) := Acquire(p, canvas, glOk, now);
            (got.Some? ==> got.value !in p.active && got.value !in q.available) &&
            TotalCount(q) == TotalCount(p) + (if got.Some? && |p.available| == 0 then 1 else 0)
  {
    var (q, got) := Acquire(p, canvas, glOk, now);
    if got.Some? {
      var id := got.value;
      if |p.available| > 0 {
        var n := |p.available|;
        assert Idle(p, p.available[n - 1]);
        forall i | 0 <= i < |q.available|
          ensures Idle(q, q.available[i])
        {
          assert q.available[i] == p.available[i];
          assert Idle(p, p.available[i]);
        }
        assert |q.active| == |p.active| + 1;
      } else {
        assert id !in p.contexts;
        assert |q.active| == |p.active| + 1;
      }
    }
  }

  /** `releaseContext`: a context that is not active is ignored; an active
      one is cleared and moved back onto the free list. */
  function Release(p: Pool, ctx: Option<nat>, now: int): (r: Pool)
    ensures ctx.None? || ctx.value !in p.active ==> r == p
    ensures ctx.Some? && ctx.value in p.active ==>
              r.active == p.active - {ctx.value} && r.available == p.available + [ctx.value] &&
              r.contexts == p.contexts[ctx.value := Ctx(true, None, now)]
    ensures r.maxContexts == p.maxContexts && r.counter == p.counter
  {
    if ctx.None? || ctx.value !in p.active then p
    else
      var id := ctx.value;
      p.(contexts := p.contexts[id := Ctx(true, None, now)], active := p.active - {id}, available := p.available + [id])
  }

  lemma ReleaseKeepsInv(p: Pool, ctx: Option<nat>, now: int)
    requires PoolInv(p)
    ensures PoolInv(Release(p, ctx, now))
    ensures TotalCount(Release(p, ctx, now)) == TotalCount(p)
  {
    if ctx.Some? && ctx.value in p.active {
      var id := ctx.value;
      var q := Release(p, ctx, now);
      assert Busy(p, id);
      forall i | 0 <= i < |p.available|
        ensures p.available[i] != id && Idle(q, q.available[i])
      {
        assert Idle(p, p.available[i]);
      }
      assert |q.active| == |p.active| - 1;
    }
  }

  /** Acquiring a free context and releasing it again restores the free
      list and the active set exactly. */
  lemma AcquireReleaseRestores(p: Pool, canvas: nat, glOk: bool, t1: int, t2: int)
    requires PoolInv(p) && |p.available| > 0
    ensures var (q, got) := Acquire(p, canvas, glOk, t1);
            var r := Release(q, got, t2);
            r.available == p.available && r.active == p.active
  {
    var n := |p.available|;
    assert Idle(p, p.available[n - 1]);
    assert p.available[..n - 1] + [p.available[n - 1]] == p.available;
  }

  // ---------------------------------------------------------------------
  // Shader hash
  // ---------------------------------------------------------------------

  /** One step of `hashString` as written: `(hash << 5) - hash + code`,
      then `hash & hash` to bring it back to 32 bits. `<<` works on the
      32-bit value of `hash`. */
  function HashStep(h: int, c: char): int
  {
    ToInt32(ToInt32(ToInt32(h) * 32) - h + c as int)
  }

  function HashFrom(h: int, s: string): int
    decreases |s|
  {
    if |s| == 0 then h else HashFrom(HashStep(h, s[0]), s[1..])
  }

  /** `hashString`: a fold over the character codes from 0. */
  function Hash(s: string): int
  {
    HashFrom(0, s)
  }

  /** The reference: the base-31 polynomial of the codes, unreduced. */
  function Poly(s: string): int
  {
    if |s| == 0 then 0 else Poly(s[..|s| - 1]) * 31 + s[|s| - 1] as int
  }

  lemma ModMultiple(b: int, k: int)
    ensures (b + Two32 * k) % Two32 == b % Two32
  {
    var q := b / Two32;
    var r := b % Two32;
    assert b + Two32 * k == Two32 * (q + k) + r;
  }

  /** Numbers congruent modulo 2^32 have the same 32-bit value. */
  lemma ToInt32Congruent(a: int, b: int)
    requires (a - b) % Two32 == 0
    ensures ToInt32(a) == ToInt32(b)
  {
    var k := (a - b) / Two32;
    assert a == b + Two32 * k;
    ModMultiple(b, k);
  }

  lemma ScaleCongruence(x: int, y: int, m: int)
    requires (x - y) % Two32 == 0
    ensures (m * x - m * y) % Two32 == 0
  {
    var k := (x - y) / Two32;
    assert x - y == Two32 * k;
    assert m * x - m * y == Two32 * (m * k);
    ModMultiple(0, m * k);
  }

  /** Each step is 31·h + code reduced to 32 bits. */
  lemma HashStepIs31(h: int, c: char)
    ensures HashStep(h, c) == ToInt32(31 * h + c as int)
  {
    var a := ToInt32(h);
    ScaleCongruence(a, h, 32);
    var b := ToInt32(a * 32);
    // b ≡ 32a ≡ 32h, so b - h + c ≡ 31h + c
    var d1 := b - a * 32;
    var d2 := a * 32 - h * 32;
    assert (b - h + c as int) - (31 * h + c as int) == d1 + d2;
    var k1 := d1 / Two32;
    var k2 := d2 / Two32;
    assert d1 == Two32 * k1;
    assert d2 == Two32 * k2;
    ModMultiple(0, k1 + k2);
    ToInt32Congruent(b - h + c as int, 31 * h + c as int);
  }

  lemma {:induction false} HashFromAppend(h: int, s: string, c: char)
    ensures HashFrom(h, s + [c]) == HashStep(HashFrom(h, s), c)
    decreases |s|
  {
    if |s| > 0 {
      assert (s + [c])[1..] == s[1..] + [c];
      HashFromAppend(HashStep(h, s[0]), s[1..], c);
    }
  }

  /** `hashString` is the base-31 polynomial hash of the character codes
      reduced to a signed 32-bit integer. */
  lemma {:induction false} HashIsPolynomial(s: string)
    ensures Hash(s) == ToInt32(Poly(s))
    decreases |s|
  {
    if |s| > 0 {
      var n := |s|;
      var init := s[..n - 1];
      var c := s[n - 1];
      assert s == init + [c];
      HashFromAppend(0, init, c);
      HashIsPolynomial(init);
      HashStepIs31(Hash(init), c);
      var p := Poly(init);
      ScaleCongruence(ToInt32(p), p, 31);
      assert (31 * ToInt32(p) + c as int) - (p * 31 + c as int) == 31 * ToInt32(p) - 31 * p;
      ToInt32Congruent(31 * ToInt32(p) + c as int, p * 31 + c as int);
    }
  }

  /** The hash is a signed 32-bit value, 0 for the empty text. */
  lemma HashRange(s: string)
    ensures -Two31 <= Hash(s) < Two31
    ensures s == "" ==> Hash(s) == 0
  {
    HashIsPolynomial(s);
  }

  // ---------------------------------------------------------------------
  // Shader and program cache
  // ---------------------------------------------------------------------

  const VertexShader: int := 35633
  const FragmentShader: int := 35632

  /** `${type}-${hash}` */
  function ShaderKey(kind: int, source: string): string
  {
    IntText(kind) + "-" + IntText(Hash(source))
  }

  /** `${hash(vertex)}-${hash(fragment)}` */
  function ProgramKey(vertex: string, fragment: string): string
  {
    IntText(Hash(vertex)) + "-" + IntText(Hash(fragment))
  }

  /** Compiled shaders and linked programs are opaque GL handles. */
  datatype ShaderCache = ShaderCache(
    shaders: map<string, nat>,
    programs: map<string, nat>,
    hits: nat,
    misses: nat)

  const EmptyShaderCache := ShaderCache(map[], map[], 0, 0)

  function Lookups(c: ShaderCache): nat
  {
    c.hits + c.misses
  }

  /** `getShader`. `compiled` is what the browser's compiler gives for this
      source: a handle, or None on a compile error. */
  function GetShader(c: ShaderCache, kind: int, source: string, compiled: Option<nat>): (r: (ShaderCache, Option<nat>))
    ensures var key := ShaderKey(kind, source);
            if key in c.shaders then
              r.1 == Some(c.shaders[key]) && r.0 == c.(hits := c.hits + 1)
            else
              r.1 == compiled && r.0.hits == c.hits && r.0.misses == c.misses + 1 &&
              r.0.programs == c.programs &&
              r.0.shaders == (if compiled.Some? then c.shaders[key := compiled.value] else c.shaders)
  {
    var key := ShaderKey(kind, source);
    if key in c.shaders then (c.(hits := c.hits + 1), Some(c.shaders[key]))
    else
      var c1 := c.(misses := c.misses + 1);
      if compiled.None? then (c1, None)
      else (c1.(shaders := c.shaders[key := compiled.value]), compiled)
  }

  /** A shader that compiled once is served from the cache from then on,
      whatever the compiler would say, and counted as a hit; a failed
      compile is not remembered. */
  lemma RepeatedShaderHits(c: ShaderCache, kind: int, source: string, first: Option<nat>, second: Option<nat>)
    ensures var (c1, s1) := GetShader(c, kind, source, first);
            var (c2, s2) := GetShader(c1, kind, source, second);
            (s1.Some? ==> s2 == s1 && c2.hits == c1.hits + 1) &&
            (s1.None? ==> ShaderKey(kind, source) !in c1.shaders)
  {
  }

  /** What the browser gives while building a program: the two compile
      results and the link result. */
  datatype Build = Build(vertex: Option<nat>, fragment: Option<nat>, linked: Option<nat>)

  /** `getProgram`: a cached program is a hit; otherwise a miss, then both
      shaders are looked up (each counted on its own), and the program is
      cached only when both exist and linking succeeds. */
  function GetProgram(c: ShaderCache, vertex: string, fragment: string, b: Build): (r: (ShaderCache, Option<nat>))
    ensures ProgramKey(vertex, fragment) in c.programs ==>
              r == (c.(hits := c.hits + 1), Some(c.programs[ProgramKey(vertex, fragment)]))
    ensures ProgramKey(vertex, fragment) !in c.programs ==>
              Lookups(r.0) == Lookups(c) + 3 && r.0.hits >= c.hits
    ensures r.1.Some? && ProgramKey(vertex, fragment) !in c.programs ==>
              r.1 == b.linked && r.0.programs == c.programs[ProgramKey(vertex, fragment) := b.linked.value]
    ensures r.1.None? ==> r.0.programs == c.programs
  {
    var key := ProgramKey(vertex, fragment);
    if key in c.programs then (c.(hits := c.hits + 1), Some(c.programs[key]))
    else
      var c1 := c.(misses := c.misses + 1);
      var (c2, vs) := GetShader(c1, VertexShader, vertex, b.vertex);
      var (c3, fs) := GetShader(c2, FragmentShader, fragment, b.fragment);
      if vs.None? || fs.None? then (c3, None)
      else if b.linked.None? then (c3, None)
      else (c3.(programs := c3.programs[key := b.linked.value]), b.linked)
  }

  /** A program built once is returned from the cache on every later
      request for the same pair of sources. */
  lemma RepeatedProgramHits(c: ShaderCache, vertex: string, fragment: string, first: Build, second: Build)
    ensures var (c1, p1) := GetProgram(c, vertex, fragment, first);
            var (c2, p2) := GetProgram(c1, vertex, fragment, second);
            p1.Some? ==> p2 == p1 && c2.hits == c1.hits + 1 && c2.programs == c1.programs
  {
  }

  /** `getHitRate`: hits over lookups, 0 before any lookup. */
  function HitRate(c: ShaderCache): (r: real)
    ensures 0.0 <= r <= 1.0
    ensures Lookups(c) == 0 ==> r == 0.0
    ensures c.misses == 0 && c.hits > 0 ==> r == 1.0
    ensures c.hits == 0 ==> r == 0.0
  {
    if Lookups(c) > 0 then c.hits as real / Lookups(c) as real else 0.0
  }

  lemma DivAtLeast(x: real, y: real, a: real)
    requires y > 0.0 && x >= a * y
    ensures x / y >= a
  {
    assert x / y - a == (x - a * y) / y;
  }

  /** A hit never lowers the rate. */
  lemma HitRaisesRate(c: ShaderCache)
    ensures HitRate(c.(hits := c.hits + 1)) >= HitRate(c)
  {
    if Lookups(c) > 0 {
      var h := c.hits as real;
      var t := Lookups(c) as real;
      var a := h / t;
      assert a * t == h;
      assert a <= 1.0;
      assert h + 1.0 >= a * (t + 1.0);
      DivAtLeast(h + 1.0, t + 1.0, a);
    }
  }

  /** A miss never raises the rate. */
  lemma MissLowersRate(c: ShaderCache)
    ensures HitRate(c.(misses := c.misses + 1)) <= HitRate(c)
  {
    if Lookups(c) > 0 {
      var h := c.hits as real;
      var t := Lookups(c) as real;
      var b := h / (t + 1.0);
      assert b * (t + 1.0) == h;
      assert b >= 0.0;
      assert h >= b * t;
      DivAtLeast(h, t, b);
    }
  }

  // ---------------------------------------------------------------------
  // Performance monitor
  // ---------------------------------------------------------------------

  const RenderWindow: nat := 100

  datatype Monitor = Monitor(frameCount: nat, lastTime: real, renderTimes: seq<real>, currentFps: nat, targetFps: real)

  function NewMonitor(o: Options, now: real): Monitor
  {
    Monitor(0, now, [], 0, MonitorTarget(o))
  }

  /** One animation frame of the frame-rate tracker: count it, and once a
      second has passed publish the count and start over. */
  function TrackFrame(m: Monitor, now: real): (r: Monitor)
    ensures now - m.lastTime >= 1000.0 ==>
              r.currentFps == m.frameCount + 1 && r.frameCount == 0 && r.lastTime == now
    ensures now - m.lastTime < 1000.0 ==>
              r.frameCount == m.frameCount + 1 && r.currentFps == m.currentFps && r.lastTime == m.lastTime
    ensures r.renderTimes == m.renderTimes && r.targetFps == m.targetFps
  {
    var m1 := m.(frameCount := m.frameCount + 1);
    if now - m.lastTime >= 1000.0 then m1.(currentFps := m1.frameCount, frameCount := 0, lastTime := now)
    else m1
  }

  /** `recordRenderTime`: keep the hundred most recent render times. */
  function RecordRenderTime(m: Monitor, t: real): (r: Monitor)
    ensures |m.renderTimes| <= RenderWindow ==> |r.renderTimes| <= RenderWindow
    ensures |r.renderTimes| > 0 && r.renderTimes[|r.renderTimes| - 1] == t
    ensures |m.renderTimes| < RenderWindow ==> r.renderTimes == m.renderTimes + [t]
    ensures |m.renderTimes| >= RenderWindow ==> r.renderTimes == (m.renderTimes + [t])[1..]
    ensures r.(renderTimes := m.renderTimes) == m
  {
    m.(renderTimes := PushBounded(m.renderTimes, t, RenderWindow))
  }

  function Sum(s: seq<real>): real
  {
    if |s| == 0 then 0.0 else Sum(s[..|s| - 1]) + s[|s| - 1]
  }

  /** `getAverageRenderTime`: the mean, 0 with no samples. */
  function AverageRenderTime(m: Monitor): (r: real)
    ensures |m.renderTimes| == 0 ==> r == 0.0
  {
    if |m.renderTimes| == 0 then 0.0 else Sum(m.renderTimes) / |m.renderTimes| as real
  }

  lemma {:induction false} SumBounds(s: seq<real>, lo: real, hi: real)
    requires forall i :: 0 <= i < |s| ==> lo <= s[i] <= hi
    ensures |s| as real * lo <= Sum(s) <= |s| as real * hi
    decreases |s|
  {
    if |s| > 0 {
      SumBounds(s[..|s| - 1], lo, hi);
      assert (|s| - 1) as real * lo + lo == |s| as real * lo;
      assert (|s| - 1) as real * hi + hi == |s| as real * hi;
    }
  }

  /** The average lies between the smallest and largest sample. */
  lemma AverageWithinSamples(m: Monitor, lo: real, hi: real)
    requires |m.renderTimes| > 0
    requires forall i :: 0 <= i < |m.renderTimes| ==> lo <= m.renderTimes[i] <= hi
    ensures lo <= AverageRenderTime(m) <= hi
  {
    var s := m.renderTimes;
    var n := |s| as real;
    SumBounds(s, lo, hi);
    DivideBounds(Sum(s), n, lo, hi);
  }

  /** A total between `n * lo` and `n * hi` averages between `lo` and `hi`. */
  lemma DivideBounds(a: real, n: real, lo: real, hi: real)
    requires n > 0.0 && n * lo <= a <= n * hi
    ensures lo <= a / n <= hi
  {
    var q := a / n;
    assert a == q * n;
    assert (q - lo) * n == a - n * lo;
    assert (hi - q) * n == n * hi - a;
  }

  /** `isPerformanceGood`: at least 80% of the target frame rate. */
  predicate IsPerformanceGood(m: Monitor)
  {
    m.currentFps as real >= m.targetFps * 0.8
  }

  // ---------------------------------------------------------------------
  // Quality scaling
  // ---------------------------------------------------------------------

  const MinQuality: real := 0.1
  const InitialQuality: real := 1.0

  predicate InQualityRange(q: real)
  {
    MinQuality <= q <= 1.0
  }

  /** `reduceQuality`: 80%, not below the minimum. */
  function ReduceQuality(q: real): (r: real)
    ensures r >= MinQuality
    ensures q >= MinQuality ==> r <= q
    ensures q * 0.8 >= MinQuality ==> r == q * 0.8
  {
    Max(MinQuality, q * 0.8)
  }

  /** `increaseQuality`: 110%, not above 1. */
  function IncreaseQuality(q: real): (r: real)
    ensures r <= 1.0
    ensures 0.0 <= q <= 1.0 ==> r >= q
    ensures q * 1.1 <= 1.0 ==> r == q * 1.1
  {
    Min(1.0, q * 1.1)
  }

  /** Reduction strictly lowers a quality above the floor until it lands on
      the floor, which it then keeps; increase likewise for the ceiling. */
  lemma QualityStepsConverge(q: real)
    requires InQualityRange(q)
    ensures q > MinQuality ==> ReduceQuality(q) < q
    ensures ReduceQuality(MinQuality) == MinQuality
    ensures q < 1.0 ==> IncreaseQuality(q) > q
    ensures IncreaseQuality(1.0) == 1.0
  {
  }

  datatype QualityOp = Reduce | Increase | Minimum

  function ApplyQuality(q: real, op: QualityOp): real
  {
    match op
    case Reduce => ReduceQuality(q)
    case Increase => IncreaseQuality(q)
    case Minimum => MinQuality
  }

  function ApplyQualityOps(q: real, ops: seq<QualityOp>): real
    decreases |ops|
  {
    if |ops| == 0 then q else ApplyQualityOps(ApplyQuality(q, ops[0]), ops[1..])
  }

  /** From the initial 1.0, any sequence of reductions, increases and
      minimum settings keeps the quality in [0.1, 1]. */
  lemma {:induction false} QualityStaysInRange(q: real, ops: seq<QualityOp>)
    requires InQualityRange(q)
    ensures InQualityRange(ApplyQualityOps(q, ops))
    decreases |ops|
  {
    if |ops| > 0 {
      QualityStaysInRange(ApplyQuality(q, ops[0]), ops[1..]);
    }
  }

  /** Quality level of each active visualizer, by id. */
  type Visualizers = map<string, real>

  /** `updateQualitySettings`: when adaptive scaling is on, every visualizer
      is reduced while performance is not good, and increased while the
      frame rate is above 120% of the configured target. */
  function UpdateQualitySettings(o: Options, m: Monitor, v: Visualizers): (r: Visualizers)
    ensures r.Keys == v.Keys
    ensures !o.adaptiveQualityScaling ==> r == v
    ensures o.adaptiveQualityScaling && !IsPerformanceGood(m) ==>
              forall id :: id in v ==> r[id] == ReduceQuality(v[id])
    ensures o.adaptiveQualityScaling && IsPerformanceGood(m) && m.currentFps as real > o.performanceTarget * 1.2 ==>
              forall id :: id in v ==> r[id] == IncreaseQuality(v[id])
    ensures IsPerformanceGood(m) && m.currentFps as real <= o.performanceTarget * 1.2 ==> r == v
  {
    if !o.adaptiveQualityScaling then v
    else if !IsPerformanceGood(m) then map id | id in v :: ReduceQuality(v[id])
    else if m.currentFps as real > o.performanceTarget * 1.2 then map id | id in v :: IncreaseQuality(v[id])
    else v
  }

  /** Quality scaling keeps every visualizer's level in [0.1, 1]. */
  lemma UpdateKeepsRange(o: Options, m: Monitor, v: Visualizers)
    requires forall id :: id in v ==> InQualityRange(v[id])
    ensures forall id :: id in UpdateQualitySettings(o, m, v) ==> InQualityRange(UpdateQualitySettings(o, m, v)[id])
  {
  }

  /** `emergencyCleanup`: every visualizer drops to the minimum quality. */
  function EmergencyCleanup(v: Visualizers): (r: Visualizers)
    ensures r.Keys == v.Keys
    ensures forall id :: id in r ==> r[id] == MinQuality
  {
    map id | id in v :: MinQuality
  }
}
